=== FILE: README.md ===
# Dominion engine, modelled in Dafny

This project models the engine of the `dominion` package, a Python implementation of the deck-building card game Dominion. It covers the following parts, each as immutable values and pure functions driven by an explicit sequence of player answers:

- **Card catalog** (`Cards`). The card classes and their fields, the `desc` fallback and `is_action_card`. Also every base-game card's kind, price, points and value, `STARTER_DECK` and `KINGDOM_CARDS`.
- **Per-player deck** (`Decks`, `Shuffling`, `DeckScenarios`).
  - The draw, discard and hand piles and the recorded `counts`.
  - `draw_cards` with its replace-hand and reshuffle rules, `trash`, `add`, `move` and `len`.
  - `random.shuffle` becomes a decoding of a tape of random picks. It is proved to yield a permutation, and every permutation is reachable.
  - The unit tests of the deck, as scenarios proved for every shuffle.
- **Players** (`Players`). The `hand` and `treasure` properties, `reset_modifiers`, the modifier increments the card effects use, and the option builders over a list of cards.
- **Supply and table** (`Supplies`).
  - Pile seeding from the player count, with the kingdom as a parameter.
  - Dictionary lookup and insertion order.
  - `Supply.buy` and `Table.buy`, the purchasable filter and the empty-pile count.
- **Event queue** (`Queue`, `Plays`). `GameContext`'s queue, front and back insertion, and the lazy refill of one turn per player. Also the `get_num_events` and `clear_events_ahead_of_self` helpers, the seating rotation that addresses attacks, and each card's `play`.
- **Phase events** (`Phases`, `Turns`). PlayAction, Buy, Cleanup and Setup, one step each. Also the Moat reaction and the position-marking dialogue the effects share.
- **Card effects** (`SimpleEffects`, `DiscardEffects`, `TrashEffects`, `Gains`, `RevealEffects`, `PlayEffects`, `LibraryEffects`). The `forward` of every base-game card event.
- **Console controller** (`Controller`, `Numerals`). The Levenshtein distance, fuzzy matching, the input validator and the Skip option.

Player input is a sequence of answers (`Choices`). Each answer is an offered option key or Skip. An answer the options do not accept is refused and the next one is read, as the console re-prompts. `Err(NoMoreInput)` stands for a dialogue that never ends.

Python exceptions become the `Err` arm of a `Result`.

`Decks.Deck` adds a `played` pile, which Throne Room names and the package's `Deck` class lacks.

Several deck calls in the card effects raise as written. The package's `Deck` (`dominion/players/deck.py`) defines `draw_cards`, `add` and `move`, but not in the form these calls use:
- `draw_cards` has no `to_caller` parameter (deck.py:37), so `draw_cards(n, to_caller=True)` raises TypeError. Library (library.py:16), Vassal (vassal.py:17), Sentry (sentry.py:23) and Bandit's attack (bandit.py:68) therefore raise.
- `add` accepts only the discard pile and raises NotImplementedError for the draw pile or the hand (deck.py:65-75). Sentry's put-back (sentry.py:67 and 69), Library's kept card (library.py:26), and the gains that `Supply.buy` routes through `add` for Artisan (to the hand, artisan.py:42) and Bureaucrat (to the draw pile, bureaucrat.py:36) therefore raise.
- `move` finds cards by value (deck.py:94-96). Cellar (cellar.py:34-35) and Poacher (poacher.py:40-41) pass hand positions, and `Card` defines no equality with an integer, so any marked card raises RuntimeError. Harbinger passes one bare position (harbinger.py:27), which is not iterable, so it raises TypeError.
- `move` knows only the draw, discard and hand piles (deck.py:85-92). Throne Room's move to PLAYED (throne_room.py:41-43) raises KeyError.

The model does not reproduce these raises. It gives each call its evident meaning through an extended interface beside the written one:
- `draw_cards(to_caller=True)`: `Decks.DrawToCaller`
- `add` to the draw pile or the hand: `Decks.AddTo`
- `move` by position: `Decks.MoveIndices`
- `move` that knows the played pile: `Decks.MoveAny`

The card effects also use names that the package's `Player` class and its other modules do not define, so each of these raises when it is reached. Each is given a stated meaning in the model:
- `set_modifier`: `Players.SetModifier`
- `get_other_players`: `Queue.OtherPlayers`
- `CardType.ACTION_ATTACK` and `CardType.ACTION_REACTION`: two further members of `Cards.CardType`, beside the four that `dominion/common.py` defines. `is_action_card` and Vassal's kind list name them.
- The classes `ActionAttackCard` (Bureaucrat) and `ActionReactionCard` (Moat): `Cards.ActionAttackCard` and `Cards.ActionReactionCard`, which build a card of kind ACTION_ATTACK and ACTION_REACTION respectively, with neither points nor value. Bandit, Militia and Witch subclass `ActionCard` and so have kind ACTION. The Vassal finding below rests on Bureaucrat's kind being ACTION_ATTACK.
- `get_all_as_options` (imported by Chapel from `dominion.events`): `Players.CardOptions(Hand(p), AnyCard)`, every hand position labelled with its card's name.
- The `DeckPile` enum that `dominion/common.py` is imported for: `Decks.DeckPile`, with members DRAW, DISCARD and HAND as the deck's pile table uses them, plus PLAYED, which Throne Room names.

`game_ctx.supply` and `game_ctx.table` are taken to be one list of piles.

## Model

| member | source | states |
|---|---|---|
| Cards.MakeCard | dominion/cards/card.py:10-25 | a new card carries the given name, kind, cost and description, with points and value unset |
| Cards.TreasureCard | dominion/cards/card.py:43-46 | a treasure card has kind TREASURE and the given value, points unset |
| Cards.VictoryCard | dominion/cards/card.py:49-52 | a victory card has kind VICTORY and the given points, value unset |
| Cards.ActionCard | dominion/cards/card.py:55-57 | an action card has kind ACTION and neither points nor value |
| Cards.ActionAttackCard | dominion/cards/base_game/bureaucrat.py:90-96 | the attack subclass gives kind ACTION_ATTACK and neither points nor value |
| Cards.ActionReactionCard | dominion/cards/base_game/moat.py:20-25 | the reaction subclass gives kind ACTION_REACTION and neither points nor value |
| Cards.Str | dominion/cards/card.py:27-29 | the printed form is the name between square brackets, two characters longer |
| Cards.Desc | dominion/cards/card.py:31-40 | a written description wins; otherwise a sentence exists exactly for victory, treasure and curse kinds, and action kinds give None |
| Cards.IsActionCard | dominion/util/cardfuncs.py:9-16 | a card is an action card exactly when its kind is none of VICTORY, TREASURE and CURSE; nothing but the kind is looked at |
| Cards.ActionCards | dominion/util/cardfuncs.py:9-16 | over the catalogue, every card except Copper, Silver, Gold, Estate, Duchy, Province, Curse and Gardens is an action card, so Bureaucrat and Moat count as actions |
| Cards.Build | dominion/cards/card.py:43-57 | the subclass constructor chosen by kind sets exactly the field that kind calls for |
| Cards.StarterDeckShape | dominion/cards/base_game/__init__.py:38 | the starter deck is three Estates followed by seven Coppers, ten cards |
| Cards.KingdomIsAllVillage | dominion/cards/base_game/__init__.py:24-36 | the kingdom list has eleven entries, and any selection from it holds only Village |
| Cards.CopperByName | dominion/cards/base_game/__init__.py:3-22 | the only card named "Copper" is Copper, so matching by name is matching by identity |
| Cards.InfoFields | dominion/cards/base_game/__init__.py:3-22 | each shared instance carries its catalog name, kind, price and description |
| Cards.InfoShape | dominion/cards/card.py:43-57 | treasures carry a value, victory cards and the Curse carry points, action cards carry neither, and a hand card adds its value only when it is a treasure |
| Cards.KindShape | dominion/cards/base_game/__init__.py:3-22 | the treasures are exactly Copper, Silver and Gold, all worth more than 0; the victory cards are exactly Estate, Duchy, Province and Gardens; the Curse is the only curse; no price is negative |
| Cards.GoldEntry | dominion/cards/base_game/gold.py:4-6 | Gold costs 6, is a treasure worth 3 with no written description, and its description falls back to "Treasure card worth 3." |
| Cards.SilverEntry | dominion/cards/base_game/silver.py:4-9 | Silver costs 3 and is a treasure worth 2, described as "Treasure card worth 2." |
| Cards.EstateEntry | dominion/cards/base_game/estate.py:4-6 | Estate costs 2 and is a victory card worth 1 VP, described as "Victory card worth 1 VP." |
| Cards.DuchyEntry | dominion/cards/base_game/duchy.py:4-6 | Duchy costs 5 and is a victory card worth 3 VP, described as "Victory card worth 3 VP." |
| Cards.ProvinceEntry | dominion/cards/base_game/province.py:4-6 | Province costs 8 and is a victory card worth 6 VP, described as "Victory card worth 6 VP." |
| Cards.CurseEntry | dominion/cards/base_game/curse.py:5-8 | the Curse costs 0, has kind CURSE and -1 VP with no value, described as "-1 VP for each held." |
| Cards.GardensEntry | dominion/cards/base_game/gardens.py:4-9 | Gardens costs 4 and is a victory card with 0 stored VP and its own written description |
| Choices.Ask | dominion/players.py:147-153 | an answer is obtained exactly when some answer in the input is acceptable; it is the first acceptable one, every earlier answer having been refused, and reading resumes after it |
| Choices.AskTakesFirst | dominion/players.py:147-153 | given the position of the first acceptable answer, the prompt returns exactly that answer and the input after it |
| Choices.NothingToAccept | dominion/players.py:147-153 | with no option and no Skip, no input ever answers the prompt |
| Options.Collect | dominion/events.py:32-48 | an option map holds exactly the kept positions below the bound, each labelled with its label |
| Options.CollectEmpty | dominion/events.py:32-48 | an option map is empty exactly when no position is kept |
| Numerals.NatToString | dominion/controller.py:54-55 | the decimal form of a number is a non-empty string of digits |
| Numerals.IntToString | dominion/cards/card.py:36-40 | the decimal form of an integer is non-empty and starts with '-' exactly for negative numbers |
| Numerals.ParsePrinted | dominion/controller.py:54-55 | reading back a printed number gives that number |
| Decks.Size | dominion/players/deck.py:18-19 | the deck's length is the number of cards in its piles whenever the counts agree with them |
| Decks.Recount | dominion/players/deck.py:29-32 | refreshing the counts makes them agree with the piles and changes no pile |
| Decks.NewDeck | dominion/players/deck.py:11-16 | a new deck holds the starter cards in some order on the draw pile, nothing elsewhere, with counts that agree and a length equal to the starter list's |
| Decks.NewDeckAnyOrder | dominion/players/deck.py:11-16 | every ordering of the starter cards is a possible initial draw pile |
| Decks.FreshDeck | dominion/players/deck.py:11-16 | a new player deck has ten cards on the draw pile and an empty hand and discard pile |
| Decks.Reshuffle | dominion/players/deck.py:21-27 | the discard pile, in some order, goes under the draw pile and the discard pile empties; the hand is untouched |
| Decks.ReshuffleCards | dominion/players/deck.py:21-27 | a reshuffle keeps every card of the deck |
| Decks.DiscardHand | dominion/players/deck.py:40-42 | replacing the hand appends it to the discard pile and empties it; otherwise nothing changes |
| Decks.DiscardHandCards | dominion/players/deck.py:40-42 | discarding the hand keeps every card of the deck |
| Decks.DrawCards | dominion/players/deck.py:37-50 | a draw keeps every card of the deck and its size, and keeps valid counts valid |
| Decks.DrawTop | dominion/players/deck.py:48-49 | the top k draw-pile cards move, in order, to the end of the hand |
| Decks.DrawTopCards | dominion/players/deck.py:48-49 | moving the top cards into the hand keeps every card of the deck |
| Decks.DrawWithoutReshuffle | dominion/players/deck.py:37-50 | the kept hand stays a prefix; with at least n cards to draw, exactly the top n move to the hand and the discard pile and random tape are untouched |
| Decks.DrawWithReshuffle | dominion/players/deck.py:44-50 | with fewer than n cards to draw, the discard pile empties and as many cards as the deck holds outside the hand, up to n, are drawn; what was drawn followed by the new draw pile is the old draw pile followed by a permutation of the discard pile |
| Decks.DrawTopSplit | dominion/players/deck.py:48-49 | the new part of the hand followed by the draw pile is the old draw pile |
| Decks.Trash | dominion/players/deck.py:52-63 | trashing succeeds exactly from the hand when the hand holds the cards, counting repeats; it then removes them, leaving the hand holding the rest of its cards with its length reduced by their number, and refreshes the counts, so the deck shrinks by their number; ValueError for a missing card or a non-pile, NotImplementedError for another pile (which occurrence goes, and the order left, are stated by the two rows below) |
| Decks.TrashRemovesFirst | dominion/players/deck.py:56-58 | trashing from the hand leaves, order included, exactly the hand that `list.remove` of each listed card in turn leaves |
| Decks.TrashOne | dominion/players/deck.py:56-58 | trashing one held card removes its first occurrence in the hand and keeps every other card in order |
| Seqs.FirstIndex | dominion/players/deck.py:58 | the first position of a held value: it holds the value and no earlier position does |
| Seqs.RemoveFirstIsFirst | dominion/players/deck.py:58 | `list.remove(x)` cuts out exactly the first occurrence of `x`, keeping the elements before and after it in order |
| Decks.Add | dominion/players/deck.py:65-75 | adding succeeds exactly on the discard pile, appending the cards and growing the deck by their number; NotImplementedError for another pile, ValueError for a non-pile |
| Decks.MoveOne | dominion/players/deck.py:94-98 | one loop step changes neither the counts nor the random tape |
| Decks.MoveOneBetween | dominion/players/deck.py:94-98 | between two piles, one step removes the first copy of the card from the source, puts it at index 0 of the destination and touches no third pile |
| Decks.MoveEach | dominion/players/deck.py:94-98 | the loop fails only with RuntimeError and never touches the counts or the random tape |
| Decks.MoveEachCards | dominion/players/deck.py:94-98 | a successful loop keeps every card of the deck |
| Decks.MoveEachOk | dominion/players/deck.py:94-96 | between two piles the loop succeeds exactly when the source holds all the cards, counting repeats |
| Decks.MoveEachTo | dominion/players/deck.py:94-98 | between two piles the moved cards end on top of the destination in reverse order, the last one on top |
| Decks.MoveEachFrom | dominion/players/deck.py:94-98 | between two piles the source loses exactly the moved cards |
| Decks.MoveEachOthers | dominion/players/deck.py:94-98 | between two piles no third pile changes |
| Decks.MoveEachSpec | dominion/players/deck.py:94-98 | the loop's outcome between any two different piles, in one statement |
| Decks.Move | dominion/players/deck.py:78-98 | only the TOP position is implemented and only the draw, discard and hand piles are known (KeyError otherwise); between two of them the move succeeds exactly when the source holds the cards, counting repeats; a move keeps the deck's cards, its counts and its size; RuntimeError is the only other failure |
| Decks.DrawToCaller | dominion/players/deck.py:37-50 | the extended draw hands the top cards to the caller under the same reshuffle rule, leaves hand and played alone, and refreshes the counts |
| Decks.DrawToCallerCards | dominion/players/deck.py:37-50 | the cards handed out are exactly the ones that left the deck |
| Decks.AddTo | dominion/players/deck.py:65-75 | the extended add puts the cards on top of the draw pile in order, or at the end of any other pile, changes no other pile and grows the deck by their number |
| Decks.AddToDiscard | dominion/players/deck.py:65-75 | on the discard pile the extended add is the written add |
| Decks.MoveIndices | dominion/players/deck.py:77-100 | moving by index succeeds exactly for distinct positions inside the source; the picked cards go on top of the destination in reverse order and the source keeps the others in order |
| Decks.MoveIndicesCards | dominion/players/deck.py:77-100 | moving by index keeps every card of the deck, so valid counts stay valid |
| Decks.MoveAny | dominion/players/deck.py:78-98 | the move by card value between any two piles, the played pile included, succeeds exactly when the source holds the cards and puts them on top of the destination |
| Shuffling.Shuffle | dominion/players/deck.py:13 | a shuffle is a permutation of its input |
| Shuffling.ShuffleReachesEveryOrder | dominion/players/deck.py:13 | every permutation of the input is the shuffle of some random tape |
| DeckScenarios.NewDeckIsFresh | test/test_deck.py:7-14 | every new deck has ten cards, all on the draw pile |
| DeckScenarios.FirstHandShape | test/test_deck.py:17-24 | the first five-card draw takes the top five cards into the hand and keeps the size at ten |
| DeckScenarios.TopFive | dominion/players/deck.py:37-50 | drawing five from a deck with nothing in hand or discard splits the draw pile |
| DeckScenarios.DrawScenario | test/test_deck.py:17-39 | two five-card hands empty the draw pile and put five in the discard pile; one more card reshuffles, gives a six-card hand and empties the discard pile; the size stays ten |
| DeckScenarios.FiveHoldACopper | test/test_deck.py:42-46 | any five cards of the starter deck include a Copper |
| DeckScenarios.TrashScenario | test/test_deck.py:42-49 | trashing a Copper from the first hand succeeds and leaves four cards in hand and nine in the deck |
| DeckScenarios.AddScenario | test/test_deck.py:52-60 | adding two Coppers leaves the hand at five, the deck at twelve and the discard pile at two |
| DeckScenarios.MoveScenario | test/test_deck.py:63-72 | moving a Copper from the first hand to the discard pile leaves four in hand, ten in the deck and the Copper on top of the discard pile |
| Players.NewPlayer | dominion/players/players.py:10-13 | a new player has the given name, no modifiers and a fresh ten-card deck holding the starter cards |
| Players.HandTreasure | dominion/players/players.py:20-26 | the hand's treasure is one per Copper, two per Silver and three per Gold held, so between 0 and three times the hand's size |
| Players.TreasureOfShape | dominion/players/players.py:24-26 | a card adds to the treasure exactly when it is Copper, Silver or Gold |
| Players.TreasureOfValue | dominion/players/players.py:24-26 | a Copper adds 1, a Silver 2 and a Gold 3 to the treasure, any other card nothing |
| Players.HandTreasureAppend | dominion/players/players.py:24-26 | the treasure of a split hand is the sum of the parts' treasures |
| Players.HandTreasureOrderFree | dominion/players/players.py:24-26 | the treasure depends only on which cards are held, not their order |
| Players.HandTreasureZero | dominion/players/players.py:24-26 | the treasure is zero exactly when the hand holds no Copper, Silver or Gold |
| Players.Treasure | dominion/players/players.py:20-33 | the treasure is one per Copper, two per Silver and three per Gold in hand, minus the amount spent; with nothing spent it is the hand's treasure and never negative |
| Players.ResetModifiers | dominion/players/players.py:35-36 | resetting empties the modifiers, changes neither name nor deck, and leaves the treasure equal to the hand's |
| Players.SetModifier | dominion/cards/base_game/militia.py:29-31 | the increment raises one key, unset counting as 0, and changes no other key, the name or the deck |
| Players.SetModifierTwice | dominion/cards/base_game/militia.py:29-31 | two increments of one key are one increment by their sum |
| Players.TreasureModifiers | dominion/players/players.py:28-33 | only 'spent' lowers the treasure, by exactly the amount spent; other keys such as 'extra_treasure' do not change it |
| Players.CardOptions | dominion/events.py:32-39 | the offered positions are exactly those whose card passes the filter, each labelled with the card's name |
| Players.PlayableActions | dominion/players.py:170-177 | a hand position is playable exactly when its card has kind ACTION |
| Players.CopperOptions | dominion/cards/base_game/moneylender.py:12-17 | the positions named "Copper" are exactly the Coppers |
| Supplies.Find | dominion/supply.py:74-78 | the position found holds the card, and no position is found exactly when no pile holds it |
| Supplies.Left | dominion/supply.py:77-78 | the count is found exactly when some pile holds the card, is that pile's count when keys are unique, and is KeyError otherwise |
| Supplies.FindSameKeys | dominion/supply.py:74-78 | two supplies with the same keys at the same positions find every card at the same position |
| Supplies.FindAppend | dominion/supply.py:60-61 | appending a pile keeps the position of every card already present and finds a new card at the end |
| Supplies.Put | dominion/supply.py:60-61 | setting a card's count makes it read back, changes no other card's count, keeps keys unique, overwrites an existing pile in place and appends a new one |
| Supplies.BasePiles | dominion/supply.py:48-58 | the base supply has seven piles with unique keys |
| Supplies.BaseCounts | dominion/supply.py:48-58 | Copper starts at 60 - 7n, Silver at 40, Gold at 30, Estate, Duchy and Province at 8 for two players and 12 otherwise, Curse at 10(n - 1), and no other card has a pile |
| Supplies.Seed | dominion/supply.py:60-61 | every kingdom card ends with a pile of 10, every other card keeps its count, and existing piles keep their positions |
| Supplies.PutSame | dominion/supply.py:60-61 | setting a pile to the count it holds changes nothing |
| Supplies.SeedPresent | dominion/supply.py:60-61 | repeating a card already at 10 changes nothing, so duplicates collapse into one pile |
| Supplies.KingdomChoice | dominion/supply.py:37-45 | explicit cards override debug, debug selects the whole kingdom list, and otherwise the random choice is used |
| Supplies.NewSupply | dominion/supply.py:19-61 | a new supply has unique keys, the seven base piles first, a pile of 10 for every kingdom card and the base counts elsewhere |
| Supplies.VillageOnly | dominion/supply.py:60-61 | a kingdom of Villages alone appends one Village pile of 10 to the base piles |
| Supplies.VillageKingdom | dominion/cards/base_game/__init__.py:24-36 | any kingdom taken from the kingdom list gives the base piles plus one Village pile |
| Supplies.DebugSupply | dominion/supply.py:40-41 | the debug supply is the base piles plus one Village pile of 10 |
| Supplies.Resolve | dominion/supply.py:98-103 | an int resolves to the pile at that position, counting negative positions from the end, and raises IndexError outside; a card resolves to itself; anything else raises TypeError |
| Supplies.Decrement | dominion/supply.py:105 | one copy leaves exactly the pile at that position |
| Supplies.Buy | dominion/supply.py:80-114 | a purchase succeeds exactly when the target resolves to a card that has a pile, with no check of price or count; it fails only with TypeError, IndexError or KeyError |
| Supplies.BuyEffect | dominion/supply.py:98-114 | a purchase takes one copy off exactly the card's pile and puts exactly one copy on the chosen pile of the buyer's deck; a free gain leaves the modifiers alone, a paid one raises 'spent' by the cost and changes no other key |
| Supplies.DecrementLeft | dominion/supply.py:105 | with unique keys, taking a copy lowers only that card's count by one and keeps the keys unique |
| Supplies.BuyLeft | dominion/supply.py:105 | with unique keys, a purchase lowers the bought card's count by one and changes no other count |
| Supplies.TakeOne | dominion/supply.py:105 | taking a copy off the pile where a card sits lowers that card's count by one, keeps the keys unique and changes no other count |
| Supplies.BuySupply | dominion/supply.py:98-105 | the supply after a purchase is the old one with the resolved card's pile decremented |
| Supplies.TableKingdom | dominion/table.py:17-28 | as written: FIXED raises NameError, since five of its names are not exported; without it DEBUG selects the whole kingdom list, else the random choice is used |
| Supplies.IntendedKingdom | dominion/table.py:17-28 | as evidently meant: FIXED selects the ten fixed cards, else DEBUG selects the whole kingdom list, else the random choice |
| Supplies.KingdomAgrees | dominion/table.py:18-21 | without FIXED, the written kingdom and the intended one are the same list |
| Supplies.FixedRaises | dominion/table.py:22-26 | with FIXED set, the written table raises NameError where the intended one has the ten fixed cards |
| Supplies.NewTable | dominion/table.py:11-42 | with the switches as shipped the kingdom step does not raise; a new table is the base piles seeded with that kingdom and has unique keys |
| Supplies.TableIsDebugSupply | dominion/table.py:11-42 | the shipped table equals the debug supply: the base piles with the same formulas, then one Village pile of 10 |
| Supplies.FixedTable | dominion/table.py:22-26 | with FIXED set, the intended table gives each of the ten fixed cards a pile of 10 after the base piles |
| Supplies.TableBuy | dominion/table.py:57-68 | the table's purchase succeeds exactly for a position inside the list, counting negatives from the end, and raises IndexError otherwise |
| Supplies.TableBuyIsBuy | dominion/table.py:57-68 | the table's purchase is the supply's purchase of a position, paid, into the discard pile |
| Supplies.SupplyOptions | dominion/events.py:42-48 | a supply position is offered exactly when its pile is non-empty and costs at most the limit (and, for Mine, is a treasure), labelled with the card's name |
| Supplies.TableBuyAt | dominion/table.py:57-62 | buying a position of a supply with unique keys yields that pile's card and lowers its count by one |
| Supplies.PurchasableNeverEmpty | dominion/events.py:42-48 | a purchasable position is bought without error, costs at most the buyer's treasure, and never takes its pile below zero |
| Supplies.EmptyPiles | dominion/cards/base_game/poacher.py:21-24 | no more piles are counted empty than there are piles |
| Supplies.EmptyPilesNone | dominion/cards/base_game/poacher.py:21-24 | no pile is counted exactly when no pile is at zero |
| Supplies.EmptyPilesDecrement | dominion/cards/base_game/poacher.py:21-24 | taking a copy from a pile that had more than one empties no pile |
| Queue.AddEvent | dominion/game.py:22-28 | BACK appends the event, FRONT puts it first, and any other position leaves the context unchanged |
| Queue.AddEvents | dominion/game.py:30-36 | BACK yields the old queue then the events, FRONT the events then the old queue, keeping their order; any other position changes nothing |
| Queue.AddEventIsAddEvents | dominion/game.py:22-36 | adding one event is adding the list that holds it |
| Queue.AddEachBack | dominion/game.py:19-20 | adding events one at a time at the back is adding the whole list at the back |
| Queue.AddSetups | dominion/game.py:19-20 | the setup loop appends one SetupEvent per name, in seating order, behind the waiting events |
| Queue.NewContext | dominion/game.py:13-20 | a new context keeps the names as the seating order, builds the table for that many players, and queues exactly one SetupEvent per player in order |
| Queue.AddTurns | dominion/game.py:41-44 | the refill appends, for each player in order, a PlayActionEvent, a BuyEvent and a CleanupEvent behind the waiting events |
| Queue.GetNextEvent | dominion/game.py:38-46 | a non-empty queue gives up its head and keeps its tail; an empty one is refilled first, giving the first player's PlayActionEvent and leaving 3n - 1 events; with no players the pop raises IndexError |
| Queue.RefillTurns | dominion/game.py:41-44 | after a refill, event 3i + j is phase j of player i |
| Queue.FrontIsNext | dominion/game.py:27-28 | an event added at the front is the next one out, and what remains is the old context |
| Queue.FrontEventsFirst | dominion/game.py:35-36 | events added at the front come out first, in their order |
| Queue.BackWaits | dominion/game.py:25-26 | an event added at the back does not overtake the waiting head |
| Queue.NumEvents | dominion/events.py:11-20 | the count is one plus the leading run of events of the caller's class: every counted event has that class and the next one does not |
| Queue.NumEventsLongest | dominion/events.py:11-20 | no longer leading run of the caller's class exists than the one counted |
| Queue.ClearAhead | dominion/events.py:22-28 | when some event of another class is waiting, the queue from the first such event on is kept; when every event has the caller's class, including an empty queue, nothing changes |
| Queue.ClearFromRun | dominion/events.py:25-28 | the clearing loop, started inside a leading run of the caller's class, cuts at the first event of another class or leaves the queue alone |
| Queue.ClearAheadSettles | dominion/events.py:22-28 | after clearing, no event of the caller's class leads the queue unless nothing was removed, and clearing twice is clearing once |
| Queue.Seat | dominion/game.py:14 | a player's seat holds their name, is the first one that does, and is missing exactly for a name not seated |
| Queue.OtherPlayers | dominion/cards/base_game/bandit.py:108 | a seated player's others are everyone else, from the next seat round the table; an unseated name addresses everyone; together with the player they are the whole table |
| Queue.Rotation | dominion/cards/base_game/bandit.py:108 | entry k of the rotation after seat i is seat (i + 1 + k) mod n |
| Queue.RotationCount | dominion/cards/base_game/bandit.py:108 | the rotation plus the player's own seat is the whole table |
| Queue.OthersExcludeSelf | dominion/cards/base_game/bandit.py:108 | with distinct names a player is never among their own others |
| Plays.Targets | dominion/cards/base_game/militia.py:85-92 | one Other event per addressed player, in rotation order |
| Plays.Bonus | dominion/cards/base_game/festival.py:18-25 | a card's trailing phase events are all PlayAction or Buy events for the player |
| Plays.PlayEvents | dominion/cards/base_game/council_room.py:27-34 | a card's list starts with its own event for the player, followed for attacks and Council Room by one Other event per other player; it holds no Setup or Cleanup event, names no other card, and only the Other events target anyone else |
| Plays.Play | dominion/cards/base_game/smithy.py:18-22 | playing a card puts its list at the front of the queue and changes neither seating nor supply |
| Plays.PlayGrants | dominion/cards/base_game/village.py:15-21 | a played card queues exactly as many PlayAction events as its printed +Actions and as many Buy events as its printed +Buys |
| Plays.BonusGrants | dominion/cards/base_game/market.py:19-25 | a card's trailing phase events are exactly its printed +Actions and +Buys |
| Plays.AttackReachesOthers | dominion/cards/base_game/witch.py:57-64 | with distinct names every other player receives one Other event of an attack, and none of them is the attacker |
| Plays.PlayTwice | dominion/cards/base_game/throne_room.py:38-40 | playing a card twice queues its list twice ahead of everything that was waiting |
| Phases.PlayableOptions | dominion/events.py:32-39 | a hand position is offered exactly when its card has kind ACTION, labelled with the card's name |
| Phases.PlayAction | dominion/events.py:62-80 | with no plain action in hand the waiting PlayActionEvents are cleared and nothing else changes; otherwise the phase completes exactly when the input holds an offered position, and then the chosen action's events are queued ahead of everything waiting and one copy of it moves from the hand to the top of the discard pile, the deck keeping its cards; running out of input is the only failure |
| Phases.PlayFromHand | dominion/events.py:76-80 | playing hand position i queues that card's events in front and moves one copy of it from the hand to the top of the discard pile, touching no other pile |
| Phases.NothingPlayable | dominion/events.py:66-70 | a hand whose only actions are Bureaucrat and Moat offers nothing, so the action phase is cleared |
| Phases.BuyPhase | dominion/events.py:83-98 | with nothing affordable in stock the waiting BuyEvents are cleared; otherwise the phase completes exactly when the input holds an offered position, and then one copy of that pile's card lands on the buyer's discard pile, the pile loses one copy and 'spent' rises by the cost |
| Phases.BuyAt | dominion/events.py:95-96 | buying an offered position moves one copy of its card to the buyer's discard pile, changes nothing else in the deck, and charges the cost |
| Phases.TableBuyOffered | dominion/table.py:57-68 | an offered position is inside the supply, non-empty and affordable, and buying it succeeds with that pile's card |
| Phases.BuyWithinMeans | dominion/events.py:42-48 | a purchase through the buy phase never takes a pile below zero or leaves the buyer owing treasure |
| Phases.Deal | dominion/players/deck.py:37-50 | dealing discards the old hand and draws five cards, or all the deck has when it holds fewer; with five on the draw pile they are its top five; the deck keeps its cards and its size |
| Phases.Cleanup | dominion/events.py:101-105 | cleanup empties the modifiers, keeps the name and deals a new hand, so the treasure is the new hand's |
| Phases.Setup | dominion/events.py:108-114 | setup deals a hand and leaves name and modifiers alone |
| Phases.SetupFresh | dominion/events.py:108-114 | a new player's setup deals five cards from the top of the shuffled starter deck, leaving five to draw, nothing discarded and ten cards in all |
| Phases.CleanupKeepsPlayed | dominion/events.py:101-105 | cleanup leaves the played pile where it is: a Village played this turn is neither discarded nor drawn |
| SimpleEffects.DrawN | dominion/cards/base_game/smithy.py:9-11 | drawing n without replacing the hand adds exactly n cards at the end of the hand (fewer only when the deck runs out), taken from the top of the draw pile when it holds n, keeps the deck's cards and pays nothing |
| SimpleEffects.Coins | dominion/cards/base_game/festival.py:9-11 | raising 'extra_treasure' by n touches neither name nor deck nor any other modifier |
| SimpleEffects.SimpleForward | dominion/cards/base_game/market.py:9-12 | each of the Smithy, Village, Laboratory, Market, Festival, Moat, Merchant, Council Room, Militia-self and Witch-self events draws exactly its printed +Cards and adds exactly its printed +(coins); Merchant adds 1 exactly when a Silver is in hand after the draw |
| SimpleEffects.Printed | dominion/cards/base_game/smithy.py:9-16 | Smithy draws 3, Council Room 4 and each other player 1, Laboratory, Moat and Witch 2, Village, Market and Merchant 1; Festival and Militia pay 2, Market 1, the others nothing |
| SimpleEffects.CoinsAreNotTreasure | dominion/cards/base_game/festival.py:9-11 | a coin-only event leaves the buy phase's treasure exactly as it was, since only 'spent' enters it |
| DiscardEffects.DiscardAt | dominion/cards/base_game/cellar.py:34-36 | discarding hand positions puts those cards on top of the discard pile, the last on top, and the hand keeps the other cards in order; the deck keeps its cards |
| DiscardEffects.DrawMore | dominion/cards/base_game/cellar.py:37 | drawing more keeps the old hand as a prefix and adds as many cards as asked, or as the deck has outside the hand |
| DiscardEffects.Cellar | dominion/cards/base_game/cellar.py:19-37 | Cellar keeps the deck's cards and the hand's size; the hand starts with the unmarked cards in order, the marked positions being distinct; running out of input is the only failure |
| DiscardEffects.MilitiaOther | dominion/cards/base_game/militia.py:34-64 | Militia's victim either keeps everything (a Moat revealed) or ends with exactly three cards from a larger hand, the others moved to the discard pile; the draw pile is untouched and a hand of three or fewer without a Moat is left as it was |
| DiscardEffects.DiscardCards | dominion/cards/base_game/militia.py:63-64 | discarding the marked cards by value takes exactly those cards out of the hand and puts them on top of the discard pile |
| DiscardEffects.DiscardDeck | dominion/cards/base_game/militia.py:64 | the hand loses the cards, counting repeats, and they land on top of the discard pile, the last on top |
| DiscardEffects.DiscardDeckKeeps | dominion/cards/base_game/militia.py:64 | discarding from the hand changes neither draw nor played pile and keeps the deck's cards |
| DiscardEffects.DiscardCardsMoves | dominion/cards/base_game/militia.py:63-64 | discarding only moves cards from the hand to the discard pile |
| DiscardEffects.PoacherAsWritten | dominion/cards/base_game/poacher.py:18-42 | Poacher as written draws one card, then discards exactly one hand card per empty supply pile, keeping the deck's cards |
| DiscardEffects.PoacherPaysNothing | dominion/cards/base_game/poacher.py:18-50 | Poacher as written never changes 'extra_treasure', although the card prints +(1) |
| DiscardEffects.PoacherStuck | dominion/cards/base_game/poacher.py:30-38 | with more empty piles than cards in hand after the draw, Poacher as written can never finish, whatever the input |
| DiscardEffects.Poacher | dominion/cards/base_game/poacher.py:45-51 | corrected Poacher draws one, pays +(1), and discards one card per empty pile or the whole hand when it is smaller, keeping the deck's cards; with no empty pile it asks nothing |
| DiscardEffects.PoacherDiscards | dominion/cards/base_game/poacher.py:30-42 | after the draw the corrected Poacher pays 1 and discards one card per empty pile, capped by the hand's size |
| DiscardEffects.DiscardAndPay | dominion/cards/base_game/poacher.py:40-42 | discarding the marked cards and paying 1 keeps the deck's cards and shrinks the hand by the marks |
| DiscardEffects.PoacherFinishes | dominion/cards/base_game/poacher.py:30-38 | the corrected Poacher always finishes once the player answers one open position per pile to discard |
| DiscardEffects.Harbinger | dominion/cards/base_game/harbinger.py:12-27 | Harbinger draws one card and then either stops or moves one discard card to the top of the draw pile; the queue and the deck's cards are unchanged |
| DiscardEffects.Recall | dominion/cards/base_game/harbinger.py:27 | the chosen discard card goes on top of the draw pile and leaves the discard pile, the hand untouched |
| TrashEffects.TrashAt | dominion/cards/base_game/chapel.py:19-20 | trashing a hand position always succeeds and removes exactly that card from the hand and the deck, every other pile and the modifiers as they were |
| TrashEffects.TrashedIsDifference | dominion/players/deck.py:56-58 | what was trashed is exactly what the hand lost |
| TrashEffects.ChapelRounds | dominion/cards/base_game/chapel.py:11-20 | k rounds of the Chapel loop trash at most k cards of the player's choice from the hand, changing no other pile and no modifier |
| TrashEffects.ChapelStep | dominion/cards/base_game/chapel.py:11-20 | one trash followed by later trashes is the trash of all those cards |
| TrashEffects.Chapel | dominion/cards/base_game/chapel.py:9-20 | Chapel trashes at most four hand cards, the ones the hand lost, leaving the queue, the other piles and the modifiers alone, so the deck shrinks by at most four |
| TrashEffects.Moneylender | dominion/cards/base_game/moneylender.py:20-38 | without a Copper in hand the waiting Moneylender events are cleared and nothing else changes; otherwise either nothing changes (Skip) or exactly one Copper is trashed for +3 'extra_treasure', no other modifier changing |
| TrashEffects.Lend | dominion/cards/base_game/moneylender.py:36-38 | trashing an offered Copper removes one Copper and adds exactly 3 to 'extra_treasure' |
| TrashEffects.CoppersOffered | dominion/cards/base_game/moneylender.py:12-17 | Moneylender offers nothing exactly when no Copper is in hand |
| TrashEffects.TrashThenGain | dominion/cards/base_game/remodel.py:43-55 | after trashing the chosen card, at most one pile offered at the trashed card's cost plus the bonus is gained free to the discard pile; seating and queue are unchanged and no pile goes below zero |
| TrashEffects.Remodel | dominion/cards/base_game/remodel.py:27-55 | with an empty hand the waiting Remodel events are cleared; otherwise either nothing changes (Skip) or one hand card is trashed and a pile costing up to 2 more, with copies left, may be gained free to the discard pile |
| TrashEffects.Mine | dominion/cards/base_game/mine.py:29-61 | with no treasure in hand the waiting Mine events are cleared; otherwise either nothing changes (Skip) or one treasure is trashed and a treasure pile costing up to 3 more, with copies left, may be gained free to the discard pile |
| Gains.FreeGain | dominion/supply.py:98-109 | a free purchase of a position inside the supply cannot fail; its card's pile loses one copy and the player receives it on the chosen pile, modifiers untouched |
| Gains.KeyedFind | dominion/supply.py:77-78 | with unique keys, looking up the card of position i finds position i |
| Gains.OfferedGainStocked | dominion/cards/base_game/workshop.py:12-19 | a gain of an offered pile takes exactly one copy from it and never takes a pile below zero, keeping the keys unique |
| Gains.KeyedDecrement | dominion/supply.py:105 | taking a copy keeps keys unique, lowers that card's count by one, and keeps every pile non-negative when that pile had a copy |
| Gains.DecrementTotal | dominion/supply.py:105 | taking a copy lowers the supply's total by exactly one |
| Gains.GainConserves | dominion/supply.py:105-106 | a gain conserves cards: the deck grows by exactly the one copy the supply loses |
| Gains.OfferGain | dominion/cards/base_game/workshop.py:24-32 | the gain prompt either gains nothing (Skip) or gains an offered pile free onto the chosen pile; seating and queue are untouched and no pile goes below zero |
| Gains.Workshop | dominion/cards/base_game/workshop.py:22-32 | Workshop either changes nothing or gains, free to the discard pile, one card costing up to 4 from a pile with copies left; seating and queue are untouched |
| Gains.Artisan | dominion/cards/base_game/artisan.py:26-51 | with no pile costing up to 5 left the waiting Artisan events are cleared; otherwise either nothing changes (Skip) or an offered card is gained free into the hand and then one hand card goes on top of the draw pile, so the hand keeps its size |
| Gains.ArtisanPlace | dominion/cards/base_game/artisan.py:42-51 | after choosing pile i, its card is gained into the hand and one hand card is put on top of the draw pile |
| Gains.HandKept | dominion/cards/base_game/artisan.py:42-51 | a card gained into the hand and one put back keep the hand's size |
| Gains.GainIfLeft | dominion/cards/base_game/bandit.py:36-37 | a card without a pile raises KeyError; an empty or overdrawn pile gains nothing; otherwise the player receives one copy on the chosen pile, the input untouched |
| Gains.BanditSelf | dominion/cards/base_game/bandit.py:34-47 | Bandit's player gains a Gold to the discard pile exactly when any are left, the Gold pile losing one; otherwise nothing changes |
| Gains.BureaucratSelf | dominion/cards/base_game/bureaucrat.py:33-46 | Bureaucrat's player gains a Silver on top of the draw pile exactly when any are left, the Silver pile losing one; otherwise nothing changes |
| Gains.WitchOther | dominion/cards/base_game/witch.py:27-47 | a revealed Moat leaves its holder unchanged; without a Moat the victim receives a Curse on the discard pile whenever one is left; a changed player has received exactly one Curse, and the Curse pile never goes below zero |
| RevealEffects.Without | dominion/cards/base_game/bandit.py:84-86 | deleting one entry shortens the list by one and removes exactly that entry's copy |
| RevealEffects.BanditOther | dominion/cards/base_game/bandit.py:50-88 | revealing a Moat with the first answer leaves the victim untouched; otherwise the top two cards are revealed, and if a Gold or Silver is among them exactly one is trashed, every other revealed card is discarded, and the hand is untouched; with no Gold or Silver revealed no answer is consumed; only running out of answers fails |
| RevealEffects.BanditLands | dominion/cards/base_game/bandit.py:68-88 | once no Moat wards it off, the top two cards are revealed: with a Gold or Silver among them exactly one such card is trashed and the rest are discarded, otherwise all are discarded; the hand and the context are untouched; with no Gold or Silver no answer is consumed; only running out of answers fails |
| RevealEffects.BanditPicks | dominion/cards/base_game/bandit.py:74-88 | with a Gold or Silver revealed, the player must pick one of them (no Skip); it is trashed and the other revealed cards are discarded; only running out of answers fails |
| RevealEffects.Reveal | dominion/cards/base_game/bandit.py:88 | with no Gold or Silver revealed, all revealed cards are discarded and nothing is trashed |
| RevealEffects.Rob | dominion/cards/base_game/bandit.py:74-88 | the chosen Gold or Silver is the one card lost, the other revealed cards going to the discard pile |
| RevealEffects.BureaucratOther | dominion/cards/base_game/bureaucrat.py:49-86 | revealing a Moat leaves the victim untouched; a hand without Victory cards is only shown; otherwise the victim puts one Victory card from the hand on top of the draw pile; only running out of answers fails |
| RevealEffects.SentrySort | dominion/cards/base_game/sentry.py:26-55 | the trash and discard loops split the revealed cards exactly, as multisets and in number, into trashed, discarded and kept |
| RevealEffects.SentryReturn | dominion/cards/base_game/sentry.py:61-69 | the kept cards, in some order, sit on top of the unchanged old draw pile; the other piles are untouched; an answer is needed only when more than one card is kept |
| RevealEffects.Restack | dominion/cards/base_game/sentry.py:66-69 | the chosen card lands under the other kept cards, on top of the old draw pile, and the deck gains exactly the kept cards |
| RevealEffects.Sentry | dominion/cards/base_game/sentry.py:18-69 | after drawing one card, the top two cards are sorted: the discarded ones go to the discard pile, the kept ones back on top of the draw pile, the hand is untouched, and the deck loses exactly the trashed cards |
| RevealEffects.SentryLook | dominion/cards/base_game/sentry.py:22-69 | the look at the top two cards after the draw keeps the queue and sorts them as in Sentry |
| RevealEffects.SentryCards | dominion/cards/base_game/sentry.py:36-69 | what the deck ends up with plus what was trashed is exactly what it had before |
| RevealEffects.SentryKeepsAll | dominion/cards/base_game/sentry.py:31-32 | answering Skip to both loops trashes and discards nothing, keeping every revealed card |
| PlayEffects.ThroneRoom | dominion/cards/base_game/throne_room.py:22-48 | with no action card in hand the waiting Throne Room events are cleared and nothing else changes; Skip changes nothing; otherwise one hand action's events are queued twice ahead of everything waiting and that card moves from the hand to the played pile, the other piles untouched |
| PlayEffects.DoublePlay | dominion/cards/base_game/throne_room.py:38-43 | playing the chosen action twice queues its events twice at the front and moves exactly that card from the hand to the played pile |
| PlayEffects.ToPlayed | dominion/players/deck.py:78-98 | moving a held card to the played pile puts it on top there, takes one copy from the hand and keeps the deck's cards |
| PlayEffects.VassalAsWritten | dominion/cards/base_game/vassal.py:13-37 | the written Vassal pays +(2) and otherwise does exactly what its top-card step does; it fails only with IndexError or for lack of answers |
| PlayEffects.VassalCardAsWritten | dominion/cards/base_game/vassal.py:18-37 | as written, Skip on an offered card returns with the card gone from the deck, and a card of a kind outside the written list is discarded without asking |
| PlayEffects.VassalSkipLosesCard | dominion/cards/base_game/vassal.py:27-28 | as written, skipping an offered action leaves the deck exactly one card short: that card |
| PlayEffects.VassalLosesVillage | dominion/cards/base_game/vassal.py:27-28 | a concrete deck of one Village is empty after the written Vassal when the Village is skipped |
| PlayEffects.VassalPassesOverBureaucrat | dominion/cards/base_game/vassal.py:18-22 | as written, a Bureaucrat on top is never offered: the queue is untouched and no answer is read |
| PlayEffects.Vassal | dominion/cards/base_game/vassal.py:13-37 | Vassal pays +(2) and otherwise does exactly what its top-card step does |
| PlayEffects.VassalTop | dominion/cards/base_game/vassal.py:17-37 | the top card is taken, failing with IndexError exactly when draw and discard piles are both empty; it always ends on the discard pile with the hand untouched, so the deck keeps its cards |
| PlayEffects.VassalCard | dominion/cards/base_game/vassal.py:18-35 | an action card, attacks included, is offered: picking it queues its play, Skip does not; a card that is not an action is never offered and reads no answer; the player is untouched either way |
| PlayEffects.VassalOffersBureaucrat | dominion/cards/base_game/vassal.py:18-35 | the corrected Vassal offers and plays a Bureaucrat on top and keeps every card |
| LibraryEffects.Offer | dominion/cards/base_game/library.py:17-24 | an action card is offered with Skip allowed and kept unless the answer is Skip; any other card is kept without reading an answer |
| LibraryEffects.LibraryAsWritten | dominion/cards/base_game/library.py:13-26 | as written, the hand ends with 7 cards, or unchanged when it already held more, and the deck never loses a card; it fails only with IndexError or for lack of answers |
| LibraryEffects.LibraryStepAsWritten | dominion/cards/base_game/library.py:16-26 | as written, one pass grows the hand by one card, the top card, whatever the answer |
| LibraryEffects.LibrarySkipDuplicates | dominion/cards/base_game/library.py:22-26 | as written, skipping the last action drawn leaves the deck with one more copy of that card than it had |
| LibraryEffects.LibraryDoublesVillage | dominion/cards/base_game/library.py:22-26 | a concrete deck of seven cards holds eight after the written Library skips a Village |
| LibraryEffects.Library | dominion/cards/base_game/library.py:13-26 | Library fills the hand to 7, keeps the old hand in front, keeps exactly the deck's cards and valid counts; a player who keeps every card draws exactly the top cards as a plain draw would |
| LibraryEffects.LibraryLoop | dominion/cards/base_game/library.py:15-26 | every run of the loop fills the hand to 7 and the deck ends with exactly its old cards plus those set aside |
| LibraryEffects.LibraryStep | dominion/cards/base_game/library.py:16-26 | one pass takes one card from the draw and discard piles and puts it at the end of the hand or aside, only an action being set aside |
| LibraryEffects.LoopStep | dominion/cards/base_game/library.py:15 | a pass followed by a run of the rest of the loop is a run of the loop |
| LibraryEffects.LibraryStepKeeps | dominion/cards/base_game/library.py:16-26 | when every card is kept and the draw pile is deep enough, a pass moves the top of the draw pile to the end of the hand |
| Turns.DrawAdds | dominion/players/deck.py:37-50 | a draw that keeps the hand leaves the old hand in front and adds as many cards as were asked for, or every card the deck has outside the hand when that is fewer |
| Turns.MoveCards | dominion/players/deck.py:78-98 | moving held cards between two known piles cannot fail; they land on top of the destination with the last one on top, the source loses exactly them, no third pile changes and the deck keeps its cards |
| Turns.TopCard | dominion/cards/base_game/library.py:16 | taking the top card yields one card exactly when the draw or discard pile holds any, the top of the draw pile when it is not empty; the hand is untouched and the deck loses exactly that card |
| Turns.Discarded | dominion/players/deck.py:65-75 | adding to the discard pile appends the cards there, changes no other pile and grows the deck by exactly them |
| Turns.NoOptions | dominion/cards/base_game/throne_room.py:13-19 | an option builder offers nothing exactly when no position passes its filter, which is the `if not options` branch every effect takes |
| Turns.PutOnTop | dominion/cards/base_game/bureaucrat.py:86 | putting a hand card on top of the draw pile is the deck's move from the hand to the draw pile and takes one copy from the hand, nothing else changing |
| Turns.ReactionOptions | dominion/cards/base_game/bandit.py:17-22 | the reaction options are exactly the hand positions holding a Moat |
| Turns.React | dominion/cards/base_game/bandit.py:52-66 | without a Moat in hand nothing is asked and the attack lands; Skip lets it land; picking a Moat wards it off, which needs a Moat in hand |
| Turns.Mark | dominion/cards/base_game/cellar.py:23-31 | the marking loop only adds distinct in-range positions after those already marked, never more than its goal, and always reaches the goal when Skip is not allowed; it fails only for lack of answers |
| Turns.MarkStep | dominion/cards/base_game/cellar.py:23-31 | an accepted pick of an open position extends the marked positions by it, keeping them distinct and in range, and the loop goes on with the remaining answers |
| Turns.MarkStuck | dominion/cards/base_game/poacher.py:31-38 | without Skip, asked for more marks than there are cards, the loop can never finish whatever the answers |
| Controller.Min3 | dominion/controller.py:24-27 | the minimum of three distances is one of them and at most each |
| Controller.LevAt | dominion/controller.py:22-27 | the distance between two non-empty prefixes is the cheapest of deleting, inserting, or substituting the last characters, the substitution free when they agree |
| Controller.LevenshteinDist | dominion/controller.py:8-29 | the table computation returns the Levenshtein distance of the two words |
| Controller.FirstRow | dominion/controller.py:18-21 | row 0 of the table holds the distance from the empty prefix to every prefix of the second word |
| Controller.NextRow | dominion/controller.py:17-27 | each row of the table holds the distance from the corresponding prefix of the first word to every prefix of the second |
| Controller.LevZeroIff | dominion/controller.py:8-29 | the distance is zero exactly when the words are equal |
| Controller.LevBounds | dominion/controller.py:8-29 | the distance lies between the difference of the lengths and the longer length |
| Controller.LevSymmetric | dominion/controller.py:8-29 | the distance from one word to another equals the distance back |
| Controller.LowerChar | dominion/controller.py:38 | a lower-cased character is not an upper-case letter, and one that was not is left alone |
| Controller.Lower | dominion/controller.py:38-39 | lower-casing keeps the length, leaves no upper-case letter and leaves text without one unchanged |
| Controller.LowerIdempotent | dominion/controller.py:38-39 | lower-casing twice is lower-casing once |
| Controller.FuzzyTextMatch | dominion/controller.py:32-42 | with no options ValueError; otherwise the result is the first option at the least distance from the text, both lower-cased, with that distance |
| Controller.ExactMatch | dominion/controller.py:32-42 | the best match is at distance zero exactly when some option equals the text up to case, and then it is the first such option |
| Controller.Validate | dominion/controller.py:45-77 | a line of digits is stored as its number and accepted exactly when it indexes an option, otherwise "Number out of range"; other text is accepted exactly when it equals an option up to case, storing the first such position; a near miss at distance 1 or 2 suggests the closest option, anything farther is "Invalid input"; no options make the fuzzy match raise ValueError |
| Controller.WithSkip | dominion/controller.py:84-89 | with skipping allowed, "Skip" is appended after the given labels, which are kept in order; otherwise the labels are used as given |
| Controller.SkipByName | dominion/controller.py:32-42 | typing "skip" in any case selects the appended label, one past the given options, at distance zero, unless a given label is itself "skip" |
| Controller.SkipByNumber | dominion/controller.py:54-57 | typing the number of given options is a line of digits whose value indexes the appended Skip label |

## Left out

- Console output, logging, `show` and the pretty-printers are left out: they change no game state.
- Blocking input (`dominion/util/input.py`, `input_util.get_line` and the line reading of `Controller.get_input`) is left out. Its re-prompt loop is what `Choices.Ask` models: an explicit answer sequence, of which the first acceptable answer is taken.
- Policies, and which answer a player gives, are left out. Every answer comes from the input sequence.
- Randomness is a parameter. `random.shuffle` decodes a tape of picks (`Shuffling`), and the kingdom's random choice of ten cards is passed in.
- The `Game` driver loop, the dispatch of an event to its `forward` and the end-of-game test are left out. Each event is modelled as one queue step or one `forward` call on an explicit context.
- The root-level prototype scripts are not part of this model.
- Python aliasing of the shared `STARTER_DECK` list is left out. Every deck gets its own copy of the starter cards.
- `dominion/cards/base_game/copper.py` is not part of this model. Copper is modelled as a treasure card named "Copper", costing 0, with value 1.
- Cleanup leaves the played cards where they are, as the code does. The rules of the game would put them on the discard pile.
- `extra_treasure` is kept among the modifiers. It is not folded into the `treasure` property, whose computation does not read it.
- `trash` is modelled with its default pile, HAND. The code raises NotImplementedError for any other pile, and the model does too.
- The PlayAction phase offers only cards whose kind is exactly ACTION, as the code does, so a Moat or a Bureaucrat in hand is never offered. The played card moves to the discard pile.
- `c is not "Skip"` is read as `c != "Skip"`, which is what CPython's string interning makes it do for these literals.
- Mine's gained treasure goes to the discard pile, where the written call puts it. The card text says the hand.
- Gains.Workshop: the written effect prompts even when no pile qualifies. The only acceptable answer is then Skip, and the model asks the same way.
- PlayEffects.Vassal and LibraryEffects.Library raise IndexError when the draw and discard piles are both empty, as the written `[0]` does.
- RevealEffects.Sentry: the card picked as "first to put back" ends up second from the top, under the other kept card, as the code's two `add` calls leave it.
- PlayEffects.Vassal: the +(2) modifier is applied after the top-card step. The modifier and the deck are independent, so the order does not matter.
- The events build their options as dictionaries, but `Controller.get_input` appends "Skip" to a list. On a dictionary the append would raise, and `validator_from_options` would iterate over its keys. The controller is modelled on a list of option labels.
- Controller.SkipByName: Skip chosen through the controller comes back as the position one past the options, not as the word "Skip", so the events' `c == "Skip"` test would not see it. The model's input sequence carries Skip directly.
- Controller.LevenshteinDist: the written table holds floats and returns one. The model uses natural numbers. The variable named `chars_equal` actually holds "the characters differ", and the arithmetic uses it correctly.
- Controller.LowerChar: lower-casing and `isdigit` are modelled for ASCII only.
- Controller.FuzzyTextMatch: computed in one pass over the options rather than through a list of distances. The first position of the least distance is the same one `dists.index(min(dists))` picks.
- Controller.LevenshteinDist keeps two rows of the table at a time rather than the whole matrix. Its result is the same cell.
- TrashEffects.Chapel and TrashEffects.ChapelRounds require the deck's counts to agree with its piles (`Decks.Valid`). Every deck the engine builds satisfies this, and every deck operation keeps it.

## Findings

The Library and Vassal rows concern each effect's own logic, read with the deck calls given the meanings stated at the top: as written, their `draw_cards(n, to_caller=True)` raises before the effect gets that far. The Poacher rows hold as written: its discard loop runs before its raising `move`, and with no empty supply pile nothing is moved.

| source | as written | input that shows it | evidently intended | confidence | as-written member | corrected member |
|---|---|---|---|---|---|---|
| dominion/cards/base_game/poacher.py:18-50 | the event draws a card and asks for discards but never raises `extra_treasure` | any play of Poacher | +(1) as the card's text and description say | high, not executed | DiscardEffects.PoacherPaysNothing | DiscardEffects.Poacher |
| dominion/cards/base_game/poacher.py:30-38 | the discard loop runs while fewer cards than empty piles are marked, with Skip disallowed | three empty supply piles and one card in hand after the draw | discard the whole hand when it is smaller than the number of empty piles | high, not executed | DiscardEffects.PoacherStuck | DiscardEffects.PoacherFinishes |
| dominion/cards/base_game/library.py:22-26 | a skipped action is added to the discard pile and then also to the hand | six Coppers in hand, a Village on top, answer Skip | the skipped card is set aside and discarded, not also added to the hand | high, not executed | LibraryEffects.LibraryDoublesVillage | LibraryEffects.Library |
| dominion/cards/base_game/vassal.py:27-28 | Skip returns before the taken card is added to the discard pile | a Village on top of the draw pile, answer Skip | the card is discarded whether or not it is played | high, not executed | PlayEffects.VassalLosesVillage | PlayEffects.VassalTop |
| dominion/cards/base_game/vassal.py:18-22 | the kind list names ACTION twice and leaves out ACTION_ATTACK | a Bureaucrat on top of the draw pile | every action card may be played, attacks included | medium, not executed | PlayEffects.VassalPassesOverBureaucrat | PlayEffects.VassalOffersBureaucrat |
| dominion/table.py:22-26 | the FIXED kingdom names CHAPEL, BANDIT, MARKET, SMITHY and CELLAR, which `dominion/cards/base_game/__init__.py` does not import, so `Table()` raises NameError | FIXED set to True | a table whose kingdom is the ten listed cards, each pile at 10 | high, not executed | Supplies.FixedRaises | Supplies.FixedTable |

=== FILE: cards.dfy ===
/** The card catalog: the `Card` base class and its Treasure/Victory/Action
    subclasses (dominion/cards/card.py), the one shared instance of every
    base-game card (the files under dominion/cards/base_game), `is_action_card`
    (dominion/util/cardfuncs.py) and the package's card lists
    (dominion/cards/base_game/__init__.py). */
module Cards {
  import opened Wrappers
  import opened Numerals

  /** dominion/common.py's CardType, with the two action sub-kinds the card
      files use. */
  datatype CardType = VICTORY | TREASURE | ACTION | CURSE | ACTION_ATTACK | ACTION_REACTION

  /** The fields a `Card` object carries. */
  datatype CardInfo = CardInfo(
    name: string,
    kind: CardType,
    cost: int,
    description: string,
    vp: Option<int>,
    value: Option<int>)

  /** `Card.__init__`: victory points and treasure value start unset. */
  function MakeCard(name: string, kind: CardType, cost: int, desc: string): (c: CardInfo)
    ensures c.name == name && c.kind == kind && c.cost == cost && c.description == desc
    ensures c.vp == None && c.value == None
  {
    CardInfo(name, kind, cost, desc, None, None)
  }

  function TreasureCard(name: string, cost: int, desc: string, value: int): (c: CardInfo)
    ensures c.kind == TREASURE && c.value == Some(value) && c.vp == None
    ensures c.name == name && c.cost == cost && c.description == desc
  {
    MakeCard(name, TREASURE, cost, desc).(value := Some(value))
  }

  function VictoryCard(name: string, cost: int, desc: string, vp: int): (c: CardInfo)
    ensures c.kind == VICTORY && c.vp == Some(vp) && c.value == None
    ensures c.name == name && c.cost == cost && c.description == desc
  {
    MakeCard(name, VICTORY, cost, desc).(vp := Some(vp))
  }

  function ActionCard(name: string, cost: int, desc: string): (c: CardInfo)
    ensures c.kind == ACTION && c.vp == None && c.value == None
  {
    MakeCard(name, ACTION, cost, desc)
  }

  /** The attack subclass the card files import; not declared in card.py. */
  function ActionAttackCard(name: string, cost: int, desc: string): (c: CardInfo)
    ensures c.kind == ACTION_ATTACK && c.vp == None && c.value == None
  {
    MakeCard(name, ACTION_ATTACK, cost, desc)
  }

  /** The reaction subclass the card files import; not declared in card.py. */
  function ActionReactionCard(name: string, cost: int, desc: string): (c: CardInfo)
    ensures c.kind == ACTION_REACTION && c.vp == None && c.value == None
  {
    MakeCard(name, ACTION_REACTION, cost, desc)
  }

  /** `str(card)`: the name in square brackets. */
  function Str(c: CardInfo): (s: string)
    ensures |s| == |c.name| + 2
    ensures s[0] == '[' && s[|s| - 1] == ']' && s[1..|s| - 1] == c.name
  {
    "[" + c.name + "]"
  }

  /** Python's `'%s' % x` for an optional integer. */
  function Format(x: Option<int>): string {
    match x
    case None => "None"
    case Some(v) => IntToString(v)
  }

  /** The `desc` property: the written description, else a sentence built
      from the card's kind, else nothing (None). */
  function Desc(c: CardInfo): (r: Option<string>)
    ensures c.description != "" ==> r == Some(c.description)
    ensures c.description == "" ==> (r.Some? <==> c.kind in {VICTORY, TREASURE, CURSE})
  {
    if c.description != "" then Some(c.description)
    else if c.kind == VICTORY then Some("Victory card worth " + Format(c.vp) + " VP.")
    else if c.kind == TREASURE then Some("Treasure card worth " + Format(c.value) + ".")
    else if c.kind == CURSE then Some(Format(c.vp) + " VP for each held.")
    else None
  }

  /** `is_action_card`: the kind is one of the three action kinds. */
  predicate IsActionKind(k: CardType) {
    k == ACTION || k == ACTION_ATTACK || k == ACTION_REACTION
  }

  function IsActionCard(c: CardInfo): (r: bool)
    ensures r <==> c.kind !in {VICTORY, TREASURE, CURSE}
  {
    IsActionKind(c.kind)
  }

  /** Over the catalogue: every card but the three treasures, the four
      victory cards and the Curse is an action card, Bureaucrat and Moat
      included. */
  lemma ActionCards(c: Card)
    ensures IsActionCard(Info(c)) <==> c !in {Copper, Silver, Gold, Estate, Duchy, Province, Curse, Gardens}
  {
    InfoFields(c);
    KindShape(c);
  }

  /** The shared instances of the base game: one value per card. */
  datatype Card =
    | Copper | Silver | Gold | Estate | Duchy | Province | Curse | Gardens
    | Artisan | Bandit | Bureaucrat | Cellar | Chapel | CouncilRoom | Festival
    | Harbinger | Laboratory | Library | Market | Merchant | Militia | Mine
    | Moat | Moneylender | Poacher | Remodel | Sentry | Smithy | ThroneRoom
    | Vassal | Village | Witch | Workshop

  /** The name printed on each card. */
  function Name(c: Card): string
  {
    match c
    case Copper => "Copper"
    case Silver => "Silver"
    case Gold => "Gold"
    case Estate => "Estate"
    case Duchy => "Duchy"
    case Province => "Province"
    case Curse => "Curse"
    case Gardens => "Gardens"
    case Artisan => "Artisan"
    case Bandit => "Bandit"
    case Bureaucrat => "Bureaucrat"
    case Cellar => "Cellar"
    case Chapel => "Chapel"
    case CouncilRoom => "Council Room"
    case Festival => "Festival"
    case Harbinger => "Harbinger"
    case Laboratory => "Laboratory"
    case Library => "Library"
    case Market => "Market"
    case Merchant => "Merchant"
    case Militia => "Militia"
    case Mine => "Mine"
    case Moat => "Moat"
    case Moneylender => "Moneylender"
    case Poacher => "Poacher"
    case Remodel => "Remodel"
    case Sentry => "Sentry"
    case Smithy => "Smithy"
    case ThroneRoom => "Throne Room"
    case Vassal => "Vassal"
    case Village => "Village"
    case Witch => "Witch"
    case Workshop => "Workshop"
  }

  /** The kind each card's class declares. */
  function Kind(c: Card): CardType
  {
    match c
    case Copper | Silver | Gold => TREASURE
    case Estate | Duchy | Province | Gardens => VICTORY
    case Curse => CURSE
    case Bureaucrat => ACTION_ATTACK
    case Moat => ACTION_REACTION
    case _ => ACTION
  }

  /** The price in coins each card's class declares. */
  function Cost(c: Card): int
  {
    match c
    // copper.py is not part of this model; Copper costs 0 by the game's rules.
    case Copper | Curse => 0
    case Estate | Cellar | Chapel | Moat | Village => 2
    case Silver | Harbinger | Merchant | Vassal | Workshop => 3
    case Gardens | Bureaucrat | Militia | Moneylender | Poacher | Remodel | Smithy | ThroneRoom => 4
    case Duchy | Bandit | CouncilRoom | Festival | Laboratory | Library | Market | Mine | Sentry | Witch => 5
    case Gold | Artisan => 6
    case Province => 8
  }

  /** The victory points a victory card or the Curse declares. */
  function Points(c: Card): int
  {
    match c
    case Estate => 1
    case Duchy => 3
    case Province => 6
    case Curse => -1
    case _ => 0
  }

  /** The coins a treasure declares (Copper 1 by the game's rules). */
  function Worth(c: Card): int
  {
    match c
    case Copper => 1
    case Silver => 2
    case Gold => 3
    case _ => 0
  }

  /** The constructor of the subclass a card of kind `k` derives from. */
  function Build(k: CardType, name: string, cost: int, desc: string, points: int, worth: int): (c: CardInfo)
    ensures c.name == name && c.kind == k && c.cost == cost && c.description == desc
    ensures k == TREASURE ==> c.value == Some(worth) && c.vp == None
    ensures k in {VICTORY, CURSE} ==> c.vp == Some(points) && c.value == None
    ensures IsActionKind(k) ==> c.vp == None && c.value == None
  {
    match k
    case TREASURE => TreasureCard(name, cost, desc, worth)
    case VICTORY => VictoryCard(name, cost, desc, points)
    case CURSE => MakeCard(name, CURSE, cost, desc).(vp := Some(points))
    case ACTION => ActionCard(name, cost, desc)
    case ACTION_ATTACK => ActionAttackCard(name, cost, desc)
    case ACTION_REACTION => ActionReactionCard(name, cost, desc)
  }

  /** The fields of every shared instance. */
  function Info(c: Card): CardInfo
  {
    Build(Kind(c), Name(c), Cost(c), Description(c), Points(c), Worth(c))
  }

  /** The description written on a card, empty when the card has none. */
  function Description(c: Card): string
  {
    match c
    case Gardens => "Worth 1 VP per 10 cards you have (round down)."
    case Artisan => "Gain a card to your hand costing up to (5). Put a card from your hand onto your deck."
    case Bandit => "Gain a Gold. Each other player reveals the top 2 cards of their deck, trashes a revealed treasure other than Copper, and discards the rest."
    case Bureaucrat => "Gain a Silver onto your deck. Each other player reveals a Victory card from their hand and puts it onto their deck (or reveals a hand with no Victory cards)."
    case Cellar => "Discard any number of cards, then draw that many."
    case Chapel => "Trash up to four cards from your hand."
    case CouncilRoom => "+4 cards. +1 buy. Each other player draws a card."
    case Festival => "+2 actions. +1 buy. +(2)"
    case Harbinger => "+1 card. +1 action. Look through your discard pile. You may put a card from it onto your deck."
    case Laboratory => "+2 cards. +1 action."
    case Library => "Draw until you have 7 cards in hand, skipping any action cards you choose to; set those aside, discarding them afterwards."
    case Market => "+1 card. +1 action. +1 buy. +(1)"
    case Merchant => "+1 Card. +1 Action. The first time you play a Silver this turn, +(1)."
    case Militia => "+(2). Each other player discards down to three cards in hand."
    case Mine => "You may trash a treasure from your hand. Gain a treasure to your hand costing up to (3) more than it."
    case Moat => "+2 cards. When another player plays an Attack card, you may first reveal this from your hand, to be unaffected by it."
    case Moneylender => "You may trash a Copper from your hand for +(3)"
    case Poacher => "+1 card. +1 action. +(1). Discard a card per empty supply pile."
    case Remodel => "Trash a card from your hand. Gain a card costing up to (2) more than it."
    case Sentry => "+1 card. +1 action. Look at the top 2 cards of your deck. Trash and/or discard any number of them. Put the rest back on top in any order."
    case Smithy => "+3 cards."
    case ThroneRoom => "You may play an action card from your hand twice."
    case Vassal => "+(2). Discard the top card of your deck. If it's an action, you may play it."
    case Village => "+1 card. +2 actions."
    case Witch => "+2 cards. Each other player gains a Curse."
    case Workshop => "Gain a card costing up to (4)."
    case _ => ""
  }

  /** The treasure value a hand card contributes (0 for non-treasures). */
  function Value(c: Card): int { Info(c).value.ValueOr(0) }

  /** `KINGDOM_CARDS`: eleven references to the one Village instance. */
  const KINGDOM_CARDS: seq<Card> := [Village, Village, Village, Village, Village, Village,
                                     Village, Village, Village, Village, Village]

  /** `STARTER_DECK`: three Estates followed by seven Coppers. */
  const STARTER_DECK: seq<Card> := [Estate, Estate, Estate, Copper, Copper, Copper, Copper,
                                    Copper, Copper, Copper]

  lemma StarterDeckShape()
    ensures |STARTER_DECK| == 10
    ensures forall i :: 0 <= i < 3 ==> STARTER_DECK[i] == Estate
    ensures forall i :: 3 <= i < 10 ==> STARTER_DECK[i] == Copper
    ensures multiset(STARTER_DECK) == multiset{Estate, Estate, Estate} + multiset{Copper, Copper, Copper, Copper, Copper, Copper, Copper}
  {
  }

  /** Every kingdom entry is Village, so any selection from the list holds a
      single distinct card. */
  lemma KingdomIsAllVillage(picks: seq<Card>)
    requires forall c :: c in picks ==> c in KINGDOM_CARDS
    ensures |KINGDOM_CARDS| == 11
    ensures forall c :: c in picks ==> c == Village
    ensures forall i :: 0 <= i < |picks| ==> picks[i] == Village
  {
    forall i | 0 <= i < |picks|
      ensures picks[i] == Village
    {
      assert picks[i] in picks;
    }
  }

  /** Cards are told apart by name: the catalog's names are pairwise distinct. */
  lemma CopperByName(c: Card)
    ensures Name(c) == "Copper" <==> c == Copper
  {
    match c
    case Copper =>
    case Silver =>
    case Gold =>
    case Estate =>
    case Duchy =>
    case Province =>
    case Curse =>
    case Gardens =>
    case Artisan =>
    case Bandit =>
    case Bureaucrat =>
    case Cellar =>
    case Chapel =>
    case CouncilRoom =>
    case Festival =>
    case Harbinger =>
    case Laboratory =>
    case Library =>
    case Market =>
    case Merchant =>
    case Militia =>
    case Mine =>
    case Moat =>
    case Moneylender =>
    case Poacher =>
    case Remodel =>
    case Sentry =>
    case Smithy =>
    case ThroneRoom =>
    case Vassal =>
    case Village =>
    case Witch =>
    case Workshop =>
  }

  /** Every instance carries its own name, kind, price and description. */
  lemma InfoFields(c: Card)
    ensures Info(c).name == Name(c) && Info(c).kind == Kind(c) && Info(c).cost == Cost(c)
    ensures Info(c).description == Description(c)
  {
  }

  /** Every instance carries exactly what its kind calls for: treasures a
      value, victory cards and the Curse points, action cards neither. */
  lemma InfoShape(c: Card)
    ensures Kind(c) == TREASURE ==> Info(c).value == Some(Worth(c)) && Info(c).vp.None?
    ensures Kind(c) in {VICTORY, CURSE} ==> Info(c).vp == Some(Points(c)) && Info(c).value.None?
    ensures IsActionKind(Kind(c)) ==> Info(c).vp.None? && Info(c).value.None?
    ensures Value(c) == (if Kind(c) == TREASURE then Worth(c) else 0)
  {
    InfoByKind(c);
    KindCases(Kind(c));
  }

  /** The fields follow from the kind, as `Build` sets them. */
  lemma InfoByKind(c: Card)
    ensures Kind(c) == TREASURE ==> Info(c).value == Some(Worth(c)) && Info(c).vp.None?
    ensures Kind(c) in {VICTORY, CURSE} ==> Info(c).vp == Some(Points(c)) && Info(c).value.None?
    ensures IsActionKind(Kind(c)) ==> Info(c).vp.None? && Info(c).value.None?
  {
    InfoIsBuilt(c);
    var k := Kind(c);
    BuildByKind(k, Name(c), Cost(c), Description(c), Points(c), Worth(c));
  }

  /** Each shared instance is built from its catalog entries. */
  lemma InfoIsBuilt(c: Card)
    ensures Info(c) == Build(Kind(c), Name(c), Cost(c), Description(c), Points(c), Worth(c))
  {
  }

  /** What `Build` sets, by kind, for any entries. */
  lemma BuildByKind(k: CardType, name: string, cost: int, desc: string, points: int, worth: int)
    ensures k == TREASURE ==> Build(k, name, cost, desc, points, worth).value == Some(worth)
                              && Build(k, name, cost, desc, points, worth).vp.None?
    ensures k in {VICTORY, CURSE} ==> Build(k, name, cost, desc, points, worth).vp == Some(points)
                                      && Build(k, name, cost, desc, points, worth).value.None?
    ensures IsActionKind(k) ==> Build(k, name, cost, desc, points, worth).vp.None?
                                && Build(k, name, cost, desc, points, worth).value.None?
  {
  }

  /** The six kinds fall into the three groups a card's fields depend on. */
  lemma KindCases(k: CardType)
    ensures k == TREASURE || k in {VICTORY, CURSE} || IsActionKind(k)
  {
  }

  /** Which cards are treasures, which the Curse, and that prices are never
      negative. */
  lemma KindShape(c: Card)
    ensures Kind(c) == TREASURE <==> c in {Copper, Silver, Gold}
    ensures Kind(c) == TREASURE ==> Worth(c) > 0
    ensures Kind(c) == VICTORY <==> c in {Estate, Duchy, Province, Gardens}
    ensures Kind(c) == CURSE <==> c == Curse
    ensures Cost(c) >= 0
  {
  }

  lemma GoldEntry()
    ensures Name(Gold) == "Gold" && Cost(Gold) == 6 && Kind(Gold) == TREASURE
    ensures Info(Gold).value == Some(3) && Info(Gold).description == ""
    ensures Desc(Info(Gold)) == Some("Treasure card worth 3.")
  {
    assert Format(Some(3)) == "3" by { assert NatToString(3) == [DigitChar(3)]; }
    assert "Treasure card worth " + "3" + "." == "Treasure card worth 3.";
  }

  lemma SilverEntry()
    ensures Name(Silver) == "Silver" && Cost(Silver) == 3 && Kind(Silver) == TREASURE
    ensures Info(Silver).value == Some(2)
    ensures Desc(Info(Silver)) == Some("Treasure card worth 2.")
  {
    assert Format(Some(2)) == "2" by { assert NatToString(2) == [DigitChar(2)]; }
    assert "Treasure card worth " + "2" + "." == "Treasure card worth 2.";
  }

  lemma EstateEntry()
    ensures Name(Estate) == "Estate" && Cost(Estate) == 2 && Kind(Estate) == VICTORY
    ensures Info(Estate).vp == Some(1)
    ensures Desc(Info(Estate)) == Some("Victory card worth 1 VP.")
  {
    assert Format(Some(1)) == "1" by { assert NatToString(1) == [DigitChar(1)]; }
    assert "Victory card worth " + "1" + " VP." == "Victory card worth 1 VP.";
  }

  lemma DuchyEntry()
    ensures Name(Duchy) == "Duchy" && Cost(Duchy) == 5 && Kind(Duchy) == VICTORY
    ensures Info(Duchy).vp == Some(3)
    ensures Desc(Info(Duchy)) == Some("Victory card worth 3 VP.")
  {
    assert Format(Some(3)) == "3" by { assert NatToString(3) == [DigitChar(3)]; }
    assert "Victory card worth " + "3" + " VP." == "Victory card worth 3 VP.";
  }

  lemma ProvinceEntry()
    ensures Name(Province) == "Province" && Cost(Province) == 8 && Kind(Province) == VICTORY
    ensures Info(Province).vp == Some(6)
    ensures Desc(Info(Province)) == Some("Victory card worth 6 VP.")
  {
    assert Format(Some(6)) == "6" by { assert NatToString(6) == [DigitChar(6)]; }
    assert "Victory card worth " + "6" + " VP." == "Victory card worth 6 VP.";
  }

  lemma CurseEntry()
    ensures Name(Curse) == "Curse" && Cost(Curse) == 0 && Kind(Curse) == CURSE
    ensures Info(Curse).vp == Some(-1) && Info(Curse).value == None
    ensures Desc(Info(Curse)) == Some("-1 VP for each held.")
  {
    assert Format(Some(-1)) == "-1" by { assert NatToString(1) == [DigitChar(1)]; }
    assert "-1" + " VP for each held." == "-1 VP for each held.";
  }

  lemma GardensEntry()
    ensures Name(Gardens) == "Gardens" && Cost(Gardens) == 4 && Kind(Gardens) == VICTORY
    ensures Info(Gardens).vp == Some(0)
    ensures Desc(Info(Gardens)) == Some("Worth 1 VP per 10 cards you have (round down).")
  {
  }
}

=== FILE: choices.dfy ===
/** Player input as the effects see it (`player.get_input(prompt, options,
    allow_skip)`): the answers a player gives, consumed in order. An answer
    that is not acceptable is discarded and the prompt is repeated, as the
    controller's validation loop does; when the answers run out the prompt
    never returns, which the model reports as NoMoreInput. */
module Choices {
  import opened Wrappers

  /** One answer: an offered key, or the word "Skip". */
  datatype Choice = Pick(index: int) | Skip

  /** The accepted answer and the answers still unread. */
  datatype Answer = Answer(choice: Choice, rest: seq<Choice>)

  /** An answer is accepted when it is an offered key, or when it is Skip
      and skipping was allowed. */
  predicate Accepts(options: map<int, string>, allowSkip: bool, c: Choice) {
    match c
    case Pick(i) => i in options
    case Skip => allowSkip
  }

  /** `get_input(prompt, options, allow_skip)`: the first acceptable answer
      is returned, every answer before it having been refused. */
  function Ask(options: map<int, string>, allowSkip: bool, inp: seq<Choice>): (r: Result<Answer>)
    ensures r.Ok? <==> exists k :: 0 <= k < |inp| && Accepts(options, allowSkip, inp[k])
    ensures r.Err? ==> r.error == NoMoreInput
    ensures r.Ok? ==> Accepts(options, allowSkip, r.value.choice) && |r.value.rest| < |inp|
    ensures r.Ok? ==> exists k :: 0 <= k < |inp| && inp[k] == r.value.choice && r.value.rest == inp[k + 1..]
                                  && forall j :: 0 <= j < k ==> !Accepts(options, allowSkip, inp[j])
    decreases |inp|
  {
    if |inp| == 0 then Err(NoMoreInput)
    else if Accepts(options, allowSkip, inp[0]) then Ok(Answer(inp[0], inp[1..]))
    else
      var r := Ask(options, allowSkip, inp[1..]);
      AskStep(options, allowSkip, inp, r);
      r
  }

  /** What Ask promises about its result `r` on input `inp`. */
  ghost predicate Answered(options: map<int, string>, allowSkip: bool, inp: seq<Choice>, r: Result<Answer>) {
    (r.Ok? <==> exists k :: 0 <= k < |inp| && Accepts(options, allowSkip, inp[k]))
    && (r.Err? ==> r.error == NoMoreInput)
    && (r.Ok? ==> Accepts(options, allowSkip, r.value.choice) && |r.value.rest| < |inp|)
    && (r.Ok? ==> exists k :: 0 <= k < |inp| && inp[k] == r.value.choice && r.value.rest == inp[k + 1..]
                              && forall j :: 0 <= j < k ==> !Accepts(options, allowSkip, inp[j]))
  }

  /** A refused first answer: what holds of the rest of the input holds of
      the whole. */
  lemma AskStep(options: map<int, string>, allowSkip: bool, inp: seq<Choice>, r: Result<Answer>)
    requires |inp| > 0 && !Accepts(options, allowSkip, inp[0])
    requires Answered(options, allowSkip, inp[1..], r)
    ensures Answered(options, allowSkip, inp, r)
  {
    assert forall k :: 1 <= k < |inp| ==> inp[k] == inp[1..][k - 1];
    if r.Ok? {
      var k :| 0 <= k < |inp[1..]| && inp[1..][k] == r.value.choice && r.value.rest == inp[1..][k + 1..]
               && forall j :: 0 <= j < k ==> !Accepts(options, allowSkip, inp[1..][j]);
      assert inp[k + 1] == r.value.choice && r.value.rest == inp[k + 1 + 1..];
      assert forall j :: 0 <= j < k + 1 ==> !Accepts(options, allowSkip, inp[j]);
    } else {
      assert forall j :: 0 <= j < |inp| ==> !Accepts(options, allowSkip, inp[j]);
    }
  }

  /** Which answer is taken is fully determined: the first acceptable one,
      after which reading resumes. */
  lemma AskTakesFirst(options: map<int, string>, allowSkip: bool, inp: seq<Choice>, k: nat)
    requires k < |inp| && Accepts(options, allowSkip, inp[k])
    requires forall j :: 0 <= j < k ==> !Accepts(options, allowSkip, inp[j])
    ensures Ask(options, allowSkip, inp) == Ok(Answer(inp[k], inp[k + 1..]))
  {
    var r := Ask(options, allowSkip, inp);
    var k' :| 0 <= k' < |inp| && inp[k'] == r.value.choice && r.value.rest == inp[k' + 1..]
              && forall j :: 0 <= j < k' ==> !Accepts(options, allowSkip, inp[j]);
    assert k' == k;
  }

  /** With nothing offered and no Skip, the prompt can never be answered. */
  lemma NothingToAccept(inp: seq<Choice>)
    ensures Ask(map[], false, inp) == Err(NoMoreInput)
  {
  }
}

=== FILE: controller.dfy ===
/** The pure half of dominion/controller.py: the edit distance, the fuzzy
    match of typed text against the option labels, the validator built from
    the options, and the "Skip" label appended when skipping is allowed.
    The controller treats its options as a list of labels (it appends to
    it, takes its length and indexes it by position), so they are a
    `seq<string>` here. Reading lines from the console is not modelled. */
module Controller {
  import opened Wrappers
  import opened Numerals

  // ---------------------------------------------------------------------
  // Edit distance
  // ---------------------------------------------------------------------

  function Min3(x: nat, y: nat, z: nat): (m: nat)
    ensures m <= x && m <= y && m <= z
    ensures m == x || m == y || m == z
  {
    if x <= y && x <= z then x else if y <= z then y else z
  }

  function Max(x: nat, y: nat): nat {
    if x >= y then x else y
  }

  function Gap(x: nat, y: nat): nat {
    if x >= y then x - y else y - x
  }

  /** The cost of putting character `y` where `x` stands. */
  function Substitution(x: char, y: char): nat {
    if x != y then 1 else 0
  }

  /** The Levenshtein distance, by its recurrence on prefixes: turning an
      empty word into another costs one insertion per character, and
      otherwise the last step is a deletion, an insertion, or a
      substitution (free when the last characters agree). */
  function Lev(a: string, b: string): nat
    decreases |a| + |b|
  {
    if |a| == 0 || |b| == 0 then Max(|a|, |b|)
    else
      var a', b' := a[..|a| - 1], b[..|b| - 1];
      Min3(Lev(a', b) + 1, Lev(a, b') + 1, Lev(a', b') + Substitution(a[|a| - 1], b[|b| - 1]))
  }

  /** The recurrence at position (i, j) of the prefix table. */
  lemma LevAt(a: string, b: string, i: nat, j: nat)
    requires 0 < i <= |a| && 0 < j <= |b|
    ensures Lev(a[..i], b[..j]) ==
              Min3(Lev(a[..i - 1], b[..j]) + 1, Lev(a[..i], b[..j - 1]) + 1,
                   Lev(a[..i - 1], b[..j - 1]) + Substitution(a[i - 1], b[j - 1]))
  {
    assert a[..i][..i - 1] == a[..i - 1];
    assert b[..j][..j - 1] == b[..j - 1];
  }

  /** `levenshtein_dist(w1, w2)`: the distance table is filled row by row;
      cell (i, j) holds the distance between the first i characters of
      `w1` and the first j of `w2`, the first row and column hold
      `max(i, j)`, and every other cell is the cheapest of a deletion, an
      insertion and a substitution. Only the previous row is kept, since
      no cell looks further back. The source's table holds floats; their
      values are whole numbers, which `nat` holds exactly. */
  method LevenshteinDist(w1: string, w2: string) returns (d: nat)
    ensures d == Lev(w1, w2)
  {
    var prev := FirstRow(w1, w2);
    var i := 1;
    while i <= |w1|
      invariant 1 <= i <= |w1| + 1 && |prev| == |w2| + 1
      invariant forall k :: 0 <= k <= |w2| ==> prev[k] == Lev(w1[..i - 1], w2[..k])
    {
      prev := NextRow(w1, w2, i, prev);
      i := i + 1;
    }
    assert w1[..|w1|] == w1 && w2[..|w2|] == w2;
    d := prev[|w2|];
  }

  /** Row 0 of the table: `max(0, j) == j`. */
  method FirstRow(w1: string, w2: string) returns (row: seq<nat>)
    ensures |row| == |w2| + 1
    ensures forall k :: 0 <= k <= |w2| ==> row[k] == Lev(w1[..0], w2[..k])
  {
    row := [];
    var j := 0;
    while j <= |w2|
      invariant 0 <= j <= |w2| + 1 && |row| == j
      invariant forall k :: 0 <= k < j ==> row[k] == Lev(w1[..0], w2[..k])
    {
      row := row + [j];
      j := j + 1;
    }
  }

  /** Row i of the table from row i - 1: column 0 holds `i`, and each
      further cell is the cheapest of the three edits. */
  method NextRow(w1: string, w2: string, i: nat, prev: seq<nat>) returns (row: seq<nat>)
    requires 0 < i <= |w1| && |prev| == |w2| + 1
    requires forall k :: 0 <= k <= |w2| ==> prev[k] == Lev(w1[..i - 1], w2[..k])
    ensures |row| == |w2| + 1
    ensures forall k :: 0 <= k <= |w2| ==> row[k] == Lev(w1[..i], w2[..k])
  {
    row := [i];
    var j := 1;
    while j <= |w2|
      invariant 1 <= j <= |w2| + 1 && |row| == j
      invariant forall k :: 0 <= k < j ==> row[k] == Lev(w1[..i], w2[..k])
    {
      LevAt(w1, w2, i, j);
      var cell := Min3(prev[j] + 1, row[j - 1] + 1, prev[j - 1] + Substitution(w1[i - 1], w2[j - 1]));
      assert cell == Lev(w1[..i], w2[..j]);
      row := row + [cell];
      j := j + 1;
    }
  }

  /** The distance is zero exactly when the words are equal. */
  lemma {:induction false} LevZeroIff(a: string, b: string)
    ensures Lev(a, b) == 0 <==> a == b
    decreases |a| + |b|
  {
    if |a| > 0 && |b| > 0 {
      var a', b' := a[..|a| - 1], b[..|b| - 1];
      LevZeroIff(a', b');
      assert a == a' + [a[|a| - 1]] && b == b' + [b[|b| - 1]];
    }
  }

  /** The distance is at least the difference of the lengths and at most
      the longer length. */
  lemma {:induction false} LevBounds(a: string, b: string)
    ensures Gap(|a|, |b|) <= Lev(a, b) <= Max(|a|, |b|)
    decreases |a| + |b|
  {
    if |a| > 0 && |b| > 0 {
      var a', b' := a[..|a| - 1], b[..|b| - 1];
      LevBounds(a', b);
      LevBounds(a, b');
      LevBounds(a', b');
    }
  }

  /** Turning `a` into `b` costs what turning `b` into `a` does. */
  lemma {:induction false} LevSymmetric(a: string, b: string)
    ensures Lev(a, b) == Lev(b, a)
    decreases |a| + |b|
  {
    if |a| > 0 && |b| > 0 {
      var a', b' := a[..|a| - 1], b[..|b| - 1];
      LevSymmetric(a', b);
      LevSymmetric(a, b');
      LevSymmetric(a', b');
    }
  }

  // ---------------------------------------------------------------------
  // Fuzzy matching
  // ---------------------------------------------------------------------

  predicate IsUpper(c: char) {
    'A' <= c <= 'Z'
  }

  /** `str.lower` on one character; only the ASCII letters are modelled. */
  function LowerChar(c: char): (r: char)
    ensures !IsUpper(r)
    ensures !IsUpper(c) ==> r == c
  {
    if IsUpper(c) then (c as int + 32) as char else c
  }

  /** `str.lower`: the same length, no upper-case letter left, and text
      without upper-case letters is returned as it is. */
  function Lower(s: string): (r: string)
    ensures |r| == |s|
    ensures forall i :: 0 <= i < |r| ==> !IsUpper(r[i])
    ensures (forall i :: 0 <= i < |s| ==> !IsUpper(s[i])) ==> r == s
  {
    seq(|s|, i requires 0 <= i < |s| => LowerChar(s[i]))
  }

  /** Lower-casing twice is lower-casing once. */
  lemma LowerIdempotent(s: string)
    ensures Lower(Lower(s)) == Lower(s)
  {
  }

  /** The result of `fuzzy_text_match`: the chosen position and its
      distance. */
  datatype Match = Match(index: nat, dist: nat)

  /** The distance between the lower-cased text and option `k`. */
  function DistTo(text: string, options: seq<string>, k: nat): nat
    requires k < |options|
  {
    Lev(Lower(text), Lower(options[k]))
  }

  /** `m` is the first option at the least distance from the text. */
  ghost predicate BestMatch(text: string, options: seq<string>, m: Match) {
    m.index < |options| && m.dist == DistTo(text, options, m.index)
    && (forall k :: 0 <= k < |options| ==> m.dist <= DistTo(text, options, k))
    && (forall k :: 0 <= k < m.index ==> m.dist < DistTo(text, options, k))
  }

  /** `fuzzy_text_match(text, options)`: text and options are lower-cased,
      and the first position holding the least distance is returned with
      it. With no options `min` of the empty list raises ValueError. */
  method FuzzyTextMatch(text: string, options: seq<string>) returns (r: Result<Match>)
    ensures r.Err? <==> |options| == 0
    ensures r.Err? ==> r.error == ValueError
    ensures r.Ok? ==> BestMatch(text, options, r.value)
  {
    if |options| == 0 {
      return Err(ValueError);
    }
    var t := Lower(text);
    var best := LevenshteinDist(t, Lower(options[0]));
    var index := 0;
    var k := 1;
    while k < |options|
      invariant 1 <= k <= |options|
      invariant BestSoFar(text, options, k, Match(index, best))
    {
      var d := LevenshteinDist(t, Lower(options[k]));
      BestStep(text, options, k, Match(index, best), d);
      if d < best {
        best, index := d, k;
      }
      k := k + 1;
    }
    return Ok(Match(index, best));
  }

  /** `m` is the first of the options before `k` at the least distance. */
  ghost predicate BestSoFar(text: string, options: seq<string>, k: nat, m: Match)
    requires k <= |options|
  {
    m.index < k && m.dist == DistTo(text, options, m.index)
    && (forall j :: 0 <= j < k ==> m.dist <= DistTo(text, options, j))
    && (forall j :: 0 <= j < m.index ==> m.dist < DistTo(text, options, j))
  }

  /** One more option: a strictly smaller distance takes over. */
  lemma BestStep(text: string, options: seq<string>, k: nat, m: Match, d: nat)
    requires k < |options| && BestSoFar(text, options, k, m) && d == DistTo(text, options, k)
    ensures BestSoFar(text, options, k + 1, if d < m.dist then Match(k, d) else m)
  {
  }

  /** The best match is at distance zero exactly when some option equals
      the text up to case, and then it is the first such option. */
  lemma ExactMatch(text: string, options: seq<string>, m: Match)
    requires BestMatch(text, options, m)
    ensures m.dist == 0 <==> exists k :: 0 <= k < |options| && Lower(options[k]) == Lower(text)
    ensures m.dist == 0 ==> Lower(options[m.index]) == Lower(text)
                            && forall k :: 0 <= k < m.index ==> Lower(options[k]) != Lower(text)
  {
    forall k | 0 <= k < |options|
      ensures DistTo(text, options, k) == 0 <==> Lower(options[k]) == Lower(text)
    {
      LevZeroIff(Lower(text), Lower(options[k]));
    }
  }

  // ---------------------------------------------------------------------
  // The validator
  // ---------------------------------------------------------------------

  /** What `is_valid_func` leaves in the Input object's `valid`, `clean`
      and `err` fields (they start as False, None and None). */
  datatype Checked = Checked(valid: bool, clean: Option<int>, err: Option<string>)

  const OutOfRange := "Number out of range, try again."
  const InvalidInput := "Invalid input, try again."

  function DidYouMean(option: string): string {
    "Did you mean \"" + option + "\"?"
  }

  /** `validator_from_options(options)(user_input)`. A line of digits is a
      position: accepted when it is below the number of options, and
      stored in `clean` either way. Anything else is fuzzy-matched: an
      exact match (up to case) is accepted as the first matching position,
      a near miss (distance 1 or 2) earns a suggestion of the closest
      option, anything further a plain refusal. */
  method Validate(raw: string, options: seq<string>) returns (r: Result<Checked>)
    ensures AllDigits(raw) ==> r.Ok? && r.value.clean == Some(DigitsValue(raw))
    ensures AllDigits(raw) ==> (r.value.valid <==> DigitsValue(raw) < |options|)
    ensures AllDigits(raw) ==> (r.value.err == None <==> r.value.valid)
    ensures AllDigits(raw) && !r.value.valid ==> r.value.err == Some(OutOfRange)
    ensures !AllDigits(raw) ==> (r.Err? <==> |options| == 0) && (r.Err? ==> r.error == ValueError)
    ensures !AllDigits(raw) && r.Ok? ==>
              (r.value.valid <==> exists k :: 0 <= k < |options| && Lower(options[k]) == Lower(raw))
    ensures !AllDigits(raw) && r.Ok? && r.value.valid ==>
              exists k :: r.value.clean == Some(k) && 0 <= k < |options| && Lower(options[k]) == Lower(raw)
                          && forall j :: 0 <= j < k ==> Lower(options[j]) != Lower(raw)
    ensures !AllDigits(raw) && r.Ok? ==>
              exists m :: BestMatch(raw, options, m)
                          && (m.dist == 0 ==> r.value == Checked(true, Some(m.index), None))
                          && (1 <= m.dist <= 2 ==> r.value == Checked(false, None, Some(DidYouMean(options[m.index]))))
                          && (m.dist > 2 ==> r.value == Checked(false, None, Some(InvalidInput)))
    ensures r.Ok? && r.value.valid ==> exists k :: r.value.clean == Some(k) && 0 <= k < |options|
  {
    if AllDigits(raw) {
      var n := DigitsValue(raw);
      if n < |options| {
        return Ok(Checked(true, Some(n), None));
      }
      return Ok(Checked(false, Some(n), Some(OutOfRange)));
    }
    var found := FuzzyTextMatch(raw, options);
    if found.Err? {
      return Err(found.error);
    }
    var m := found.value;
    ExactMatch(raw, options, m);
    if m.dist == 0 {
      r := Ok(Checked(true, Some(m.index), None));
    } else if m.dist <= 2 {
      r := Ok(Checked(false, None, Some(DidYouMean(options[m.index]))));
    } else {
      r := Ok(Checked(false, None, Some(InvalidInput)));
    }
  }

  // ---------------------------------------------------------------------
  // Skip
  // ---------------------------------------------------------------------

  const SkipLabel := "Skip"

  /** The options `Controller.get_input` validates against: with skipping
      allowed, "Skip" is appended after the given labels. */
  function WithSkip(options: seq<string>, allowSkip: bool): (r: seq<string>)
    ensures allowSkip ==> |r| == |options| + 1 && r[..|options|] == options && r[|options|] == SkipLabel
    ensures !allowSkip ==> r == options
  {
    if allowSkip then options + [SkipLabel] else options
  }

  /** Typing "skip" in any case selects the appended label, whose position
      is one past the given options, unless an earlier label is also
      "skip" up to case. The controller thus answers Skip with a number,
      not with the word. */
  lemma SkipByName(raw: string, options: seq<string>, m: Match)
    requires Lower(raw) == Lower(SkipLabel)
    requires forall k :: 0 <= k < |options| ==> Lower(options[k]) != Lower(SkipLabel)
    requires BestMatch(raw, WithSkip(options, true), m)
    ensures m == Match(|options|, 0)
  {
    var all := WithSkip(options, true);
    ExactMatch(raw, all, m);
    assert Lower(all[|options|]) == Lower(raw);
  }

  /** Typing the number of given options also selects Skip. */
  lemma SkipByNumber(options: seq<string>)
    ensures var all := WithSkip(options, true);
            AllDigits(NatToString(|options|)) && DigitsValue(NatToString(|options|)) == |options|
            && |options| < |all| && all[|options|] == SkipLabel
  {
    ParsePrinted(|options|);
  }
}

=== FILE: deck.dfy ===
/** A player's deck (dominion/players/deck.py, repeated verbatim in
    dominion/players.py): draw, discard and hand piles, the per-card counts
    recomputed after trashing and adding, and the random state that drives
    its shuffles.

    The deck as written supports trashing from the hand, adding to the
    discard pile and moving cards by value between the draw, discard and
    hand piles; every other use raises. The card effects need more (drawing
    into the caller, adding to other piles, moving by index, a played pile),
    so those operations are declared here as an extended interface, each
    with its chosen meaning stated at its declaration. */
module Decks {
  import opened Wrappers
  import opened Seqs
  import opened Shuffling
  import opened Cards

  /** The deck's piles. PLAYED is named by Throne Room but has no list in
      the written deck. */
  datatype DeckPile = DRAW | DISCARD | HAND | PLAYED

  /** A `from_pile`/`to_pile` argument: a DeckPile member or any other value. */
  datatype PileArg = Pile(pile: DeckPile) | NotAPile

  /** The top of every pile is index 0. `counts` is the recorded multiset of
      cards, refreshed only where the source refreshes it; `rng` is the
      tape of random picks still to be used by shuffles. */
  datatype Deck = Deck(
    draw: seq<Card>,
    discard: seq<Card>,
    hand: seq<Card>,
    played: seq<Card>,
    counts: multiset<Card>,
    rng: seq<nat>)

  /** Every card the deck physically holds. */
  function AllCards(d: Deck): multiset<Card> {
    multiset(d.draw) + multiset(d.discard) + multiset(d.hand) + multiset(d.played)
  }

  /** The recorded counts agree with the piles. */
  predicate Valid(d: Deck) {
    d.counts == AllCards(d)
  }

  /** `len(deck)`: the sum of the recorded counts. */
  function Size(d: Deck): (n: nat)
    ensures Valid(d) ==> n == |d.draw| + |d.discard| + |d.hand| + |d.played|
  {
    |d.counts|
  }

  /** `_update_counts`: the counts are rebuilt from the piles. */
  function Recount(d: Deck): (r: Deck)
    ensures Valid(r)
    ensures r.draw == d.draw && r.discard == d.discard && r.hand == d.hand
    ensures r.played == d.played && r.rng == d.rng
  {
    d.(counts := AllCards(d))
  }

  function GetPile(d: Deck, p: DeckPile): seq<Card> {
    match p
    case DRAW => d.draw
    case DISCARD => d.discard
    case HAND => d.hand
    case PLAYED => d.played
  }

  /** Replaces one pile, keeping the others, the counts and the tape. */
  function SetPile(d: Deck, p: DeckPile, s: seq<Card>): (r: Deck)
    ensures GetPile(r, p) == s
    ensures forall q :: q != p ==> GetPile(r, q) == GetPile(d, q)
    ensures r.counts == d.counts && r.rng == d.rng
  {
    match p
    case DRAW => d.(draw := s)
    case DISCARD => d.(discard := s)
    case HAND => d.(hand := s)
    case PLAYED => d.(played := s)
  }

  /** Replacing a pile trades its cards for the new ones. */
  lemma SetPileCards(d: Deck, p: DeckPile, s: seq<Card>)
    ensures AllCards(SetPile(d, p, s)) + multiset(GetPile(d, p)) == AllCards(d) + multiset(s)
  {
  }

  /** Taking card `c` from one pile and putting it on top of another keeps
      the deck's cards. */
  lemma MoveOneCards(d: Deck, c: Card, from: DeckPile, to: DeckPile)
    requires c in GetPile(d, from)
    ensures var d1 := SetPile(d, from, RemoveFirst(GetPile(d, from), c));
            AllCards(SetPile(d1, to, [c] + GetPile(d1, to))) == AllCards(d)
  {
    var rest := RemoveFirst(GetPile(d, from), c);
    var d1 := SetPile(d, from, rest);
    TakeOut(d, from, rest, multiset{c});
    PutOn(d1, to, [c] + GetPile(d1, to), multiset{c});
  }

  /** Shrinking a pile to `rest` takes the difference `m` out of the deck. */
  lemma TakeOut(d: Deck, p: DeckPile, rest: seq<Card>, m: multiset<Card>)
    requires multiset(GetPile(d, p)) == multiset(rest) + m
    ensures AllCards(SetPile(d, p, rest)) + m == AllCards(d)
  {
    SetPileCards(d, p, rest);
    Cancel(AllCards(SetPile(d, p, rest)) + m, AllCards(d), multiset(rest));
  }

  /** Growing a pile to `top` puts the difference `m` into the deck. */
  lemma PutOn(d: Deck, p: DeckPile, top: seq<Card>, m: multiset<Card>)
    requires multiset(top) == m + multiset(GetPile(d, p))
    ensures AllCards(SetPile(d, p, top)) == AllCards(d) + m
  {
    var t := multiset(GetPile(d, p));
    SetPileCards(d, p, top);
    Cancel(AllCards(SetPile(d, p, top)), AllCards(d) + m, t);
  }

  /** Multiset addition cancels. */
  lemma Cancel<T>(a: multiset<T>, b: multiset<T>, t: multiset<T>)
    requires a + t == b + t
    ensures a == b
  {
    forall x
      ensures a[x] == b[x]
    {
      assert (a + t)[x] == (b + t)[x];
    }
  }

  /** `Deck.__init__`: the starter cards, shuffled, form the draw pile. */
  function NewDeck(starter: seq<Card>, rng: seq<nat>): (d: Deck)
    ensures Valid(d) && Size(d) == |starter|
    ensures multiset(d.draw) == multiset(starter)
    ensures d.discard == [] && d.hand == [] && d.played == []
  {
    Deck(Shuffle(starter, rng), [], [], [], multiset(starter), Consume(rng, |starter|))
  }

  /** Every ordering of the starter cards is a possible initial draw pile. */
  lemma NewDeckAnyOrder(starter: seq<Card>, order: seq<Card>)
    requires multiset(order) == multiset(starter)
    ensures NewDeck(starter, PicksFor(starter, order)).draw == order
  {
    ShuffleReachesEveryOrder(starter, order);
  }

  /** A fresh player deck: ten cards, nothing in hand or discard. */
  lemma FreshDeck(rng: seq<nat>)
    ensures var d := NewDeck(STARTER_DECK, rng);
            Size(d) == 10 && |d.draw| == 10 && d.hand == [] && d.discard == []
            && multiset(d.draw) == multiset{Estate, Estate, Estate, Copper, Copper, Copper, Copper, Copper, Copper, Copper}
  {
    StarterDeckShape();
    var d := NewDeck(STARTER_DECK, rng);
    assert |d.draw| == |multiset(d.draw)|;
  }

  /** `_reshuffle`: the discard pile, shuffled, goes under the draw pile. */
  function Reshuffle(d: Deck): (r: Deck)
    ensures r.discard == [] && r.hand == d.hand && r.played == d.played
    ensures |r.draw| == |d.draw| + |d.discard|
    ensures r.draw[..|d.draw|] == d.draw
    ensures multiset(r.draw[|d.draw|..]) == multiset(d.discard)
    ensures r.counts == d.counts
  {
    var shuffled := Shuffle(d.discard, d.rng);
    var r := d.(draw := d.draw + shuffled, discard := [], rng := Consume(d.rng, |d.discard|));
    assert r.draw[|d.draw|..] == shuffled;
    r
  }

  lemma ReshuffleCards(d: Deck)
    ensures AllCards(Reshuffle(d)) == AllCards(d)
  {
    var r := Reshuffle(d);
    assert r.draw == d.draw + r.draw[|d.draw|..];
  }

  /** The hand a draw starts from, and the discard pile, after the optional
      discarding of the old hand. */
  function DiscardHand(d: Deck, replaceHand: bool): (r: Deck)
    ensures replaceHand ==> r.hand == [] && r.discard == d.discard + d.hand
    ensures !replaceHand ==> r == d
    ensures r.draw == d.draw && r.played == d.played && r.rng == d.rng
    ensures r.counts == d.counts
  {
    if replaceHand then d.(discard := d.discard + d.hand, hand := []) else d
  }

  lemma DiscardHandCards(d: Deck, replaceHand: bool)
    ensures AllCards(DiscardHand(d, replaceHand)) == AllCards(d)
  {
  }

  function Min(a: int, b: int): int {
    if a <= b then a else b
  }

  /** `draw_cards(n, replace_hand)`. With `replace_hand` the hand is first
      appended to the discard pile. If fewer than `n` cards remain to draw,
      the discard pile is reshuffled under them. Then up to `n` cards move
      from the top of the draw pile to the end of the hand. The counts are
      not refreshed (none change). The returned list is the new hand. */
  function DrawCards(d: Deck, n: nat, replaceHand: bool): (r: Deck)
    ensures r.played == d.played && r.counts == d.counts
    ensures AllCards(r) == AllCards(d)
    ensures Valid(d) ==> Valid(r) && Size(r) == Size(d)
  {
    var before := DiscardHand(d, replaceHand);
    DiscardHandCards(d, replaceHand);
    ReshuffleCards(before);
    var ready := if |before.draw| < n then Reshuffle(before) else before;
    DrawTopCards(ready, Min(n, |ready.draw|));
    DrawTop(ready, Min(n, |ready.draw|))
  }

  /** The top `k` cards of the draw pile go to the end of the hand. */
  function DrawTop(d: Deck, k: nat): (r: Deck)
    requires k <= |d.draw|
    ensures r.hand == d.hand + d.draw[..k] && r.draw == d.draw[k..]
    ensures r.discard == d.discard && r.played == d.played
    ensures r.counts == d.counts && r.rng == d.rng
  {
    d.(hand := d.hand + d.draw[..k], draw := d.draw[k..])
  }

  lemma DrawTopCards(d: Deck, k: nat)
    requires k <= |d.draw|
    ensures AllCards(DrawTop(d, k)) == AllCards(d)
  {
    assert d.draw == d.draw[..k] + d.draw[k..];
  }

  /** A draw keeps the kept hand as a prefix; with enough cards on the draw
      pile it moves exactly the top `n` to the hand and leaves the discard
      pile and the random state alone. */
  lemma DrawWithoutReshuffle(d: Deck, n: nat, replaceHand: bool)
    ensures var r := DrawCards(d, n, replaceHand);
            var kept := if replaceHand then [] else d.hand;
            |r.hand| >= |kept| && r.hand[..|kept|] == kept
            && (|d.draw| >= n ==>
                  r.hand[|kept|..] == d.draw[..n] && r.draw == d.draw[n..]
                  && r.discard == DiscardHand(d, replaceHand).discard && r.rng == d.rng)
  {
    var r := DrawCards(d, n, replaceHand);
    var before := DiscardHand(d, replaceHand);
    if |d.draw| >= n {
      assert r.hand[|before.hand|..] == d.draw[..n];
    }
  }

  /** A draw with fewer than `n` cards left reshuffles: the discard pile
      empties, as many cards as possible are drawn, and what was drawn
      followed by the new draw pile is the old draw pile followed by a
      permutation of the discard pile. */
  lemma DrawWithReshuffle(d: Deck, n: nat, replaceHand: bool)
    requires |d.draw| < n
    ensures var r := DrawCards(d, n, replaceHand);
            var kept := if replaceHand then [] else d.hand;
            var before := DiscardHand(d, replaceHand);
            var drawn := r.hand[|kept|..];
            r.discard == []
            && |drawn| == Min(n, |d.draw| + |before.discard|)
            && (drawn + r.draw)[..|d.draw|] == d.draw
            && multiset((drawn + r.draw)[|d.draw|..]) == multiset(before.discard)
  {
    var before := DiscardHand(d, replaceHand);
    var ready := Reshuffle(before);
    var k := Min(n, |ready.draw|);
    DrawTopSplit(ready, k);
    var r := DrawTop(ready, k);
    assert r == DrawCards(d, n, replaceHand);
  }

  /** After moving the top `k` cards, the new part of the hand followed by
      the draw pile is the old draw pile. */
  lemma DrawTopSplit(d: Deck, k: nat)
    requires k <= |d.draw|
    ensures |DrawTop(d, k).hand| == |d.hand| + k
    ensures DrawTop(d, k).hand[|d.hand|..] + DrawTop(d, k).draw == d.draw
  {
    var r := DrawTop(d, k);
    assert r.hand[|d.hand|..] == d.draw[..k];
    assert d.draw == d.draw[..k] + d.draw[k..];
  }

  /** `trash(cards, from_pile)`: from the hand, the first occurrence of each
      listed card is removed in turn and the counts are refreshed; a card
      missing from the hand raises ValueError (`list.remove`). Any other
      pile raises NotImplementedError, a non-pile ValueError. */
  function Trash(d: Deck, cards: seq<Card>, from: PileArg): (r: Result<Deck>)
    ensures r.Ok? <==> from == Pile(HAND) && multiset(cards) <= multiset(d.hand)
    ensures from == NotAPile ==> r == Err(ValueError)
    ensures from.Pile? && from.pile != HAND ==> r == Err(NotImplementedError)
    ensures from == Pile(HAND) && !(multiset(cards) <= multiset(d.hand)) ==> r == Err(ValueError)
    ensures r.Ok? ==>
              Valid(r.value)
              && multiset(r.value.hand) == multiset(d.hand) - multiset(cards)
              && |r.value.hand| == |d.hand| - |cards|
              && r.value.draw == d.draw && r.value.discard == d.discard
              && r.value.played == d.played
              && AllCards(r.value) == AllCards(d) - multiset(cards)
              && Size(r.value) == |AllCards(d)| - |cards|
  {
    RemoveEachSpec(d.hand, cards);
    match from
    case NotAPile => Err(ValueError)
    case Pile(p) =>
      if p != HAND then Err(NotImplementedError)
      else match RemoveEach(d.hand, cards)
        case None => Err(ValueError)
        case Some(h) =>
          assert multiset(d.hand) == multiset(h) + multiset(cards);
          Ok(Recount(d.(hand := h)))
  }

  /** Trashing from the hand leaves exactly the hand that removing each
      listed card in turn leaves, order included. */
  lemma TrashRemovesFirst(d: Deck, cards: seq<Card>)
    requires multiset(cards) <= multiset(d.hand)
    ensures RemoveEach(d.hand, cards).Some?
    ensures Trash(d, cards, Pile(HAND)).value.hand == RemoveEach(d.hand, cards).value
  {
    RemoveEachSpec(d.hand, cards);
  }

  /** Trashing one held card cuts its first occurrence out of the hand and
      keeps the other cards in their positions' order. */
  lemma TrashOne(d: Deck, c: Card)
    requires c in d.hand
    ensures Trash(d, [c], Pile(HAND)).Ok?
    ensures var i := FirstIndex(d.hand, c);
            Trash(d, [c], Pile(HAND)).value.hand == d.hand[..i] + d.hand[i + 1..]
  {
    assert multiset([c]) <= multiset(d.hand);
    TrashRemovesFirst(d, [c]);
    RemoveFirstIsFirst(d.hand, c);
    assert [c][1..] == [];
  }

  /** `add(cards, to_pile)`: appends to the discard pile and refreshes the
      counts. Any other pile raises NotImplementedError, a non-pile
      ValueError. */
  function Add(d: Deck, cards: seq<Card>, to: PileArg): (r: Result<Deck>)
    ensures r.Ok? <==> to == Pile(DISCARD)
    ensures to == NotAPile ==> r == Err(ValueError)
    ensures to.Pile? && to.pile != DISCARD ==> r == Err(NotImplementedError)
    ensures r.Ok? ==>
              Valid(r.value) && r.value.discard == d.discard + cards
              && r.value.draw == d.draw && r.value.hand == d.hand && r.value.played == d.played
              && AllCards(r.value) == AllCards(d) + multiset(cards)
              && Size(r.value) == |AllCards(d)| + |cards|
  {
    match to
    case NotAPile => Err(ValueError)
    case Pile(p) =>
      if p != DISCARD then Err(NotImplementedError)
      else Ok(Recount(d.(discard := d.discard + cards)))
  }

  /** One step of the loop of `move`: the first occurrence of `c` leaves the
      source and `c` is inserted at index 0 of the destination. */
  function MoveOne(d: Deck, c: Card, from: DeckPile, to: DeckPile): (r: Deck)
    requires c in GetPile(d, from)
    ensures r.counts == d.counts && r.rng == d.rng
  {
    var d1 := SetPile(d, from, RemoveFirst(GetPile(d, from), c));
    SetPile(d1, to, [c] + GetPile(d1, to))
  }

  /** Between two different piles, one step touches only those two. */
  lemma MoveOneBetween(d: Deck, c: Card, from: DeckPile, to: DeckPile)
    requires from != to && c in GetPile(d, from)
    ensures GetPile(MoveOne(d, c, from, to), from) == RemoveFirst(GetPile(d, from), c)
    ensures GetPile(MoveOne(d, c, from, to), to) == [c] + GetPile(d, to)
    ensures forall q :: q != from && q != to ==> GetPile(MoveOne(d, c, from, to), q) == GetPile(d, q)
  {
  }

  /** The loop of `move`: for each card in order, a card missing from the
      source raises RuntimeError; otherwise it takes one step. Source and
      destination may be the same pile. Counts are not refreshed. */
  function MoveEach(d: Deck, cards: seq<Card>, from: DeckPile, to: DeckPile): (r: Result<Deck>)
    ensures r.Ok? ==> r.value.counts == d.counts && r.value.rng == d.rng
    ensures r.Err? ==> r.error == RuntimeError
    decreases |cards|
  {
    if |cards| == 0 then Ok(d)
    else if cards[0] !in GetPile(d, from) then Err(RuntimeError)
    else MoveEach(MoveOne(d, cards[0], from, to), cards[1..], from, to)
  }

  lemma FirstAndRest<T>(s: seq<T>)
    requires |s| > 0
    ensures multiset(s) == multiset{s[0]} + multiset(s[1..])
  {
    assert s == [s[0]] + s[1..];
  }

  lemma MinusTwice<T>(a: multiset<T>, x: multiset<T>, y: multiset<T>)
    ensures (a - x) - y == a - (x + y)
  {
    forall z
      ensures ((a - x) - y)[z] == (a - (x + y))[z]
    {
    }
  }

  /** The loop keeps the deck's cards, whatever the piles. */
  lemma {:induction false} MoveEachCards(d: Deck, cards: seq<Card>, from: DeckPile, to: DeckPile)
    ensures MoveEach(d, cards, from, to).Ok? ==> AllCards(MoveEach(d, cards, from, to).value) == AllCards(d)
    decreases |cards|
  {
    if |cards| > 0 && cards[0] in GetPile(d, from) {
      MoveOneCards(d, cards[0], from, to);
      MoveEachCards(MoveOne(d, cards[0], from, to), cards[1..], from, to);
    }
  }

  /** With one occurrence of `x` available, `xs` fits in what is left after
      removing it exactly when `xs` plus `x` fits in the whole. */
  lemma SubAfterRemove<T>(x: T, xs: multiset<T>, s: multiset<T>)
    requires x in s
    ensures xs <= s - multiset{x} <==> xs + multiset{x} <= s
  {
    if xs <= s - multiset{x} {
      forall y
        ensures (xs + multiset{x})[y] <= s[y]
      {
        assert xs[y] <= (s - multiset{x})[y];
      }
    }
    if xs + multiset{x} <= s {
      forall y
        ensures xs[y] <= (s - multiset{x})[y]
      {
        assert (xs + multiset{x})[y] <= s[y];
      }
    }
  }

  /** Between two different piles, the loop succeeds exactly when the cards
      are all available in the source, counting repetitions. */
  lemma {:induction false} MoveEachOk(d: Deck, cards: seq<Card>, from: DeckPile, to: DeckPile)
    requires from != to
    ensures MoveEach(d, cards, from, to).Ok? <==> multiset(cards) <= multiset(GetPile(d, from))
    decreases |cards|
  {
    var src := GetPile(d, from);
    if |cards| > 0 {
      var c := cards[0];
      assert cards == [c] + cards[1..];
      assert multiset(cards) == multiset(cards[1..]) + multiset{c};
      if c in src {
        var d2 := MoveOne(d, c, from, to);
        MoveOneBetween(d, c, from, to);
        MoveEachOk(d2, cards[1..], from, to);
        SubAfterRemove(c, multiset(cards[1..]), multiset(src));
      } else {
        assert multiset(cards)[c] >= 1;
      }
    }
  }

  /** Between two different piles, a successful loop leaves the cards on top
      of the destination in reverse order. */
  lemma {:induction false} MoveEachTo(d: Deck, cards: seq<Card>, from: DeckPile, to: DeckPile)
    requires from != to && MoveEach(d, cards, from, to).Ok?
    ensures GetPile(MoveEach(d, cards, from, to).value, to) == Reverse(cards) + GetPile(d, to)
    decreases |cards|
  {
    if |cards| > 0 {
      var c := cards[0];
      assert c in GetPile(d, from);
      var d2 := MoveOne(d, c, from, to);
      assert MoveEach(d, cards, from, to) == MoveEach(d2, cards[1..], from, to);
      MoveOneBetween(d, c, from, to);
      MoveEachTo(d2, cards[1..], from, to);
      var rest, below := Reverse(cards[1..]), GetPile(d, to);
      assert GetPile(MoveEach(d, cards, from, to).value, to) == rest + ([c] + below);
      assert Reverse(cards) == rest + [c];
      AppendAssoc(rest, [c], below);
    }
  }

  /** A successful loop between two different piles removes the cards from
      the source. */
  lemma {:induction false} MoveEachFrom(d: Deck, cards: seq<Card>, from: DeckPile, to: DeckPile)
    requires from != to && MoveEach(d, cards, from, to).Ok?
    ensures var r := MoveEach(d, cards, from, to).value;
            multiset(GetPile(r, from)) == multiset(GetPile(d, from)) - multiset(cards)
            && |GetPile(r, from)| == |GetPile(d, from)| - |cards|
    decreases |cards|
  {
    if |cards| > 0 {
      var c, rest := cards[0], cards[1..];
      var d2 := MoveOne(d, c, from, to);
      assert MoveEach(d, cards, from, to) == MoveEach(d2, rest, from, to);
      MoveOneBetween(d, c, from, to);
      MoveEachFrom(d2, rest, from, to);
      FirstAndRest(cards);
      MinusTwice(multiset(GetPile(d, from)), multiset{c}, multiset(rest));
    }
  }

  /** A loop between two different piles changes no third pile. */
  lemma {:induction false} MoveEachOthers(d: Deck, cards: seq<Card>, from: DeckPile, to: DeckPile, q: DeckPile)
    requires from != to && q != from && q != to && MoveEach(d, cards, from, to).Ok?
    ensures GetPile(MoveEach(d, cards, from, to).value, q) == GetPile(d, q)
    decreases |cards|
  {
    if |cards| > 0 {
      MoveOneBetween(d, cards[0], from, to);
      MoveEachOthers(MoveOne(d, cards[0], from, to), cards[1..], from, to, q);
    }
  }

  /** The loop between two different piles, stated for any pair of piles. */
  lemma MoveEachSpec(d: Deck, cards: seq<Card>, from: DeckPile, to: DeckPile)
    ensures from != to ==>
              (MoveEach(d, cards, from, to).Ok? <==> multiset(cards) <= multiset(GetPile(d, from)))
    ensures var r := MoveEach(d, cards, from, to);
            from != to && r.Ok? ==>
              GetPile(r.value, to) == Reverse(cards) + GetPile(d, to)
              && multiset(GetPile(r.value, from)) == multiset(GetPile(d, from)) - multiset(cards)
              && |GetPile(r.value, from)| == |GetPile(d, from)| - |cards|
              && (forall q :: q != from && q != to ==> GetPile(r.value, q) == GetPile(d, q))
    ensures var r := MoveEach(d, cards, from, to);
            r.Ok? ==> AllCards(r.value) == AllCards(d)
  {
    MoveEachCards(d, cards, from, to);
    if from != to {
      MoveEachOk(d, cards, from, to);
      if MoveEach(d, cards, from, to).Ok? {
        MoveEachTo(d, cards, from, to);
        MoveEachFrom(d, cards, from, to);
        forall q | q != from && q != to
          ensures GetPile(MoveEach(d, cards, from, to).value, q) == GetPile(d, q)
        {
          MoveEachOthers(d, cards, from, to, q);
        }
      }
    }
  }

  /** `move(cards, from_pile, to_pile, to_pos)`: only `to_pos == "TOP"` is
      implemented (NotImplementedError otherwise), and only the draw,
      discard and hand piles have lists (KeyError for anything else). */
  function Move(d: Deck, cards: seq<Card>, from: PileArg, to: PileArg, toPos: string): (r: Result<Deck>)
    ensures toPos != "TOP" ==> r == Err(NotImplementedError)
    ensures toPos == "TOP" && (from !in KnownPiles || to !in KnownPiles) ==> r == Err(KeyError)
    ensures toPos == "TOP" && from in KnownPiles && to in KnownPiles && from != to ==>
              (r.Ok? <==> multiset(cards) <= multiset(GetPile(d, from.pile)))
    ensures r.Ok? ==> AllCards(r.value) == AllCards(d) && r.value.counts == d.counts
    ensures r.Ok? && Valid(d) ==> Valid(r.value) && Size(r.value) == Size(d)
    ensures r.Err? ==> r.error in {NotImplementedError, KeyError, RuntimeError}
  {
    if toPos != "TOP" then Err(NotImplementedError)
    else if from !in KnownPiles || to !in KnownPiles then Err(KeyError)
    else
      MoveEachSpec(d, cards, from.pile, to.pile);
      MoveEach(d, cards, from.pile, to.pile)
  }

  /** The keys of the pile table inside `move`. */
  const KnownPiles: set<PileArg> := {Pile(DISCARD), Pile(DRAW), Pile(HAND)}

  // ---------------------------------------------------------------------
  // Extended interface used by the card effects.
  // ---------------------------------------------------------------------

  datatype Taken = Taken(deck: Deck, cards: seq<Card>)

  /** `draw_cards(n, to_caller=True)`: the same reshuffle rule as a normal
      draw, but the top cards are handed to the caller instead of the hand;
      they leave the deck, so the counts are refreshed. */
  function DrawToCaller(d: Deck, n: nat): (r: Taken)
    ensures |d.draw| >= n ==> r.cards == d.draw[..n] && r.deck.draw == d.draw[n..]
                              && r.deck.discard == d.discard
    ensures |d.draw| < n ==> r.deck.discard == [] && |r.cards| == Min(n, |d.draw| + |d.discard|)
    ensures |r.cards| <= n
    ensures r.deck.hand == d.hand && r.deck.played == d.played
    ensures Valid(r.deck)
  {
    var ready := if |d.draw| < n then Reshuffle(d) else d;
    var k := Min(n, |ready.draw|);
    Taken(Recount(ready.(draw := ready.draw[k..])), ready.draw[..k])
  }

  /** The cards handed to the caller are exactly the ones that left the deck. */
  lemma DrawToCallerCards(d: Deck, n: nat)
    ensures AllCards(DrawToCaller(d, n).deck) + multiset(DrawToCaller(d, n).cards) == AllCards(d)
  {
    ReshuffleCards(d);
    var ready := if |d.draw| < n then Reshuffle(d) else d;
    TakeTop(ready, Min(n, |ready.draw|));
  }

  lemma TakeTop(d: Deck, k: nat)
    requires k <= |d.draw|
    ensures AllCards(d.(draw := d.draw[k..])) + multiset(d.draw[..k]) == AllCards(d)
  {
    assert multiset(d.draw) == multiset(d.draw[..k]) + multiset(d.draw[k..]) by {
      assert d.draw == d.draw[..k] + d.draw[k..];
    }
  }

  /** `add(cards, to_pile)` for every pile: on the draw pile the cards go on
      top, keeping their order; on the other piles they are appended. The
      counts are refreshed. */
  function AddTo(d: Deck, cards: seq<Card>, to: DeckPile): (r: Deck)
    ensures to == DRAW ==> r.draw == cards + d.draw
    ensures to != DRAW ==> GetPile(r, to) == GetPile(d, to) + cards
    ensures forall q :: q != to ==> GetPile(r, q) == GetPile(d, q)
    ensures AllCards(r) == AllCards(d) + multiset(cards)
    ensures Valid(r) && Size(r) == |AllCards(d)| + |cards|
  {
    var pile := GetPile(d, to);
    Recount(SetPile(d, to, if to == DRAW then cards + pile else pile + cards))
  }

  /** On the discard pile the extended `add` is the written one. */
  lemma AddToDiscard(d: Deck, cards: seq<Card>)
    ensures Add(d, cards, Pile(DISCARD)) == Ok(AddTo(d, cards, DISCARD))
  {
  }

  /** `move` by index: `idxs` are positions in the source pile as it was
      before the move; each picked card in turn is inserted at index 0 of
      the destination, and the source keeps its unpicked cards in order. A
      repeated or out-of-range index raises RuntimeError. Counts are not
      refreshed. */
  function MoveIndices(d: Deck, idxs: seq<int>, from: DeckPile, to: DeckPile): (r: Result<Deck>)
    ensures r.Ok? <==> InRange(idxs, |GetPile(d, from)|) && Distinct(idxs)
    ensures r.Ok? && from != to ==>
              GetPile(r.value, from) == Unmarked(GetPile(d, from), idxs)
              && GetPile(r.value, to) == Reverse(Picked(GetPile(d, from), idxs)) + GetPile(d, to)
              && |GetPile(r.value, from)| == |GetPile(d, from)| - |idxs|
              && (forall q :: q != from && q != to ==> GetPile(r.value, q) == GetPile(d, q))
    ensures r.Ok? ==> r.value.counts == d.counts && r.value.rng == d.rng
    ensures r.Err? ==> r.error == RuntimeError
  {
    var src := GetPile(d, from);
    if !(InRange(idxs, |src|) && Distinct(idxs)) then Err(RuntimeError)
    else
      var moved := Picked(src, idxs);
      PickedUnmarkedSplit(src, idxs);
      var d1 := SetPile(d, from, Unmarked(src, idxs));
      Ok(SetPile(d1, to, Reverse(moved) + GetPile(d1, to)))
  }

  /** Moving by index keeps the deck's cards, so a valid deck stays valid and
      keeps its size. */
  lemma MoveIndicesCards(d: Deck, idxs: seq<int>, from: DeckPile, to: DeckPile)
    ensures var r := MoveIndices(d, idxs, from, to);
            r.Ok? ==> AllCards(r.value) == AllCards(d)
                      && (Valid(d) ==> Valid(r.value) && Size(r.value) == Size(d))
  {
    var src := GetPile(d, from);
    if InRange(idxs, |src|) && Distinct(idxs) {
      var moved, rest := Picked(src, idxs), Unmarked(src, idxs);
      var m := multiset(moved);
      PickedUnmarkedSplit(src, idxs);
      ReverseMultiset(moved);
      var d1 := SetPile(d, from, rest);
      TakeOut(d, from, rest, m);
      var top := Reverse(moved) + GetPile(d1, to);
      PutOn(d1, to, top, m);
      assert MoveIndices(d, idxs, from, to) == Ok(SetPile(d1, to, top));
    }
  }

  /** `move` by value between any two piles, the played pile included; the
      same loop as `move`. */
  function MoveAny(d: Deck, cards: seq<Card>, from: DeckPile, to: DeckPile): (r: Result<Deck>)
    ensures from != to ==> (r.Ok? <==> multiset(cards) <= multiset(GetPile(d, from)))
    ensures r.Ok? && from != to ==>
              GetPile(r.value, to) == Reverse(cards) + GetPile(d, to)
              && multiset(GetPile(r.value, from)) == multiset(GetPile(d, from)) - multiset(cards)
              && (forall q :: q != from && q != to ==> GetPile(r.value, q) == GetPile(d, q))
    ensures r.Ok? ==> AllCards(r.value) == AllCards(d) && r.value.counts == d.counts
    ensures r.Err? ==> r.error == RuntimeError
  {
    MoveEachSpec(d, cards, from, to);
    MoveEach(d, cards, from, to)
  }
}

=== FILE: deck_scenarios.dfy ===
/** The deck scenarios of test/test_deck.py, stated for every shuffle. */
module DeckScenarios {
  import opened Wrappers
  import opened Cards
  import opened Decks
  import opened Seqs

  /** A deck as `Deck()` builds it: the starter cards in some order on the
      draw pile and nothing elsewhere. */
  predicate Fresh(d: Deck) {
    Valid(d) && d.hand == [] && d.discard == [] && d.played == []
    && multiset(d.draw) == multiset(STARTER_DECK)
  }

  /** Every shuffle yields a fresh deck of ten cards. */
  lemma NewDeckIsFresh(rng: seq<nat>)
    ensures Fresh(NewDeck(STARTER_DECK, rng))
    ensures |NewDeck(STARTER_DECK, rng).draw| == 10 && Size(NewDeck(STARTER_DECK, rng)) == 10
  {
    FreshDeck(rng);
  }

  /** The first hand of a fresh deck: five cards from the top of the draw
      pile. */
  lemma FirstHandShape(d0: Deck)
    requires Fresh(d0)
    ensures var d := DrawCards(d0, 5, true);
            |d.hand| == 5 && |d.draw| == 5 && d.discard == [] && Valid(d) && Size(d) == 10
            && multiset(d.hand) + multiset(d.draw) == multiset(STARTER_DECK)
  {
    assert |d0.draw| == 10 by {
      assert |multiset(d0.draw)| == |multiset(STARTER_DECK)|;
    }
    TopFive(d0);
  }

  /** Drawing five with an empty hand and discard pile and at least five
      cards to draw splits the draw pile. */
  lemma TopFive(d0: Deck)
    requires Valid(d0) && d0.hand == [] && d0.discard == [] && |d0.draw| >= 5
    ensures var d := DrawCards(d0, 5, true);
            d.hand == d0.draw[..5] && d.draw == d0.draw[5..] && d.discard == []
            && Valid(d) && Size(d) == Size(d0)
            && multiset(d.hand) + multiset(d.draw) == multiset(d0.draw)
  {
    DrawWithoutReshuffle(d0, 5, true);
    var d := DrawCards(d0, 5, true);
    assert d.hand == d.hand[0..] == d0.draw[..5];
    assert d.draw == d0.draw[5..];
    assert d.discard == [];
    assert d0.draw == d.hand + d.draw by {
      assert d0.draw == d0.draw[..5] + d0.draw[5..];
    }
  }

  /** test_deck_draw, for every fresh deck: five, five again (emptying the draw pile), then one
      more without replacing the hand, which forces a reshuffle. */
  lemma DrawScenario(d0: Deck)
    requires Fresh(d0)
    ensures var d1 := DrawCards(d0, 5, true);
            var d2 := DrawCards(d1, 5, true);
            var d3 := DrawCards(d2, 1, false);
            |d1.hand| == 5 && Size(d1) == 10
            && |d2.discard| == 5 && |d2.hand| == 5 && |d2.draw| == 0
            && |d3.hand| == 6 && Size(d3) == 10 && |d3.discard| == 0
  {
    var d1 := DrawCards(d0, 5, true);
    FirstHandShape(d0);
    var d2 := DrawCards(d1, 5, true);
    DrawWithoutReshuffle(d1, 5, true);
    var d3 := DrawCards(d2, 1, false);
    DrawWithReshuffle(d2, 1, false);
    assert |d3.hand| == |d2.hand| + |d3.hand[|d2.hand|..]|;
  }

  /** A sequence whose every entry is `x` holds `x` once per entry. */
  lemma {:induction false} AllSameCount(s: seq<Card>, x: Card)
    requires forall i :: 0 <= i < |s| ==> s[i] == x
    ensures multiset(s)[x] == |s|
  {
    if |s| > 0 {
      AllSameCount(s[1..], x);
      assert s == [s[0]] + s[1..];
    }
  }

  /** Five cards taken from three Estates and seven Coppers include a Copper. */
  lemma FiveHoldACopper(h: seq<Card>)
    requires |h| == 5 && multiset(h) <= multiset(STARTER_DECK)
    ensures Copper in h
  {
    StarterDeckShape();
    assert multiset(STARTER_DECK)[Estate] == 3;
    if Copper !in h {
      forall i | 0 <= i < |h|
        ensures h[i] == Estate
      {
        assert h[i] in multiset(STARTER_DECK);
        assert h[i] in STARTER_DECK;
      }
      AllSameCount(h, Estate);
      assert false;
    }
  }

  /** What the scenarios below rely on about the first hand. */
  predicate FirstHand(d: Deck) {
    |d.hand| == 5 && d.discard == [] && Valid(d) && Size(d) == 10
    && multiset(d.hand) <= multiset(STARTER_DECK)
  }

  lemma FirstHandOf(d0: Deck)
    requires Fresh(d0)
    ensures FirstHand(DrawCards(d0, 5, true))
  {
    FirstHandShape(d0);
  }

  /** test_deck_trash: trashing a Copper from the first hand leaves four
      cards in hand and nine in the deck. */
  lemma TrashScenario(d0: Deck)
    requires Fresh(d0)
    ensures var r := Trash(DrawCards(d0, 5, true), [Copper], Pile(HAND));
            r.Ok? && |r.value.hand| == 4 && Size(r.value) == 9
  {
    FirstHandOf(d0);
    TrashFromFirstHand(DrawCards(d0, 5, true));
  }

  lemma TrashFromFirstHand(d: Deck)
    requires FirstHand(d)
    ensures var r := Trash(d, [Copper], Pile(HAND));
            r.Ok? && |r.value.hand| == 4 && Size(r.value) == 9
  {
    FiveHoldACopper(d.hand);
    assert multiset([Copper]) <= multiset(d.hand);
    assert |AllCards(d)| == 10;
  }

  /** test_deck_add: two Coppers added to the discard pile. */
  lemma AddScenario(d0: Deck)
    requires Fresh(d0)
    ensures var r := Add(DrawCards(d0, 5, true), [Copper, Copper], Pile(DISCARD));
            r.Ok? && |r.value.hand| == 5 && Size(r.value) == 12 && |r.value.discard| == 2
  {
    FirstHandOf(d0);
    AddToFirstHand(DrawCards(d0, 5, true));
  }

  lemma AddToFirstHand(d: Deck)
    requires FirstHand(d)
    ensures var r := Add(d, [Copper, Copper], Pile(DISCARD));
            r.Ok? && |r.value.hand| == 5 && Size(r.value) == 12 && |r.value.discard| == 2
  {
    var r := Add(d, [Copper, Copper], Pile(DISCARD));
    assert |AllCards(d)| == Size(d) == 10;
    assert r.Ok? && r.value.hand == d.hand && r.value.discard == [Copper, Copper];
    assert Size(r.value) == 10 + 2;
  }

  /** test_deck_move: a Copper moved from hand to the top of discard. */
  lemma MoveScenario(d0: Deck)
    requires Fresh(d0)
    ensures var r := Move(DrawCards(d0, 5, true), [Copper], Pile(HAND), Pile(DISCARD), "TOP");
            r.Ok? && |r.value.hand| == 4 && Size(r.value) == 10
            && |r.value.discard| == 1 && r.value.discard[0] == Copper
  {
    FirstHandOf(d0);
    MoveInFirstHand(DrawCards(d0, 5, true));
  }

  lemma MoveInFirstHand(d: Deck)
    requires FirstHand(d)
    ensures var r := Move(d, [Copper], Pile(HAND), Pile(DISCARD), "TOP");
            r.Ok? && |r.value.hand| == 4 && Size(r.value) == 10
            && |r.value.discard| == 1 && r.value.discard[0] == Copper
  {
    FiveHoldACopper(d.hand);
    MoveHeldCopper(d);
  }

  /** Moving a Copper the five-card hand holds onto an empty discard pile. */
  lemma MoveHeldCopper(d: Deck)
    requires Copper in d.hand && |d.hand| == 5 && d.discard == [] && Valid(d) && Size(d) == 10
    ensures var r := Move(d, [Copper], Pile(HAND), Pile(DISCARD), "TOP");
            r.Ok? && |r.value.hand| == 4 && Size(r.value) == 10
            && |r.value.discard| == 1 && r.value.discard[0] == Copper
  {
    assert multiset([Copper]) <= multiset(GetPile(d, HAND));
    assert Move(d, [Copper], Pile(HAND), Pile(DISCARD), "TOP") == MoveEach(d, [Copper], HAND, DISCARD);
    MoveEachOk(d, [Copper], HAND, DISCARD);
    MoveCopperPiles(d);
  }

  lemma MoveCopperPiles(d: Deck)
    requires MoveEach(d, [Copper], HAND, DISCARD).Ok? && d.discard == []
    ensures var e := MoveEach(d, [Copper], HAND, DISCARD).value;
            e.discard == [Copper] && |e.hand| == |d.hand| - 1
  {
    MoveEachTo(d, [Copper], HAND, DISCARD);
    MoveEachFrom(d, [Copper], HAND, DISCARD);
    assert Reverse([Copper]) == [Copper];
  }
}

=== FILE: effects_discard.dfy ===
/** The discarding actions: Cellar, Militia's Other half, Poacher and
    Harbinger. Discarding moves cards between the player's own piles, so
    the deck keeps every card. */
module DiscardEffects {
  import opened Wrappers
  import opened Cards
  import opened Decks
  import opened Seqs
  import opened Players
  import opened Supplies
  import opened Queue
  import opened Choices
  import opened Turns

  /** `q` is `p` with only its piles rearranged: same name, modifiers and
      cards, and a valid deck stays valid. */
  ghost predicate Rearranged(p: Player, q: Player) {
    q.name == p.name && q.modifiers == p.modifiers
    && AllCards(q.deck) == AllCards(p.deck)
    && (Valid(p.deck) ==> Valid(q.deck) && Size(q.deck) == Size(p.deck))
  }

  /** `move(marked, from_pile=HAND, to_pile=DISCARD)` by hand position:
      the marked cards go on top of the discard pile and the hand keeps
      the rest in order. */
  function DiscardAt(p: Player, marked: seq<int>): (r: Player)
    requires InRange(marked, |Hand(p)|) && Distinct(marked)
    ensures Rearranged(p, r)
    ensures Hand(r) == Unmarked(Hand(p), marked) && |Hand(r)| == |Hand(p)| - |marked|
    ensures r.deck.discard == Reverse(Picked(Hand(p), marked)) + p.deck.discard
    ensures r.deck.draw == p.deck.draw && r.deck.played == p.deck.played
    ensures MoveIndices(p.deck, marked, HAND, DISCARD) == Ok(r.deck)
  {
    MoveIndicesCards(p.deck, marked, HAND, DISCARD);
    var d := MoveIndices(p.deck, marked, HAND, DISCARD).value;
    assert GetPile(d, HAND) == Unmarked(Hand(p), marked);
    assert GetPile(d, DISCARD) == Reverse(Picked(Hand(p), marked)) + p.deck.discard;
    assert GetPile(d, DRAW) == GetPile(p.deck, DRAW) && GetPile(d, PLAYED) == GetPile(p.deck, PLAYED);
    p.(deck := d)
  }

  /** `draw_cards(n, replace_hand=False)` for a player. */
  function DrawMore(p: Player, n: nat): (r: Player)
    ensures Rearranged(p, r)
    ensures |Hand(r)| == |Hand(p)| + Min(n, |p.deck.draw| + |p.deck.discard|)
    ensures Hand(r)[..|Hand(p)|] == Hand(p)
  {
    DrawAdds(p.deck, n);
    p.(deck := DrawCards(p.deck, n, false))
  }

  // ---------------------------------------------------------------------
  // Cellar
  // ---------------------------------------------------------------------

  /** `CellarEvent.forward`: hand positions are marked one at a time (Skip
      ends the marking, and it ends by itself once every position is
      marked), the marked cards are discarded and as many cards are drawn.
      The deck keeps its cards and the hand gets back its size, because
      the discard pile now holds at least the cards just discarded. */
  function Cellar(ctx: Ctx, p: Player, inp: seq<Choice>): (r: Result<Turn>)
    ensures r.Err? ==> r.error == NoMoreInput
    ensures r.Ok? ==> r.value.ctx == ctx && Rearranged(p, r.value.player)
    ensures r.Ok? ==> |Hand(r.value.player)| == |Hand(p)|
    ensures r.Ok? ==> exists marked :: InRange(marked, |Hand(p)|) && Distinct(marked) && |marked| <= |Hand(p)|
                                       && Hand(r.value.player)[..|Hand(p)| - |marked|] == Unmarked(Hand(p), marked)
  {
    var m :- Mark(Hand(p), [], |Hand(p)|, true, inp);
    var q := DiscardAt(p, m.marked);
    var k := |m.marked|;
    var s := DrawMore(q, k);
    assert Min(k, |q.deck.draw| + |q.deck.discard|) == k;
    Ok(Turn(ctx, s, m.rest))
  }

  // ---------------------------------------------------------------------
  // Militia
  // ---------------------------------------------------------------------

  /** How many cards Militia makes a hand of `n` cards discard. */
  function DownToThree(n: nat): nat {
    if n > 3 then n - 3 else 0
  }

  /** `MilitiaEventOther.forward`: unless a Moat is revealed, the target
      marks (without Skip) hand positions until three unmarked cards are
      left, and those cards, looked up by value, go on top of the discard
      pile. The hand ends at three cards, or as it was when smaller. */
  function MilitiaOther(ctx: Ctx, p: Player, inp: seq<Choice>): (r: Result<Turn>)
    ensures r.Err? ==> r.error == NoMoreInput
    ensures r.Ok? ==> r.value.ctx == ctx && Rearranged(p, r.value.player)
    ensures r.Ok? ==> r.value.player == p || |Hand(r.value.player)| == 3 < |Hand(p)|
    ensures r.Ok? ==>
              multiset(Hand(r.value.player)) <= multiset(Hand(p))
              && r.value.player.deck.draw == p.deck.draw
              && multiset(r.value.player.deck.discard) + multiset(Hand(r.value.player))
                 == multiset(p.deck.discard) + multiset(Hand(p))
    ensures Moat !in Hand(p) && |Hand(p)| <= 3 ==> r == Ok(Turn(ctx, p, inp))
  {
    var re :- React(Hand(p), inp);
    if re.defended then Ok(Turn(ctx, p, re.rest))
    else
      var m :- Mark(Hand(p), [], DownToThree(|Hand(p)|), false, re.rest);
      if m.marked == [] then Ok(Turn(ctx, p, m.rest))
      else
        DiscardCardsMoves(p, m.marked);
        Ok(Turn(ctx, DiscardCards(p, m.marked), m.rest))
  }

  /** `to_discard = [hand[c] for c in marked]; move(to_discard, HAND,
      DISCARD)`: the marked cards, found again by value. */
  function DiscardCards(p: Player, marked: seq<int>): (r: Player)
    requires InRange(marked, |Hand(p)|) && Distinct(marked)
    ensures Rearranged(p, r)
    ensures |Hand(r)| == |Hand(p)| - |marked|
    ensures multiset(Hand(r)) + multiset(Picked(Hand(p), marked)) == multiset(Hand(p))
    ensures r.deck.discard == Reverse(Picked(Hand(p), marked)) + p.deck.discard
    ensures r.deck.draw == p.deck.draw && r.deck.played == p.deck.played
  {
    PickedUnmarkedSplit(Hand(p), marked);
    DiscardDeckKeeps(p.deck, Picked(Hand(p), marked));
    p.(deck := DiscardDeck(p.deck, Picked(Hand(p), marked)))
  }

  /** The deck half of DiscardCards: the hand loses the cards, which land
      on the discard pile. */
  function DiscardDeck(d: Deck, cards: seq<Card>): (r: Deck)
    requires multiset(cards) <= multiset(d.hand)
    ensures |r.hand| == |d.hand| - |cards|
    ensures multiset(r.hand) + multiset(cards) == multiset(d.hand)
    ensures r.discard == Reverse(cards) + d.discard
  {
    assert GetPile(d, HAND) == d.hand && GetPile(d, DISCARD) == d.discard;
    var r := MoveCards(d, cards, HAND, DISCARD);
    assert r.discard == GetPile(r, DISCARD);
    assert multiset(r.hand) == multiset(GetPile(r, HAND)) == multiset(d.hand) - multiset(cards);
    r
  }

  /** The rest of the deck stays as it was. */
  lemma DiscardDeckKeeps(d: Deck, cards: seq<Card>)
    requires multiset(cards) <= multiset(d.hand)
    ensures var r := DiscardDeck(d, cards);
            r.draw == d.draw && r.played == d.played
            && AllCards(r) == AllCards(d) && (Valid(d) ==> Valid(r))
  {
    assert GetPile(d, HAND) == d.hand;
    var r := MoveCards(d, cards, HAND, DISCARD);
    assert DRAW != HAND && DRAW != DISCARD && PLAYED != HAND && PLAYED != DISCARD;
    assert r.draw == GetPile(r, DRAW) == GetPile(d, DRAW) == d.draw;
    assert r.played == GetPile(r, PLAYED) == GetPile(d, PLAYED) == d.played;
  }

  /** Discarding by value only moves cards from the hand to the discard
      pile. */
  lemma DiscardCardsMoves(p: Player, marked: seq<int>)
    requires InRange(marked, |Hand(p)|) && Distinct(marked)
    ensures var r := DiscardCards(p, marked);
            multiset(Hand(r)) <= multiset(Hand(p))
            && multiset(r.deck.discard) + multiset(Hand(r)) == multiset(p.deck.discard) + multiset(Hand(p))
  {
    var cards := Picked(Hand(p), marked);
    ReverseMultiset(cards);
  }

  // ---------------------------------------------------------------------
  // Poacher
  // ---------------------------------------------------------------------

  /** `PoacherEvent.forward` as written: one card is drawn, then one hand
      position per empty supply pile is marked (no Skip) and those cards
      are discarded. The printed +(1) is never paid. */
  function PoacherAsWritten(ctx: Ctx, p: Player, inp: seq<Choice>): (r: Result<Turn>)
    ensures r.Err? ==> r.error == NoMoreInput
    ensures r.Ok? ==> r.value.ctx == ctx && Rearranged(p, r.value.player)
    ensures r.Ok? ==> |Hand(r.value.player)| + EmptyPiles(ctx.supply) == |Hand(p)| + Min(1, |p.deck.draw| + |p.deck.discard|)
  {
    var q := DrawMore(p, 1);
    var m :- Mark(Hand(q), [], EmptyPiles(ctx.supply), false, inp);
    Ok(Turn(ctx, DiscardAt(q, m.marked), m.rest))
  }

  /** The printed +(1) is missing: the player's coins never change. */
  lemma PoacherPaysNothing(ctx: Ctx, p: Player, inp: seq<Choice>)
    requires PoacherAsWritten(ctx, p, inp).Ok?
    ensures Modifier(PoacherAsWritten(ctx, p, inp).value.player, "extra_treasure") == Modifier(p, "extra_treasure")
  {
  }

  /** With more empty piles than cards in hand the marking prompt runs out
      of positions while Skip is refused, so the event can never finish. */
  lemma PoacherStuck(ctx: Ctx, p: Player, inp: seq<Choice>)
    requires EmptyPiles(ctx.supply) > |Hand(p)| + Min(1, |p.deck.draw| + |p.deck.discard|)
    ensures PoacherAsWritten(ctx, p, inp).Err?
  {
    var q := DrawMore(p, 1);
    MarkStuck(Hand(q), [], EmptyPiles(ctx.supply), inp);
  }

  /** Poacher as printed: +1 card, +(1), then discard a card per empty
      supply pile, or the whole hand when it is smaller. */
  function Poacher(ctx: Ctx, p: Player, inp: seq<Choice>): (r: Result<Turn>)
    ensures r.Err? ==> r.error == NoMoreInput
    ensures r.Ok? ==> r.value.ctx == ctx && r.value.player.name == p.name
    ensures r.Ok? ==> AllCards(r.value.player.deck) == AllCards(p.deck)
    ensures r.Ok? ==> Pays(p, r.value.player, 1)
    ensures r.Ok? ==> var drawn := |Hand(p)| + Min(1, |p.deck.draw| + |p.deck.discard|);
                      |Hand(r.value.player)| == drawn - Min(EmptyPiles(ctx.supply), drawn)
    ensures EmptyPiles(ctx.supply) == 0 ==> r.Ok? && r.value.rest == inp
  {
    var q := DrawMore(p, 1);
    var r := PoacherDiscards(ctx, q, inp);
    if r.Ok? then PaysFrom(p, q, r.value.player, 1); r else r
  }

  /** The part of Poacher after the draw. */
  function PoacherDiscards(ctx: Ctx, q: Player, inp: seq<Choice>): (r: Result<Turn>)
    ensures r.Err? ==> r.error == NoMoreInput
    ensures r.Ok? ==> r.value.ctx == ctx && r.value.player.name == q.name
    ensures r.Ok? ==> AllCards(r.value.player.deck) == AllCards(q.deck)
    ensures r.Ok? ==> Pays(q, r.value.player, 1)
    ensures r.Ok? ==> |Hand(r.value.player)| == |Hand(q)| - Min(EmptyPiles(ctx.supply), |Hand(q)|)
    ensures EmptyPiles(ctx.supply) == 0 ==> r.Ok? && r.value.rest == inp
  {
    var m :- Mark(Hand(q), [], Min(EmptyPiles(ctx.supply), |Hand(q)|), false, inp);
    Ok(Turn(ctx, DiscardAndPay(q, m.marked), m.rest))
  }

  /** Poacher's +(1) together with its discard. */
  function DiscardAndPay(p: Player, marked: seq<int>): (r: Player)
    requires InRange(marked, |Hand(p)|) && Distinct(marked)
    ensures r.name == p.name && AllCards(r.deck) == AllCards(p.deck)
    ensures |Hand(r)| == |Hand(p)| - |marked|
    ensures Pays(p, r, 1)
  {
    var q := DiscardAt(p, marked);
    var r := SetModifier(q, "extra_treasure", 1);
    PaysFrom(p, q, r, 1);
    r
  }

  /** The corrected Poacher finishes whenever the player keeps answering
      with open positions: one answer per pile to discard is enough. */
  lemma PoacherFinishes(ctx: Ctx, p: Player, inp: seq<Choice>)
    requires forall k :: 0 <= k < |inp| ==> inp[k] == Pick(k)
    requires |inp| >= EmptyPiles(ctx.supply)
    ensures Poacher(ctx, p, inp).Ok?
  {
    var q := DrawMore(p, 1);
    var goal := Min(EmptyPiles(ctx.supply), |Hand(q)|);
    MarkInOrder(Hand(q), goal, inp, 0);
    assert inp[0..] == inp && Count(0) == [];
    assert Mark(Hand(q), [], goal, false, inp).Ok?;
    assert PoacherDiscards(ctx, q, inp).Ok?;
  }

  /** Answering 0, 1, 2, ... marks the first `goal` positions. */
  lemma {:induction false} MarkInOrder(cards: seq<Card>, goal: nat, inp: seq<Choice>, k: nat)
    requires k <= goal <= |cards| && goal <= |inp|
    requires forall j :: 0 <= j < |inp| ==> inp[j] == Pick(j)
    ensures Mark(cards, Count(k), goal, false, inp[k..]).Ok?
    decreases goal - k
  {
    if k < goal {
      var marked := Count(k);
      assert k !in marked;
      assert inp[k..][0] == Pick(k) && inp[k..][1..] == inp[k + 1..];
      MarkStep(cards, marked, goal, false, inp[k..], k);
      assert marked + [k] == Count(k + 1);
      MarkInOrder(cards, goal, inp, k + 1);
    }
  }

  /** The positions 0 .. k-1 in order. */
  function Count(k: nat): (r: seq<int>)
    ensures |r| == k && InRange(r, k) && Distinct(r)
    ensures forall j :: 0 <= j < k ==> r[j] == j
  {
    if k == 0 then [] else Count(k - 1) + [k - 1]
  }

  // ---------------------------------------------------------------------
  // Harbinger
  // ---------------------------------------------------------------------

  /** `HarbingerEvent.forward`: one card is drawn; then, unless the discard
      pile is empty, a discard position may be chosen (Skip allowed) and
      that card goes on top of the draw pile. The queue is never touched. */
  function Harbinger(ctx: Ctx, p: Player, inp: seq<Choice>): (r: Result<Turn>)
    ensures r.Err? ==> r.error == NoMoreInput
    ensures r.Ok? ==> r.value.ctx == ctx && Rearranged(p, r.value.player)
    ensures r.Ok? ==> |Hand(r.value.player)| == |Hand(p)| + Min(1, |p.deck.draw| + |p.deck.discard|)
    ensures r.Ok? ==> var q := DrawMore(p, 1);
                      r.value.player == q
                      || (exists i :: 0 <= i < |q.deck.discard|
                            && r.value.player.deck.draw == [q.deck.discard[i]] + q.deck.draw
                            && r.value.player.deck.discard == q.deck.discard[..i] + q.deck.discard[i + 1..])
  {
    var q := DrawMore(p, 1);
    var opts := CardOptions(q.deck.discard, AnyCard);
    if opts == map[] then Ok(Turn(ctx, q, inp))
    else
      var a :- Ask(opts, true, inp);
      match a.choice
      case Skip => Ok(Turn(ctx, q, a.rest))
      case Pick(i) => Ok(Turn(ctx, Recall(q, i), a.rest))
  }

  /** `move(i, from_pile=DISCARD, to_pile=DRAW)`. */
  function Recall(p: Player, i: int): (r: Player)
    requires 0 <= i < |p.deck.discard|
    ensures Rearranged(p, r) && Hand(r) == Hand(p)
    ensures r.deck.draw == [p.deck.discard[i]] + p.deck.draw
    ensures r.deck.discard == p.deck.discard[..i] + p.deck.discard[i + 1..]
  {
    RecallPiles(p.deck, i);
    MoveIndicesCards(p.deck, [i], DISCARD, DRAW);
    var d := MoveIndices(p.deck, [i], DISCARD, DRAW).value;
    p.(deck := d)
  }

  /** The piles after moving discard position `i` to the draw pile. */
  lemma RecallPiles(d: Deck, i: int)
    requires 0 <= i < |d.discard|
    ensures MoveIndices(d, [i], DISCARD, DRAW).Ok?
    ensures var e := MoveIndices(d, [i], DISCARD, DRAW).value;
            e.draw == [d.discard[i]] + d.draw && e.discard == d.discard[..i] + d.discard[i + 1..]
            && e.hand == d.hand
  {
    var src := d.discard;
    assert InRange([i], |GetPile(d, DISCARD)|) && Distinct([i]);
    var e := MoveIndices(d, [i], DISCARD, DRAW).value;
    assert Picked(src, [i]) == [src[i]] && Reverse([src[i]]) == [src[i]];
    UnmarkedOne(src, i);
    assert GetPile(e, HAND) == GetPile(d, HAND);
  }
}

=== FILE: effects_gain.dfy ===
/** Gaining from the supply without paying: the "offer piles, take one copy
    for free" step shared by Workshop, Remodel, Mine and Artisan, and the
    fixed gains of Bandit's and Bureaucrat's Self halves and Witch's Other
    half. A gain moves one card out of the supply into the gainer's deck. */
module Gains {
  import opened Wrappers
  import opened Cards
  import opened Decks
  import opened Seqs
  import opened Players
  import opened Supplies
  import opened Queue
  import opened Choices
  import opened Turns

  /** `p2` is `p` with one more copy of `c`, put on pile `to` (on top of the
      draw pile, at the end of any other pile); name and modifiers are as
      they were. */
  ghost predicate Receives(p: Player, c: Card, to: DeckPile, p2: Player) {
    p2.name == p.name && p2.modifiers == p.modifiers
    && AllCards(p2.deck) == AllCards(p.deck) + multiset{c}
    && Valid(p2.deck)
    && (to == DRAW ==> p2.deck.draw == [c] + p.deck.draw)
    && (to != DRAW ==> GetPile(p2.deck, to) == GetPile(p.deck, to) + [c])
    && (forall q :: q != to ==> GetPile(p2.deck, q) == GetPile(p.deck, q))
  }

  /** `s2`, `p2` are `s`, `p` after a free gain of the card on pile `i`:
      that card's pile lost one copy and `p` received it. */
  ghost predicate Gains(s: Supply, p: Player, i: int, to: DeckPile, s2: Supply, p2: Player) {
    0 <= i < |s|
    && Find(s, s[i].card).Some?
    && s2 == Decrement(s, Find(s, s[i].card).value)
    && Receives(p, s[i].card, to, p2)
  }

  /** Every pile holds a non-negative number of copies. */
  predicate Stocked(s: Supply) {
    forall i :: 0 <= i < |s| ==> s[i].left >= 0
  }

  /** `supply.buy(idx, player, free=True, to_pile=to)` with a position in
      range: it cannot fail, and it is a free gain of that pile's card. */
  function FreeGain(s: Supply, p: Player, i: int, to: DeckPile): (r: Bought)
    requires 0 <= i < |s|
    ensures r.card == s[i].card && Gains(s, p, i, to, r.supply, r.buyer)
  {
    BuyEffect(s, AtIndex(i), p, true, to);
    BuySupply(s, AtIndex(i), p, true, to);
    Buy(s, AtIndex(i), p, true, to).value
  }

  /** On a keyed supply the pile decremented is the one offered. */
  lemma KeyedFind(s: Supply, i: int)
    requires Keyed(s) && 0 <= i < |s|
    ensures Find(s, s[i].card) == Some(i)
  {
  }

  /** A gain the supply offered never empties a pile below zero and keeps
      every pile keyed. */
  lemma OfferedGainStocked(s: Supply, p: Player, f: Offer, i: int, to: DeckPile, s2: Supply, p2: Player)
    requires i in SupplyOptions(s, f) && Gains(s, p, i, to, s2, p2)
    ensures Keyed(s) && Stocked(s) ==> Keyed(s2) && Stocked(s2)
    ensures Keyed(s) ==> Left(s2, s[i].card) == Ok(s[i].left - 1) && s[i].left - 1 >= 0
  {
    if Keyed(s) {
      KeyedFind(s, i);
      DecrementLeft(s, i);
    }
  }

  lemma KeyedDecrement(s: Supply, k: nat)
    requires k < |s|
    ensures Keyed(s) ==> Keyed(Decrement(s, k)) && Left(Decrement(s, k), s[k].card) == Ok(s[k].left - 1)
    ensures Keyed(s) && Stocked(s) && s[k].left > 0 ==> Stocked(Decrement(s, k))
  {
    if Keyed(s) {
      DecrementLeft(s, k);
    }
  }

  /** The total number of copies left in the supply. */
  function TotalLeft(s: Supply): int {
    if |s| == 0 then 0 else TotalLeft(s[..|s| - 1]) + s[|s| - 1].left
  }

  lemma {:induction false} DecrementTotal(s: Supply, k: nat)
    requires k < |s|
    ensures TotalLeft(Decrement(s, k)) == TotalLeft(s) - 1
    decreases |s|
  {
    var r := Decrement(s, k);
    var n := |s| - 1;
    if k == n {
      assert r[..n] == s[..n];
    } else {
      assert r[..n] == Decrement(s[..n], k);
      DecrementTotal(s[..n], k);
    }
  }

  /** A gain conserves cards: the deck grows by exactly the one copy the
      supply loses. */
  lemma GainConserves(s: Supply, p: Player, i: int, to: DeckPile, s2: Supply, p2: Player)
    requires Valid(p.deck) && Gains(s, p, i, to, s2, p2)
    ensures Size(p2.deck) + TotalLeft(s2) == Size(p.deck) + TotalLeft(s)
  {
    DecrementTotal(s, Find(s, s[i].card).value);
  }

  /** Either nothing happened, or one of the piles `f` offers was gained. */
  ghost predicate MayGain(s: Supply, p: Player, f: Offer, to: DeckPile, s2: Supply, p2: Player) {
    (s2 == s && p2 == p)
    || exists i :: i in SupplyOptions(s, f) && Gains(s, p, i, to, s2, p2)
  }

  /** The gain step of Workshop, Remodel, Mine and Artisan: the piles `f`
      offers are shown with Skip allowed; Skip gains nothing, a pile is
      gained for free onto `to`. Order and queue are untouched, and an
      offered gain keeps a sane supply sane. */
  function OfferGain(ctx: Ctx, p: Player, f: Offer, to: DeckPile, inp: seq<Choice>): (r: Result<Turn>)
    ensures r.Err? ==> r.error == NoMoreInput
    ensures r.Ok? ==> r.value.ctx.order == ctx.order && r.value.ctx.queue == ctx.queue
                      && IsSuffix(r.value.rest, inp)
    ensures r.Ok? ==> MayGain(ctx.supply, p, f, to, r.value.ctx.supply, r.value.player)
    ensures r.Ok? && Keyed(ctx.supply) && Stocked(ctx.supply) ==> Keyed(r.value.ctx.supply) && Stocked(r.value.ctx.supply)
  {
    var a :- Ask(SupplyOptions(ctx.supply, f), true, inp);
    match a.choice
    case Skip => Ok(Turn(ctx, p, a.rest))
    case Pick(i) =>
      var b := FreeGain(ctx.supply, p, i, to);
      OfferedGainStocked(ctx.supply, p, f, i, to, b.supply, b.buyer);
      Ok(Turn(ctx.(supply := b.supply), b.buyer, a.rest))
  }

  /** `WorkshopEvent.forward`: a pile costing up to 4 with copies left is
      offered (even when there is none, so only Skip can answer), and the
      chosen card is gained free to the discard pile. */
  function Workshop(ctx: Ctx, p: Player, inp: seq<Choice>): (r: Result<Turn>)
    ensures r.Err? ==> r.error == NoMoreInput
    ensures r.Ok? ==> r.value.ctx.order == ctx.order && r.value.ctx.queue == ctx.queue
    ensures r.Ok? ==> (r.value.ctx == ctx && r.value.player == p)
                      || exists i :: 0 <= i < |ctx.supply| && Cost(ctx.supply[i].card) <= 4 && ctx.supply[i].left > 0
                                     && Gains(ctx.supply, p, i, DISCARD, r.value.ctx.supply, r.value.player)
  {
    OfferGain(ctx, p, CostUpTo(4), DISCARD, inp)
  }

  /** `ArtisanEvent.forward`: with no pile costing up to 5 left the
      leading Artisan events are cancelled; otherwise (Skip allowed) the
      chosen card is gained free into the hand, and then a hand card of
      the player's choice (no Skip) goes on top of the draw pile. */
  function Artisan(ctx: Ctx, p: Player, inp: seq<Choice>): (r: Result<Turn>)
    ensures r.Err? ==> r.error == NoMoreInput
    ensures SupplyOptions(ctx.supply, CostUpTo(5)) == map[] ==>
              r == Ok(Turn(ctx.(queue := ClearAhead(ctx.queue, CardEvent(Card.Artisan, Main))), p, inp))
    ensures r.Ok? ==> r.value.ctx.order == ctx.order
    ensures r.Ok? && SupplyOptions(ctx.supply, CostUpTo(5)) != map[] ==> r.value.ctx.queue == ctx.queue
    ensures r.Ok? ==> (r.value.player == p && r.value.ctx.supply == ctx.supply)
                      || exists i, g: Player, c: Card :: i in SupplyOptions(ctx.supply, CostUpTo(5))
                           && Gains(ctx.supply, p, i, HAND, r.value.ctx.supply, g)
                           && OnTop(g, c, r.value.player)
    ensures r.Ok? ==> |Hand(r.value.player)| == |Hand(p)|
    ensures r.Ok? && Keyed(ctx.supply) && Stocked(ctx.supply) ==> Keyed(r.value.ctx.supply) && Stocked(r.value.ctx.supply)
  {
    var opts := SupplyOptions(ctx.supply, CostUpTo(5));
    if opts == map[] then
      Ok(Turn(ctx.(queue := ClearAhead(ctx.queue, CardEvent(Card.Artisan, Main))), p, inp))
    else
      var a :- Ask(opts, true, inp);
      match a.choice
      case Skip => Ok(Turn(ctx, p, a.rest))
      case Pick(i) => ArtisanPlace(ctx, p, i, a.rest)
  }

  /** The rest of Artisan once pile `i` is chosen. */
  function ArtisanPlace(ctx: Ctx, p: Player, i: int, inp: seq<Choice>): (r: Result<Turn>)
    requires i in SupplyOptions(ctx.supply, CostUpTo(5))
    ensures r.Err? ==> r.error == NoMoreInput
    ensures r.Ok? ==> r.value.ctx.order == ctx.order && r.value.ctx.queue == ctx.queue
    ensures r.Ok? ==> exists g: Player, c: Card :: Gains(ctx.supply, p, i, HAND, r.value.ctx.supply, g)
                                                  && OnTop(g, c, r.value.player)
    ensures r.Ok? ==> |Hand(r.value.player)| == |Hand(p)|
    ensures r.Ok? && Keyed(ctx.supply) && Stocked(ctx.supply) ==> Keyed(r.value.ctx.supply) && Stocked(r.value.ctx.supply)
  {
    var b := FreeGain(ctx.supply, p, i, HAND);
    OfferedGainStocked(ctx.supply, p, CostUpTo(5), i, HAND, b.supply, b.buyer);
    var c :- Ask(CardOptions(Hand(b.buyer), AnyCard), false, inp);
    var placed := PutOnTop(b.buyer, c.choice.index);
    HandKept(p, b.buyer, placed, ctx.supply[i].card, Hand(b.buyer)[c.choice.index]);
    assert Gains(ctx.supply, p, i, HAND, b.supply, b.buyer) && OnTop(b.buyer, Hand(b.buyer)[c.choice.index], placed);
    Ok(Turn(ctx.(supply := b.supply), placed, c.rest))
  }

  /** A card gained into the hand and one put back keep the hand's size. */
  lemma HandKept(p: Player, g: Player, q: Player, c: Card, back: Card)
    requires Receives(p, c, HAND, g) && OnTop(g, back, q)
    ensures |Hand(q)| == |Hand(p)|
  {
    assert GetPile(g.deck, HAND) == GetPile(p.deck, HAND) + [c];
  }

  // ---------------------------------------------------------------------
  // Fixed gains.
  // ---------------------------------------------------------------------

  /** `if supply[c] > 0: supply.buy(c, player, free=True, to_pile=to)`:
      looking the pile up raises KeyError when the supply has none; an
      empty (or overdrawn) pile gains nothing. */
  function GainIfLeft(ctx: Ctx, p: Player, c: Card, to: DeckPile, inp: seq<Choice>): (r: Result<Turn>)
    ensures r.Err? <==> Left(ctx.supply, c).Err?
    ensures r.Err? ==> r.error == KeyError
    ensures r.Ok? ==> r.value.ctx.order == ctx.order && r.value.ctx.queue == ctx.queue && r.value.rest == inp
    ensures r.Ok? && Left(ctx.supply, c).value <= 0 ==> r.value.ctx == ctx && r.value.player == p
    ensures r.Ok? && Left(ctx.supply, c).value > 0 ==>
              r.value.ctx.supply == Decrement(ctx.supply, Find(ctx.supply, c).value)
              && Receives(p, c, to, r.value.player)
    ensures r.Ok? && Keyed(ctx.supply) && Stocked(ctx.supply) ==> Keyed(r.value.ctx.supply) && Stocked(r.value.ctx.supply)
  {
    var n :- Left(ctx.supply, c);
    if n > 0 then
      var k := Find(ctx.supply, c).value;
      BuyEffect(ctx.supply, OfCard(c), p, true, to);
      BuySupply(ctx.supply, OfCard(c), p, true, to);
      var b := Buy(ctx.supply, OfCard(c), p, true, to).value;
      KeyedDecrement(ctx.supply, k);
      Ok(Turn(ctx.(supply := b.supply), b.buyer, inp))
    else Ok(Turn(ctx, p, inp))
  }

  /** `BanditEventSelf.forward`: a Gold to the discard pile while any are
      left. */
  function BanditSelf(ctx: Ctx, p: Player, inp: seq<Choice>): (r: Result<Turn>)
    ensures r.Err? <==> Left(ctx.supply, Gold).Err?
    ensures r.Ok? && Left(ctx.supply, Gold).value > 0 ==>
              Receives(p, Gold, DISCARD, r.value.player)
              && Left(ctx.supply, Gold).value > 0
    ensures r.Ok? && Keyed(ctx.supply) && Left(ctx.supply, Gold).value > 0 ==>
              Left(r.value.ctx.supply, Gold) == Ok(Left(ctx.supply, Gold).value - 1)
    ensures r.Ok? && Left(ctx.supply, Gold).value <= 0 ==> r.value.ctx == ctx && r.value.player == p
  {
    var r := GainIfLeft(ctx, p, Gold, DISCARD, inp);
    if r.Ok? && Left(ctx.supply, Gold).value > 0 then
      KeyedDecrement(ctx.supply, Find(ctx.supply, Gold).value);
      r
    else r
  }

  /** `BureaucratEventSelf.forward`: a Silver onto the draw pile while any
      are left. */
  function BureaucratSelf(ctx: Ctx, p: Player, inp: seq<Choice>): (r: Result<Turn>)
    ensures r.Err? <==> Left(ctx.supply, Silver).Err?
    ensures r.Ok? && Left(ctx.supply, Silver).value > 0 ==>
              Receives(p, Silver, DRAW, r.value.player)
    ensures r.Ok? && Keyed(ctx.supply) && Left(ctx.supply, Silver).value > 0 ==>
              Left(r.value.ctx.supply, Silver) == Ok(Left(ctx.supply, Silver).value - 1)
    ensures r.Ok? && Left(ctx.supply, Silver).value <= 0 ==> r.value.ctx == ctx && r.value.player == p
  {
    var r := GainIfLeft(ctx, p, Silver, DRAW, inp);
    if r.Ok? && Left(ctx.supply, Silver).value > 0 then
      KeyedDecrement(ctx.supply, Find(ctx.supply, Silver).value);
      r
    else r
  }

  /** `WitchEventOther.forward`: unless a Moat is revealed, the target
      gains a Curse to the discard pile while any are left. */
  function WitchOther(ctx: Ctx, p: Player, inp: seq<Choice>): (r: Result<Turn>)
    ensures Moat !in Hand(p) && Left(ctx.supply, Curse).Err? ==> r == Err(KeyError)
    ensures r.Err? ==> r.error in {KeyError, NoMoreInput}
    ensures r.Ok? ==> r.value.ctx.order == ctx.order && r.value.ctx.queue == ctx.queue
    ensures Moat in Hand(p) && |inp| > 0 && inp[0].Pick? && 0 <= inp[0].index < |Hand(p)| && Hand(p)[inp[0].index] == Moat ==>
              r == Ok(Turn(ctx, p, inp[1..]))
    ensures r.Ok? && r.value.player != p ==>
              Left(ctx.supply, Curse).Ok? && Left(ctx.supply, Curse).value > 0
              && Receives(p, Curse, DISCARD, r.value.player)
    ensures Moat !in Hand(p) && Left(ctx.supply, Curse).Ok? && Left(ctx.supply, Curse).value > 0 ==>
              r.Ok? && Receives(p, Curse, DISCARD, r.value.player)
    ensures r.Ok? && Keyed(ctx.supply) && Stocked(ctx.supply) ==> Stocked(r.value.ctx.supply)
  {
    var re :- React(Hand(p), inp);
    if re.defended then Ok(Turn(ctx, p, re.rest))
    else GainIfLeft(ctx, p, Curse, DISCARD, re.rest)
  }
}

=== FILE: effects_library.dfy ===
/** Library: draw until the hand holds 7 cards, skipping any action cards
    the player chooses to; set those aside, discarding them afterwards. */
module LibraryEffects {
  import opened Wrappers
  import opened Cards
  import opened Decks
  import opened Seqs
  import opened Players
  import opened Choices
  import opened Turns

  /** The hand size Library draws up to. */
  const HandGoal := 7

  /** The answer about one drawn card, and the answers left. */
  datatype Kept = Kept(keep: bool, rest: seq<Choice>)

  /** An action card is offered (`{1: name}`, Skip allowed) and kept unless
      the answer is Skip; any other card is kept without a question. */
  function Offer(c: Card, inp: seq<Choice>): (r: Result<Kept>)
    ensures r.Err? ==> r.error == NoMoreInput && IsActionKind(Kind(c))
    ensures !IsActionKind(Kind(c)) ==> r == Ok(Kept(true, inp))
    ensures IsActionKind(Kind(c)) && |inp| > 0 && inp[0] == Skip ==> r == Ok(Kept(false, inp[1..]))
    ensures IsActionKind(Kind(c)) && |inp| > 0 && inp[0] == Pick(1) ==> r == Ok(Kept(true, inp[1..]))
    ensures r.Ok? ==> IsSuffix(r.value.rest, inp)
  {
    if IsActionKind(Kind(c)) then
      var a :- Ask(map[1 := Name(c)], true, inp);
      Ok(Kept(a.choice != Skip, a.rest))
    else Ok(Kept(true, inp))
  }

  // ---------------------------------------------------------------------
  // As written
  // ---------------------------------------------------------------------

  /** `LibraryEvent.forward` as written: while the hand is short of 7 the
      top card is taken (IndexError when the deck is out of cards); a
      skipped action is added to the discard pile, and then every taken
      card, skipped or not, is added to the hand. */
  function LibraryAsWritten(p: Player, inp: seq<Choice>): (r: Result<Drawn>)
    ensures r.Err? ==> r.error in {IndexError, NoMoreInput}
    ensures r.Ok? ==> r.value.player.name == p.name && r.value.player.modifiers == p.modifiers
    ensures r.Ok? ==> |Hand(r.value.player)| == if |Hand(p)| < HandGoal then HandGoal else |Hand(p)|
    ensures r.Ok? ==> AllCards(p.deck) <= AllCards(r.value.player.deck)
    decreases HandGoal - |Hand(p)|
  {
    if |Hand(p)| >= HandGoal then Ok(Drawn(p, inp))
    else
      var s :- LibraryStepAsWritten(p, inp);
      LibraryAsWritten(s.player, s.rest)
  }

  /** The player and the answers left; Library does not touch the rest of
      the game. */
  datatype Drawn = Drawn(player: Player, rest: seq<Choice>)

  /** One pass of the written loop. */
  function LibraryStepAsWritten(p: Player, inp: seq<Choice>): (r: Result<Drawn>)
    ensures r.Err? ==> r.error in {IndexError, NoMoreInput}
    ensures r.Ok? ==> r.value.player.name == p.name && r.value.player.modifiers == p.modifiers
    ensures r.Ok? ==> |Hand(r.value.player)| == |Hand(p)| + 1
    ensures r.Ok? ==> Valid(r.value.player.deck)
    ensures r.Ok? ==> var c := TopCard(p.deck).cards;
                      |c| == 1
                      && (AllCards(r.value.player.deck) == AllCards(p.deck)
                          || AllCards(r.value.player.deck) == AllCards(p.deck) + multiset(c))
    ensures |p.deck.draw| > 0 && IsActionKind(Kind(p.deck.draw[0])) && |inp| > 0 && inp[0] == Skip ==>
              r.Ok? && r.value.rest == inp[1..]
              && AllCards(r.value.player.deck) == AllCards(p.deck) + multiset{p.deck.draw[0]}
  {
    var t := TopCard(p.deck);
    if |t.cards| == 0 then Err(IndexError)
    else
      var c := t.cards[0];
      assert t.cards == [c];
      var k :- Offer(c, inp);
      var d := if k.keep then t.deck else Discarded(t.deck, [c]);
      Ok(Drawn(p.(deck := ToHand(d, c)), k.rest))
  }

  /** A skipped action ends up twice in the deck: once in the hand and once
      on the discard pile. */
  lemma LibrarySkipDuplicates(p: Player, rest: seq<Choice>)
    requires Valid(p.deck) && |Hand(p)| == HandGoal - 1
    requires |p.deck.draw| > 0 && IsActionKind(Kind(p.deck.draw[0]))
    ensures var r := LibraryAsWritten(p, [Skip] + rest);
            r.Ok? && AllCards(r.value.player.deck) == AllCards(p.deck) + multiset{p.deck.draw[0]}
            && Size(r.value.player.deck) == Size(p.deck) + 1
  {
    var inp := [Skip] + rest;
    var s := LibraryStepAsWritten(p, inp).value;
    assert LibraryAsWritten(p, inp) == LibraryAsWritten(s.player, s.rest);
  }

  /** A concrete case: six Coppers in hand and a Village on top; skipping
      the Village puts it both in the hand and on the discard pile, so the
      deck of seven cards holds eight. */
  lemma LibraryDoublesVillage(name: string)
    ensures var p := VillageOverCoppers(name);
            var r := LibraryAsWritten(p, [Skip]);
            r.Ok? && Size(r.value.player.deck) == 8 && Size(p.deck) == 7
  {
    var p := VillageOverCoppers(name);
    LibrarySkipDuplicates(p, []);
    assert [Skip] + [] == [Skip];
  }

  /** A Village alone on the draw pile over a hand of six Coppers. */
  function VillageOverCoppers(name: string): (p: Player)
    ensures p.deck.draw == [Village] && Kind(Village) == ACTION && |Hand(p)| == 6
    ensures Valid(p.deck) && Size(p.deck) == 7
  {
    var p := Player(name, Deck([Village], [], Coppers(6), [], multiset{Village} + multiset(Coppers(6)), []), map[]);
    assert AllCards(p.deck) == multiset{Village} + multiset(Coppers(6));
    p
  }

  function Coppers(n: nat): (r: seq<Card>)
    ensures |r| == n && multiset(r)[Copper] == n
  {
    if n == 0 then [] else [Copper] + Coppers(n - 1)
  }

  // ---------------------------------------------------------------------
  // As the card says
  // ---------------------------------------------------------------------

  /** Library as printed: drawing stops once the hand holds 7 cards; the
      skipped actions are set aside and discarded at the end, so no card is
      gained or lost. An empty deck raises IndexError as in the written
      loop. */
  function Library(p: Player, inp: seq<Choice>): (r: Result<Drawn>)
    ensures r.Err? ==> r.error in {IndexError, NoMoreInput}
    ensures r.Ok? ==> r.value.player.name == p.name && r.value.player.modifiers == p.modifiers
    ensures r.Ok? ==> |Hand(r.value.player)| == if |Hand(p)| < HandGoal then HandGoal else |Hand(p)|
    ensures r.Ok? ==> Hand(p) <= Hand(r.value.player)
    ensures r.Ok? ==> AllCards(r.value.player.deck) == AllCards(p.deck) && Valid(r.value.player.deck)
    ensures r.Ok? ==> IsSuffix(r.value.rest, inp)
    ensures NoSkipCase(p, inp) ==> r.Ok? && DrewTop(p, r.value)
  {
    LibraryLoop(p, [], inp)
  }

  /** `r` is a finished run of the corrected loop from `p` with `aside`
      set aside: the hand was filled up to 7 (or left alone when already
      full) with the old hand kept in front, and the deck holds exactly its
      old cards plus the set-aside ones. */
  ghost predicate Looped(p: Player, aside: seq<Card>, inp: seq<Choice>, r: Drawn) {
    r.player.name == p.name && r.player.modifiers == p.modifiers
    && |Hand(r.player)| == (if |Hand(p)| < HandGoal then HandGoal else |Hand(p)|)
    && Hand(p) <= Hand(r.player)
    && AllCards(r.player.deck) == AllCards(p.deck) + multiset(aside) && Valid(r.player.deck)
    && IsSuffix(r.rest, inp)
  }

  /** The drawing loop with the cards set aside so far. */
  function LibraryLoop(p: Player, aside: seq<Card>, inp: seq<Choice>): (r: Result<Drawn>)
    ensures r.Err? ==> r.error in {IndexError, NoMoreInput}
    ensures r.Ok? ==> Looped(p, aside, inp, r.value)
    ensures NoSkipCase(p, inp) ==> r.Ok? && DrewTop(p, r.value)
    decreases |p.deck.draw| + |p.deck.discard|
  {
    if |Hand(p)| >= HandGoal then
      LoopDone(p, aside, inp);
      Ok(Drawn(p.(deck := Discarded(p.deck, aside)), inp))
    else
      LibraryStepKeeps(p, inp);
      var s :- LibraryStep(p, inp);
      var r := LibraryLoop(s.player, aside + s.aside, s.rest);
      LoopNoSkipStep(p, inp, s, r);
      if r.Ok? then LoopStep(p, aside, inp, s, r.value); r else r
  }

  /** A full hand ends the loop: the set-aside cards are discarded. */
  lemma LoopDone(p: Player, aside: seq<Card>, inp: seq<Choice>)
    requires |Hand(p)| >= HandGoal
    ensures Looped(p, aside, inp, Drawn(p.(deck := Discarded(p.deck, aside)), inp))
    ensures NoSkipCase(p, inp) ==> DrewTop(p, Drawn(p.(deck := Discarded(p.deck, aside)), inp))
  {
    assert inp[|inp| - |inp|..] == inp;
  }

  /** One card through the corrected loop: kept in the hand, or set aside. */
  datatype Step = Step(player: Player, aside: seq<Card>, rest: seq<Choice>)

  /** `s` is one pass of the corrected loop from `p`: one card left draw
      and discard, and went either to the end of the hand or aside, and
      only an action can have been set aside. */
  ghost predicate Stepped(p: Player, inp: seq<Choice>, s: Step) {
    s.player.name == p.name && s.player.modifiers == p.modifiers
    && |s.player.deck.draw| + |s.player.deck.discard| < |p.deck.draw| + |p.deck.discard|
    && Hand(p) <= Hand(s.player)
    && |Hand(s.player)| + |s.aside| == |Hand(p)| + 1
    && AllCards(s.player.deck) + multiset(s.aside) == AllCards(p.deck)
    && IsSuffix(s.rest, inp)
    && forall c :: c in s.aside ==> IsActionKind(Kind(c))
  }

  /** A pass followed by the rest of the loop is a run of the loop. */
  lemma LoopStep(p: Player, aside: seq<Card>, inp: seq<Choice>, s: Step, r: Drawn)
    requires |Hand(p)| < HandGoal
    requires Stepped(p, inp, s) && Looped(s.player, aside + s.aside, s.rest, r)
    ensures Looped(p, aside, inp, r)
  {
    SuffixTrans(r.rest, s.rest, inp);
  }

  /** One pass of the corrected loop: the top card is taken and either
      added to the hand or set aside. */
  function LibraryStep(p: Player, inp: seq<Choice>): (r: Result<Step>)
    ensures r.Err? ==> r.error in {IndexError, NoMoreInput}
    ensures r.Ok? ==> Stepped(p, inp, r.value)
  {
    var t := TopCard(p.deck);
    if |t.cards| == 0 then Err(IndexError)
    else
      var c := t.cards[0];
      assert t.cards == [c];
      var k :- Offer(c, inp);
      Ok(Place(p, inp, t, k))
  }

  /** The taken card goes to the hand when kept, aside otherwise. */
  function Place(p: Player, inp: seq<Choice>, t: Taken, k: Kept): (r: Step)
    requires t == TopCard(p.deck) && |t.cards| == 1
    requires IsSuffix(k.rest, inp) && (!k.keep ==> IsActionKind(Kind(t.cards[0])))
    ensures Stepped(p, inp, r)
  {
    if k.keep then
      KeptStepped(p, inp, t, k.rest);
      Step(p.(deck := ToHand(t.deck, t.cards[0])), [], k.rest)
    else
      AsideStepped(p, inp, t, k.rest);
      Step(p.(deck := t.deck), t.cards, k.rest)
  }

  /** `t` took exactly one card from the draw and discard piles of `d`. */
  predicate TookOne(d: Deck, t: Taken) {
    |t.cards| == 1 && t.deck.hand == d.hand
    && AllCards(t.deck) + multiset(t.cards) == AllCards(d)
    && |t.deck.draw| + |t.deck.discard| + 1 == |d.draw| + |d.discard|
  }

  lemma KeptStepped(p: Player, inp: seq<Choice>, t: Taken, rest: seq<Choice>)
    requires TookOne(p.deck, t) && IsSuffix(rest, inp)
    ensures Stepped(p, inp, Step(p.(deck := ToHand(t.deck, t.cards[0])), [], rest))
  {
    var c := t.cards[0];
    assert multiset(t.cards) == multiset{c} by { assert t.cards == [c]; }
  }

  lemma AsideStepped(p: Player, inp: seq<Choice>, t: Taken, rest: seq<Choice>)
    requires TookOne(p.deck, t) && IsSuffix(rest, inp)
    requires IsActionKind(Kind(t.cards[0]))
    ensures Stepped(p, inp, Step(p.(deck := t.deck), t.cards, rest))
  {
    assert t.cards == [t.cards[0]];
  }

  /** A taken card added to the hand. */
  function ToHand(d: Deck, c: Card): (r: Deck)
    ensures r.hand == d.hand + [c] && r.draw == d.draw && r.discard == d.discard && r.played == d.played
    ensures AllCards(r) == AllCards(d) + multiset{c} && Valid(r)
  {
    var r := AddTo(d, [c], HAND);
    assert GetPile(r, HAND) == d.hand + [c];
    assert GetPile(r, DRAW) == d.draw && GetPile(r, DISCARD) == d.discard && GetPile(r, PLAYED) == d.played;
    r
  }

  /** A kept card: in the no-skip case the top of the draw pile joins the
      hand. */
  lemma LibraryStepKeeps(p: Player, inp: seq<Choice>)
    requires |Hand(p)| < HandGoal
    ensures NoSkipCase(p, inp) ==>
              var r := LibraryStep(p, inp);
              r.Ok? && Hand(r.value.player) == Hand(p) + [p.deck.draw[0]]
              && r.value.player.deck.draw == p.deck.draw[1..]
              && (r.value.rest == inp[1..] || r.value.rest == inp)
  {
    if NoSkipCase(p, inp) {
      var c := p.deck.draw[0];
      assert TopCard(p.deck).cards == [c];
      assert Offer(c, inp).value.keep;
      assert LibraryStep(p, inp) == Ok(Place(p, inp, TopCard(p.deck), Offer(c, inp).value));
    }
  }

  /** Drawing the top card and then `n - 1` more is drawing `n`. */
  lemma TopSplit(h: seq<Card>, h1: seq<Card>, h2: seq<Card>, d: seq<Card>, d1: seq<Card>, d2: seq<Card>, n: nat)
    requires 1 <= n <= |d|
    requires h1 == h + [d[0]] && d1 == d[1..]
    requires h2 == h1 + d1[..n - 1] && d2 == d1[n - 1..]
    ensures h2 == h + d[..n] && d2 == d[n..]
  {
    assert d[..n] == [d[0]] + d1[..n - 1];
  }

  /** Every answer keeps the offered card. */
  predicate AllKept(inp: seq<Choice>) {
    |inp| == 0 || (inp[0] == Pick(1) && AllKept(inp[1..]))
  }

  /** The hand is short of 7 by no more than the draw pile holds. */
  predicate Drawable(p: Player) {
    |Hand(p)| <= HandGoal && |p.deck.draw| >= HandGoal - |Hand(p)|
  }

  /** A drawable hand, and a player who keeps every card offered and has
      enough answers. */
  predicate NoSkipCase(p: Player, inp: seq<Choice>) {
    Drawable(p) && AllKept(inp) && |inp| >= HandGoal - |Hand(p)|
  }

  /** `r` holds the hand a plain draw of the missing cards gives. */
  ghost predicate DrewTop(p: Player, r: Drawn)
    requires Drawable(p)
  {
    var n := HandGoal - |Hand(p)|;
    Hand(r.player) == Hand(p) + p.deck.draw[..n] && r.player.deck.draw == p.deck.draw[n..]
  }

  /** The inductive step of the no-skip case: a kept top card followed by
      a plain draw of the rest is a plain draw. */
  lemma LoopNoSkipStep(p: Player, inp: seq<Choice>, s: Step, r: Result<Drawn>)
    requires |Hand(p)| < HandGoal
    requires NoSkipCase(p, inp) ==>
               Hand(s.player) == Hand(p) + [p.deck.draw[0]] && s.player.deck.draw == p.deck.draw[1..]
               && (s.rest == inp[1..] || s.rest == inp)
    requires NoSkipCase(s.player, s.rest) ==> r.Ok? && DrewTop(s.player, r.value)
    ensures NoSkipCase(p, inp) ==> r.Ok? && DrewTop(p, r.value)
  {
    if NoSkipCase(p, inp) {
      var n := HandGoal - |Hand(p)|;
      assert HandGoal - |Hand(s.player)| == n - 1;
      TopSplit(Hand(p), Hand(s.player), Hand(r.value.player), p.deck.draw, s.player.deck.draw, r.value.player.deck.draw, n);
    }
  }
}

=== FILE: effects_play.dfy ===
/** The actions that play another action: Throne Room plays a card from the
    hand twice, Vassal may play the top card of the deck. Playing a card
    only queues its events (see Plays). */
module PlayEffects {
  import opened Wrappers
  import opened Cards
  import opened Decks
  import opened Seqs
  import opened Players
  import opened Queue
  import opened Choices
  import opened Turns
  import opened Plays

  // ---------------------------------------------------------------------
  // Throne Room
  // ---------------------------------------------------------------------

  /** `t` is the outcome of Throne Room on the action card `c` from the
      hand: its events are queued twice ahead of everything waiting, and
      the card moves from the hand to the played pile. */
  ghost predicate Doubled(ctx: Ctx, p: Player, c: Card, t: Turn) {
    c in Hand(p) && IsActionKind(Kind(c))
    && var once := PlayEvents(c, p.name, OtherPlayers(ctx.order, p.name));
    t.ctx.order == ctx.order && t.ctx.supply == ctx.supply
    && t.ctx.queue == once + once + ctx.queue
    && t.player.name == p.name && t.player.modifiers == p.modifiers
    && t.player.deck.played == [c] + p.deck.played
    && multiset(Hand(t.player)) + multiset{c} == multiset(Hand(p))
    && t.player.deck.draw == p.deck.draw && t.player.deck.discard == p.deck.discard
    && AllCards(t.player.deck) == AllCards(p.deck)
  }

  /** `ThroneRoomEvent.forward`: with no action card in hand the waiting
      Throne Room events are cleared; otherwise the player may pick one
      (Skip allowed), whose `play` runs twice before the card moves to the
      played pile. */
  function ThroneRoom(ctx: Ctx, p: Player, inp: seq<Choice>): (r: Result<Turn>)
    ensures r.Err? ==> r.error == NoMoreInput
    ensures (forall i :: 0 <= i < |Hand(p)| ==> !IsActionKind(Kind(Hand(p)[i]))) ==>
              r == Ok(Turn(ctx.(queue := ClearAhead(ctx.queue, CardEvent(Card.ThroneRoom, Main))), p, inp))
    ensures (exists i :: 0 <= i < |Hand(p)| && IsActionKind(Kind(Hand(p)[i]))) && |inp| > 0 && inp[0] == Skip ==>
              r == Ok(Turn(ctx, p, inp[1..]))
    ensures r.Ok? ==> r.value.player == p || exists c :: Doubled(ctx, p, c, r.value)
    ensures r.Ok? && r.value.player == p ==>
              r.value.ctx == ctx || r.value.ctx == ctx.(queue := ClearAhead(ctx.queue, CardEvent(Card.ThroneRoom, Main)))
  {
    var opts := CardOptions(Hand(p), ActionLike);
    NoOptions(Hand(p), ActionLike);
    if opts == map[] then
      Ok(Turn(ctx.(queue := ClearAhead(ctx.queue, CardEvent(Card.ThroneRoom, Main))), p, inp))
    else
      var a :- Ask(opts, true, inp);
      match a.choice
      case Skip => Ok(Turn(ctx, p, a.rest))
      case Pick(i) => Ok(DoublePlay(ctx, p, i, a.rest))
  }

  /** The chosen card's `play` twice, then
      `move([card], from_pile=HAND, to_pile=PLAYED)`. */
  function DoublePlay(ctx: Ctx, p: Player, i: int, rest: seq<Choice>): (r: Turn)
    requires 0 <= i < |Hand(p)| && IsActionKind(Kind(Hand(p)[i]))
    ensures Doubled(ctx, p, Hand(p)[i], r) && r.rest == rest
  {
    var c := Hand(p)[i];
    var twice := Play(Play(ctx, c, p.name), c, p.name);
    PlayTwice(ctx, c, p.name);
    Turn(twice, p.(deck := ToPlayed(p.deck, c)), rest)
  }

  /** Moving a hand card to the played pile, which cannot fail. */
  function ToPlayed(d: Deck, c: Card): (r: Deck)
    requires c in d.hand
    ensures r.played == [c] + d.played
    ensures multiset(r.hand) + multiset{c} == multiset(d.hand)
    ensures r.draw == d.draw && r.discard == d.discard
    ensures AllCards(r) == AllCards(d)
  {
    assert multiset([c]) <= multiset(GetPile(d, HAND));
    assert Reverse([c]) == [c];
    var r := MoveAny(d, [c], HAND, PLAYED).value;
    assert DRAW != HAND && DRAW != PLAYED && DISCARD != HAND && DISCARD != PLAYED;
    assert r.draw == GetPile(r, DRAW) && r.discard == GetPile(r, DISCARD);
    assert multiset(r.hand) == multiset(GetPile(r, HAND)) == multiset(d.hand) - multiset{c};
    r
  }

  // ---------------------------------------------------------------------
  // Vassal
  // ---------------------------------------------------------------------

  /** The card kinds the written Vassal offers to play:
      `[ACTION, ACTION, ACTION_REACTION]`. */
  const VassalKinds: seq<CardType> := [ACTION, ACTION, ACTION_REACTION]

  /** `VassalEvent.forward` as written: +(2), then the top card is taken
      and dealt with by VassalTopAsWritten. The modifier and the deck are
      independent, so the order of the two steps does not matter. */
  function VassalAsWritten(ctx: Ctx, p: Player, inp: seq<Choice>): (r: Result<Turn>)
    ensures r.Err? ==> r.error in {IndexError, NoMoreInput}
    ensures r.Ok? ==> Pays(p, r.value.player, 2) && r.value.player.name == p.name
    ensures r.Ok? <==> VassalTopAsWritten(ctx, p, inp).Ok?
    ensures r.Ok? ==> var v := VassalTopAsWritten(ctx, p, inp).value;
                      r.value.ctx == v.ctx && r.value.player.deck == v.player.deck && r.value.rest == v.rest
  {
    var v :- VassalTopAsWritten(ctx, p, inp);
    var q := SetModifier(v.player, "extra_treasure", 2);
    PaysFrom(p, v.player, q, 2);
    Ok(v.(player := q))
  }

  /** The written handling of the top card: it is taken (IndexError when
      there is none); a card whose kind is in VassalKinds is offered with
      Skip allowed; Skip returns at once, so the taken card never comes
      back; otherwise the card is played (when accepted) and then added to
      the discard pile. */
  function VassalTopAsWritten(ctx: Ctx, p: Player, inp: seq<Choice>): (r: Result<Turn>)
    ensures r.Err? ==> r.error in {IndexError, NoMoreInput}
    ensures r.Ok? ==> r.value.player.name == p.name && r.value.player.modifiers == p.modifiers
  {
    var t := TopCard(p.deck);
    if |t.cards| == 0 then Err(IndexError)
    else VassalCardAsWritten(ctx, p.(deck := t.deck), t.cards[0], inp)
  }

  /** The written offer for the taken card `c`; `p` no longer holds it. */
  function VassalCardAsWritten(ctx: Ctx, p: Player, c: Card, inp: seq<Choice>): (r: Result<Turn>)
    ensures r.Err? ==> r.error == NoMoreInput
    ensures r.Ok? ==> r.value.player.name == p.name && r.value.player.modifiers == p.modifiers
    ensures |inp| > 0 && inp[0] == Skip && Kind(c) in VassalKinds ==> r == Ok(Turn(ctx, p, inp[1..]))
    ensures Kind(c) !in VassalKinds ==> r == Ok(Turn(ctx, p.(deck := Discarded(p.deck, [c])), inp))
  {
    if Kind(c) in VassalKinds then
      var a :- Ask(map[1 := Name(c)], true, inp);
      if a.choice == Skip then Ok(Turn(ctx, p, a.rest))
      else Ok(Turn(Play(ctx, c, p.name), p.(deck := Discarded(p.deck, [c])), a.rest))
    else Ok(Turn(ctx, p.(deck := Discarded(p.deck, [c])), inp))
  }

  /** Skipping the offered action loses it: the deck is a card short. */
  lemma VassalSkipLosesCard(ctx: Ctx, p: Player, rest: seq<Choice>)
    requires |p.deck.draw| > 0 && Kind(p.deck.draw[0]) == ACTION
    ensures var r := VassalAsWritten(ctx, p, [Skip] + rest);
            r.Ok? && AllCards(r.value.player.deck) + multiset{p.deck.draw[0]} == AllCards(p.deck)
  {
    var inp := [Skip] + rest;
    AskTakesFirst(map[1 := Name(p.deck.draw[0])], true, inp, 0);
  }

  /** A concrete case: a deck of one Village on the draw pile is empty
      after the written Vassal when the Village is skipped. */
  lemma VassalLosesVillage(ctx: Ctx)
    ensures var p := Player("a", Deck([Village], [], [], [], multiset{Village}, []), map[]);
            var r := VassalAsWritten(ctx, p, [Skip]);
            r.Ok? && Size(r.value.player.deck) == 0 && Size(p.deck) == 1
  {
    var p := Player("a", Deck([Village], [], [], [], multiset{Village}, []), map[]);
    VassalSkipLosesCard(ctx, p, []);
  }

  /** The written kind list names ACTION twice and leaves out
      ACTION_ATTACK: a Bureaucrat on top is discarded without being
      offered, even to a player who would play it. */
  lemma VassalPassesOverBureaucrat(ctx: Ctx, p: Player, rest: seq<Choice>)
    requires |p.deck.draw| > 0 && p.deck.draw[0] == Bureaucrat
    ensures var r := VassalAsWritten(ctx, p, [Pick(1)] + rest);
            r.Ok? && r.value.ctx == ctx && r.value.rest == [Pick(1)] + rest
  {
    var t := TopCard(p.deck);
    assert t.cards == [Bureaucrat] && Kind(Bureaucrat) !in VassalKinds;
    var v := VassalCardAsWritten(ctx, p.(deck := t.deck), Bureaucrat, [Pick(1)] + rest);
    assert v.Ok? && v.value.ctx == ctx && v.value.rest == [Pick(1)] + rest;
  }

  /** Whether Vassal offers to play a card: every action card, attacks
      included, as the card text says. */
  predicate Playable(c: Card) {
    IsActionKind(Kind(c))
  }

  /** Vassal as printed: +(2), then VassalTop. */
  function Vassal(ctx: Ctx, p: Player, inp: seq<Choice>): (r: Result<Turn>)
    ensures r.Err? ==> r.error in {IndexError, NoMoreInput}
    ensures r.Ok? ==> Pays(p, r.value.player, 2) && r.value.player.name == p.name
    ensures r.Ok? <==> VassalTop(ctx, p, inp).Ok?
    ensures r.Ok? ==> var v := VassalTop(ctx, p, inp).value;
                      r.value.ctx == v.ctx && r.value.player.deck == v.player.deck && r.value.rest == v.rest
  {
    var v :- VassalTop(ctx, p, inp);
    var q := SetModifier(v.player, "extra_treasure", 2);
    PaysFrom(p, v.player, q, 2);
    Ok(v.(player := q))
  }

  /** The top card as printed: it is taken (IndexError when there is none)
      and, when it is an action, the player may play it; either way it
      ends on the discard pile, so no card is lost. */
  function VassalTop(ctx: Ctx, p: Player, inp: seq<Choice>): (r: Result<Turn>)
    ensures r.Err? ==> r.error in {IndexError, NoMoreInput}
    ensures r == Err(IndexError) <==> |p.deck.draw| + |p.deck.discard| == 0
    ensures r.Ok? ==> r.value.player.name == p.name && r.value.player.modifiers == p.modifiers
    ensures r.Ok? ==> var t := TopCard(p.deck);
                      |t.cards| == 1
                      && r.value.player.deck.discard == t.deck.discard + t.cards
                      && r.value.player.deck.draw == t.deck.draw
                      && Hand(r.value.player) == Hand(p)
                      && AllCards(r.value.player.deck) == AllCards(p.deck) && Valid(r.value.player.deck)
                      && (r.value.ctx == ctx || (Playable(t.cards[0]) && r.value.ctx == Play(ctx, t.cards[0], p.name)))
    ensures |p.deck.draw| > 0 && !Playable(p.deck.draw[0]) ==> r.Ok? && r.value.ctx == ctx && r.value.rest == inp
    ensures |p.deck.draw| > 0 && Playable(p.deck.draw[0]) && |inp| > 0 && inp[0] == Pick(1) ==>
              r.Ok? && r.value.ctx == Play(ctx, p.deck.draw[0], p.name) && r.value.rest == inp[1..]
  {
    var t := TopCard(p.deck);
    if |t.cards| == 0 then Err(IndexError)
    else
      assert t.cards == [t.cards[0]];
      VassalCard(ctx, p.(deck := Discarded(t.deck, t.cards)), t.cards[0], inp)
  }

  /** The offer for the taken card `c`, which `p` has already discarded. */
  function VassalCard(ctx: Ctx, p: Player, c: Card, inp: seq<Choice>): (r: Result<Turn>)
    ensures r.Err? ==> r.error == NoMoreInput
    ensures r.Ok? ==> r.value.player == p
    ensures r.Ok? ==> r.value.ctx == ctx || (Playable(c) && r.value.ctx == Play(ctx, c, p.name))
    ensures !Playable(c) ==> r == Ok(Turn(ctx, p, inp))
    ensures Playable(c) && |inp| > 0 && inp[0] == Pick(1) ==> r == Ok(Turn(Play(ctx, c, p.name), p, inp[1..]))
    ensures Playable(c) && |inp| > 0 && inp[0] == Skip ==> r == Ok(Turn(ctx, p, inp[1..]))
  {
    if Playable(c) then
      var a :- Ask(map[1 := Name(c)], true, inp);
      if a.choice == Skip then Ok(Turn(ctx, p, a.rest))
      else Ok(Turn(Play(ctx, c, p.name), p, a.rest))
    else Ok(Turn(ctx, p, inp))
  }

  /** The corrected Vassal keeps every card whatever the answer, and does
      offer a Bureaucrat. */
  lemma VassalOffersBureaucrat(ctx: Ctx, p: Player, rest: seq<Choice>)
    requires |p.deck.draw| > 0 && p.deck.draw[0] == Bureaucrat
    ensures var r := Vassal(ctx, p, [Pick(1)] + rest);
            r.Ok? && Playable(Bureaucrat) && r.value.ctx == Play(ctx, Bureaucrat, p.name)
            && AllCards(r.value.player.deck) == AllCards(p.deck)
  {
    var inp := [Pick(1)] + rest;
    assert Playable(Bureaucrat);
    assert |inp| > 0 && inp[0] == Pick(1) && inp[1..] == rest;
    var v := VassalTop(ctx, p, inp);
    assert v.Ok? && v.value.ctx == Play(ctx, Bureaucrat, p.name);
  }
}

=== FILE: effects_reveal.dfy ===
/** The effects that take cards off the top of the draw pile or show them:
    Bandit's and Bureaucrat's Other halves and Sentry. Cards taken to the
    caller (`draw_cards(n, to_caller=True)`) leave the deck until they are
    added back; one that is never added back is trashed. */
module RevealEffects {
  import opened Wrappers
  import opened Cards
  import opened Decks
  import opened Seqs
  import opened Players
  import opened Queue
  import opened Choices
  import opened Turns
  import opened DiscardEffects

  /** `s` without its entry at position `i`: `del s[i]`, `s.pop(i)`. */
  function Without<T>(s: seq<T>, i: int): (r: seq<T>)
    requires 0 <= i < |s|
    ensures |r| == |s| - 1
    ensures multiset(r) + multiset{s[i]} == multiset(s)
  {
    assert s == s[..i] + [s[i]] + s[i + 1..];
    s[..i] + s[i + 1..]
  }

  // ---------------------------------------------------------------------
  // Bandit
  // ---------------------------------------------------------------------

  /** The two treasures Bandit may trash: `[GOLD, SILVER]`. */
  const Robbable: seq<Card> := [Gold, Silver]

  /** `q` is `p` after the attack landed, with the Gold or Silver at
      position `i` of the revealed cards trashed and the other revealed
      cards discarded. */
  ghost predicate RobbedOf(p: Player, q: Player, i: int) {
    var t := DrawToCaller(p.deck, 2);
    0 <= i < |t.cards| && t.cards[i] in Robbable
    && q.deck.discard == t.deck.discard + Without(t.cards, i)
    && AllCards(q.deck) + multiset{t.cards[i]} == AllCards(p.deck)
  }

  /** `q` is `p` after Bandit's attack landed: the top two cards were
      revealed; when a Gold or Silver was among them, exactly one of those
      was trashed and the rest discarded, otherwise all were discarded. The
      hand is untouched, and the deck is one card smaller exactly when a
      Gold or Silver was revealed. */
  ghost predicate Robbed(p: Player, q: Player) {
    var t := DrawToCaller(p.deck, 2);
    var hit := Gold in t.cards || Silver in t.cards;
    q.name == p.name && q.modifiers == p.modifiers
    && Hand(q) == Hand(p) && q.deck.played == p.deck.played
    && q.deck.draw == t.deck.draw && Valid(q.deck)
    && (!hit ==> q.deck.discard == t.deck.discard + t.cards && AllCards(q.deck) == AllCards(p.deck))
    && (hit ==> exists i :: RobbedOf(p, q, i))
    && Size(q.deck) + (if hit then 1 else 0) == |AllCards(p.deck)|
  }

  /** `BanditEventOther.forward`: unless a Moat is revealed, the top two
      cards are taken; if a Gold or Silver is among them the player must
      pick one of those (no Skip), which is trashed; the rest go to the
      discard pile. Copper is never offered. */
  function BanditOther(ctx: Ctx, p: Player, inp: seq<Choice>): (r: Result<Turn>)
    ensures r.Err? ==> r.error == NoMoreInput
    ensures r.Ok? ==> r.value.ctx == ctx
    ensures r.Ok? ==> r.value.player == p || Robbed(p, r.value.player)
    ensures r.Ok? && Moat !in Hand(p) ==> Robbed(p, r.value.player)
    ensures Moat in Hand(p) && |inp| > 0 && inp[0].Pick? && 0 <= inp[0].index < |Hand(p)| && Hand(p)[inp[0].index] == Moat ==>
              r == Ok(Turn(ctx, p, inp[1..]))
    ensures Moat !in Hand(p) && Gold !in DrawToCaller(p.deck, 2).cards && Silver !in DrawToCaller(p.deck, 2).cards ==>
              r.Ok? && r.value.rest == inp
  {
    var re :- React(Hand(p), inp);
    if re.defended then Ok(Turn(ctx, p, re.rest))
    else BanditLands(ctx, p, re.rest)
  }

  /** The attack once no Moat warded it off. */
  function BanditLands(ctx: Ctx, p: Player, inp: seq<Choice>): (r: Result<Turn>)
    ensures r.Err? ==> r.error == NoMoreInput
    ensures r.Ok? ==> r.value.ctx == ctx && Robbed(p, r.value.player)
    ensures Gold !in DrawToCaller(p.deck, 2).cards && Silver !in DrawToCaller(p.deck, 2).cards ==>
              r.Ok? && r.value.rest == inp
  {
    var t := DrawToCaller(p.deck, 2);
    if Gold in t.cards || Silver in t.cards then BanditPicks(ctx, p, inp)
    else Ok(Turn(ctx, Reveal(p), inp))
  }

  /** A Gold or Silver was revealed: the player picks one of them to trash. */
  function BanditPicks(ctx: Ctx, p: Player, inp: seq<Choice>): (r: Result<Turn>)
    ensures r.Err? ==> r.error == NoMoreInput
    ensures r.Ok? ==> r.value.ctx == ctx && Robbed(p, r.value.player)
  {
    var t := DrawToCaller(p.deck, 2);
    var a :- Ask(CardOptions(t.cards, Among(Robbable)), false, inp);
    Ok(Turn(ctx, Rob(p, a.choice.index), a.rest))
  }

  /** No Gold or Silver revealed: `add(top_cards, to_pile=DISCARD)`. */
  function Reveal(p: Player): (r: Player)
    requires Gold !in DrawToCaller(p.deck, 2).cards && Silver !in DrawToCaller(p.deck, 2).cards
    ensures Robbed(p, r)
  {
    var t := DrawToCaller(p.deck, 2);
    DrawToCallerCards(p.deck, 2);
    var d := Add(t.deck, t.cards, Pile(DISCARD)).value;
    p.(deck := d)
  }

  /** The revealed Gold or Silver at position `i` is dropped
      (`del top_cards[c]`) and the rest are added to the discard pile. */
  function Rob(p: Player, i: int): (r: Player)
    requires var t := DrawToCaller(p.deck, 2); 0 <= i < |t.cards| && t.cards[i] in Robbable
    ensures Robbed(p, r) && RobbedOf(p, r, i)
  {
    var t := DrawToCaller(p.deck, 2);
    DrawToCallerCards(p.deck, 2);
    var d := Add(t.deck, Without(t.cards, i), Pile(DISCARD)).value;
    var r := p.(deck := d);
    assert RobbedOf(p, r, i);
    r
  }

  // ---------------------------------------------------------------------
  // Bureaucrat
  // ---------------------------------------------------------------------

  /** `BureaucratEventOther.forward`: unless a Moat is revealed, a player
      holding Victory cards must pick one (no Skip), which goes on top of
      the draw pile; a player holding none only shows the hand. */
  function BureaucratOther(ctx: Ctx, p: Player, inp: seq<Choice>): (r: Result<Turn>)
    ensures r.Err? ==> r.error == NoMoreInput
    ensures r.Ok? ==> r.value.ctx == ctx
    ensures r.Ok? ==> r.value.player == p || exists c :: Kind(c) == VICTORY && OnTop(p, c, r.value.player)
    ensures Moat in Hand(p) && |inp| > 0 && inp[0].Pick? && 0 <= inp[0].index < |Hand(p)| && Hand(p)[inp[0].index] == Moat ==>
              r == Ok(Turn(ctx, p, inp[1..]))
    ensures Moat !in Hand(p) && (forall i :: 0 <= i < |Hand(p)| ==> Kind(Hand(p)[i]) != VICTORY) ==>
              r == Ok(Turn(ctx, p, inp))
    ensures r.Ok? && Moat !in Hand(p) && (exists i :: 0 <= i < |Hand(p)| && Kind(Hand(p)[i]) == VICTORY) ==>
              exists c :: Kind(c) == VICTORY && OnTop(p, c, r.value.player)
  {
    var re :- React(Hand(p), inp);
    if re.defended then Ok(Turn(ctx, p, re.rest))
    else
      var opts := CardOptions(Hand(p), OfKind(VICTORY));
      NoOptions(Hand(p), OfKind(VICTORY));
      if opts == map[] then Ok(Turn(ctx, p, re.rest))
      else
        var a :- Ask(opts, false, re.rest);
        var i := a.choice.index;
        var q := PutOnTop(p, i);
        assert Kind(Hand(p)[i]) == VICTORY && OnTop(p, Hand(p)[i], q);
        Ok(Turn(ctx, q, a.rest))
  }

  // ---------------------------------------------------------------------
  // Sentry
  // ---------------------------------------------------------------------

  /** How Sentry's player sorted the revealed cards: the ones trashed, the
      ones discarded and the ones put back, in the order the put-back loop
      leaves them, with the answers left. */
  datatype Sorted = Sorted(trashed: seq<Card>, discarded: seq<Card>, back: seq<Card>, rest: seq<Choice>)

  /** Sentry's two marking loops: first any number of the revealed cards
      are marked for the trash, then any number of the others for the
      discard pile (Skip ends each loop; no position is marked twice). The
      three groups split the revealed cards exactly. */
  function SentrySort(cards: seq<Card>, inp: seq<Choice>): (r: Result<Sorted>)
    ensures r.Err? ==> r.error == NoMoreInput
    ensures r.Ok? ==> multiset(r.value.trashed) + multiset(r.value.discarded) + multiset(r.value.back) == multiset(cards)
    ensures r.Ok? ==> |r.value.trashed| + |r.value.discarded| + |r.value.back| == |cards|
    ensures r.Ok? ==> IsSuffix(r.value.rest, inp)
  {
    var m1 :- Mark(cards, [], |cards|, true, inp);
    PickedUnmarkedSplit(cards, m1.marked);
    var kept := Unmarked(cards, m1.marked);
    var m2 :- Mark(kept, [], |kept|, true, m1.rest);
    PickedUnmarkedSplit(kept, m2.marked);
    SuffixTrans(m2.rest, m1.rest, inp);
    Ok(Sorted(Picked(cards, m1.marked), Picked(kept, m2.marked), Unmarked(kept, m2.marked), m2.rest))
  }

  /** The deck after the put-back step and the answers left. */
  datatype PutBack = PutBack(deck: Deck, rest: seq<Choice>)

  /** Sentry's last step: with more than one card to put back the player
      picks (no Skip) the card added to the draw pile first, and the rest
      are added on top of it; otherwise the cards are added as they are.
      The draw pile ends with its old cards under exactly the cards put
      back. */
  function SentryReturn(d: Deck, back: seq<Card>, inp: seq<Choice>): (r: Result<PutBack>)
    ensures r.Err? ==> r.error == NoMoreInput && |back| > 1
    ensures r.Ok? ==> |r.value.deck.draw| == |back| + |d.draw| && r.value.deck.draw[|back|..] == d.draw
    ensures r.Ok? ==> multiset(r.value.deck.draw[..|back|]) == multiset(back)
    ensures r.Ok? ==> r.value.deck.discard == d.discard && r.value.deck.hand == d.hand && r.value.deck.played == d.played
    ensures r.Ok? ==> AllCards(r.value.deck) == AllCards(d) + multiset(back) && Valid(r.value.deck)
    ensures r.Ok? ==> IsSuffix(r.value.rest, inp)
    ensures |back| <= 1 ==> r == Ok(PutBack(AddTo(d, back, DRAW), inp))
  {
    if |back| > 1 then
      var a :- Ask(CardOptions(back, AnyCard), false, inp);
      var i := a.choice.index;
      Ok(PutBack(Restack(d, back, i), a.rest))
    else
      AddToKeeps(d, back);
      Ok(PutBack(AddTo(d, back, DRAW), inp))
  }

  /** `card = cards.pop(i)`, `add([card], DRAW)`, `add(cards, DRAW)`: the
      picked card ends up right under the others. */
  function Restack(d: Deck, back: seq<Card>, i: int): (r: Deck)
    requires 0 <= i < |back|
    ensures r.draw == Without(back, i) + [back[i]] + d.draw
    ensures r.discard == d.discard && r.hand == d.hand && r.played == d.played
    ensures AllCards(r) == AllCards(d) + multiset(back) && Valid(r)
  {
    var d1 := AddTo(d, [back[i]], DRAW);
    AddToKeeps(d, [back[i]]);
    AddToKeeps(d1, Without(back, i));
    AddTo(d1, Without(back, i), DRAW)
  }

  /** Adding to the draw pile leaves the other piles alone. */
  lemma AddToKeeps(d: Deck, cards: seq<Card>)
    ensures var r := AddTo(d, cards, DRAW);
            r.discard == d.discard && r.hand == d.hand && r.played == d.played
  {
    var r := AddTo(d, cards, DRAW);
    assert GetPile(r, DISCARD) == GetPile(d, DISCARD);
    assert GetPile(r, HAND) == GetPile(d, HAND);
    assert GetPile(r, PLAYED) == GetPile(d, PLAYED);
  }

  /** `r` is `q` after Sentry's look at the top two cards with answers
      `inp`: they were sorted into trash, discard and put-back; the
      discarded ones went onto the discard pile and the others back on top
      of the draw pile; the hand is untouched and the deck lost exactly the
      trashed cards. */
  ghost predicate Sentried(q: Player, inp: seq<Choice>, r: Player) {
    var t := DrawToCaller(q.deck, 2);
    var s := SentrySort(t.cards, inp);
    s.Ok?
    && r.name == q.name && r.modifiers == q.modifiers && Hand(r) == Hand(q)
    && r.deck.discard == t.deck.discard + s.value.discarded
    && |r.deck.draw| == |s.value.back| + |t.deck.draw| && r.deck.draw[|s.value.back|..] == t.deck.draw
    && multiset(r.deck.draw[..|s.value.back|]) == multiset(s.value.back)
    && AllCards(r.deck) + multiset(s.value.trashed) == AllCards(q.deck)
    && Valid(r.deck)
    && Size(r.deck) + |s.value.trashed| == |AllCards(q.deck)|
  }

  /** `SentryEvent.forward`: one card is drawn into the hand, then the top
      two cards are taken and sorted. */
  function Sentry(ctx: Ctx, p: Player, inp: seq<Choice>): (r: Result<Turn>)
    ensures r.Err? ==> r.error == NoMoreInput
    ensures r.Ok? ==> r.value.ctx == ctx && Sentried(DrawMore(p, 1), inp, r.value.player)
    ensures r.Ok? ==> AllCards(DrawMore(p, 1).deck) == AllCards(p.deck)
                      && Hand(DrawMore(p, 1))[..|Hand(p)|] == Hand(p)
  {
    SentryLook(ctx, DrawMore(p, 1), inp)
  }

  /** Sentry after its draw. */
  function SentryLook(ctx: Ctx, q: Player, inp: seq<Choice>): (r: Result<Turn>)
    ensures r.Err? ==> r.error == NoMoreInput
    ensures r.Ok? ==> r.value.ctx == ctx && Sentried(q, inp, r.value.player)
  {
    var t := DrawToCaller(q.deck, 2);
    var s :- SentrySort(t.cards, inp);
    var b :- SentryReturn(Discarded(t.deck, s.discarded), s.back, s.rest);
    SentryCards(q, t, s, b.deck);
    Ok(Turn(ctx, q.(deck := b.deck), b.rest))
  }

  /** The card count of Sentry: what the deck gets back is what was taken
      minus what was trashed. */
  lemma SentryCards(q: Player, t: Taken, s: Sorted, d: Deck)
    requires t == DrawToCaller(q.deck, 2)
    requires multiset(s.trashed) + multiset(s.discarded) + multiset(s.back) == multiset(t.cards)
    requires AllCards(d) == AllCards(t.deck) + multiset(s.discarded) + multiset(s.back) && Valid(d)
    ensures AllCards(d) + multiset(s.trashed) == AllCards(q.deck)
    ensures Size(d) + |s.trashed| == |AllCards(q.deck)|
  {
    DrawToCallerCards(q.deck, 2);
  }

  /** Answering Skip to both loops trashes and discards nothing: every
      revealed card goes back onto the draw pile. */
  lemma SentryKeepsAll(cards: seq<Card>, rest: seq<Choice>)
    requires |cards| > 0
    ensures var r := SentrySort(cards, [Skip, Skip] + rest);
            r.Ok? && r.value.trashed == [] && r.value.discarded == [] && r.value.back == cards
  {
    var inp := [Skip, Skip] + rest;
    AskTakesFirst(CardOptions(cards, NotIn([])), true, inp, 0);
    UnmarkedNone(cards, []);
    AskTakesFirst(CardOptions(cards, NotIn([])), true, inp[1..], 0);
  }
}

=== FILE: effects_simple.dfy ===
/** The events that need no answer from the player: the plain draws
    (Smithy, Village, Laboratory, Moat, Council Room, Witch's own half), the
    coin bonuses (Festival, Militia's own half) and the two that do both
    (Market, Merchant). */
module SimpleEffects {
  import opened Cards
  import opened Decks
  import opened Players
  import opened Queue
  import opened Turns

  /** The +Cards printed on each card, for the event's player; Council
      Room's Other half is its "each other player draws a card". */
  function PlusCards(c: Card, role: Role): nat {
    if c == Smithy then 3
    else if c == CouncilRoom then (if role == OnOther then 1 else 4)
    else if c in {Laboratory, Moat} || (c == Witch && role != OnOther) then 2
    else if c in {Village, Market, Merchant, Harbinger, Poacher, Sentry} then 1
    else 0
  }

  /** The +(coins) printed on each card, for the player who played it. */
  function PlusCoins(c: Card, role: Role): nat {
    if c in {Festival, Vassal} || (c == Militia && role != OnOther) then 2
    else if c in {Market, Poacher} then 1
    else 0
  }

  /** The events handled here. */
  predicate Simple(c: Card, role: Role) {
    (role == Main && c in {Smithy, Village, Laboratory, Market, Festival, Moat, Merchant})
    || (c == CouncilRoom && role in {OnSelf, OnOther})
    || (c in {Witch, Militia} && role == OnSelf)
  }

  /** `r` is `p` after drawing `n` cards without replacing the hand: the
      hand gains exactly `n` cards at its end (fewer only when the deck
      runs out), taken from the top of the draw pile when it holds enough,
      and the deck keeps its cards. */
  ghost predicate Draws(p: Player, r: Player, n: nat) {
    r.name == p.name
    && AllCards(r.deck) == AllCards(p.deck)
    && (Valid(p.deck) ==> Valid(r.deck) && Size(r.deck) == Size(p.deck))
    && |r.deck.hand| == |p.deck.hand| + Min(n, |p.deck.draw| + |p.deck.discard|)
    && r.deck.hand[..|p.deck.hand|] == p.deck.hand
    && (|p.deck.draw| >= n ==> r.deck.hand == p.deck.hand + p.deck.draw[..n])
  }

  /** `player.deck.draw_cards(n, replace_hand=False)`. */
  function DrawN(p: Player, n: nat): (r: Player)
    ensures Draws(p, r, n) && Pays(p, r, 0)
  {
    DrawAdds(p.deck, n);
    p.(deck := DrawCards(p.deck, n, false))
  }

  /** `set_modifier("extra_treasure", lambda v: v + n)`. */
  function Coins(p: Player, n: int): (r: Player)
    ensures r.name == p.name && r.deck == p.deck && Pays(p, r, n)
  {
    SetModifier(p, "extra_treasure", n)
  }

  lemma CoinsAfterDraw(p: Player, q: Player, n: nat, m: int)
    requires Draws(p, q, n) && Pays(p, q, 0)
    ensures Draws(p, Coins(q, m), n) && Pays(p, Coins(q, m), m)
  {
  }

  /** The `forward` of each event handled here. Every one draws exactly the
      printed +Cards (fewer only when the deck runs out) onto the end of the
      hand and adds exactly the printed +(coins); Merchant's +(1) is paid
      right away when a Silver is in hand after the draw. */
  function SimpleForward(c: Card, role: Role, p: Player): (r: Player)
    requires Simple(c, role)
    ensures Draws(p, r, PlusCards(c, role))
    ensures c != Merchant ==> Pays(p, r, PlusCoins(c, role))
    ensures c == Merchant ==> Pays(p, r, if Silver in r.deck.hand then 1 else 0)
  {
    Printed(c, role);
    if c == Market then
      CoinsAfterDraw(p, DrawN(p, 1), 1, 1);
      Coins(DrawN(p, 1), 1)
    else if c == Merchant then
      var q := DrawN(p, 1);
      CoinsAfterDraw(p, q, 1, 1);
      if Silver in q.deck.hand then Coins(q, 1) else q
    else if c in {Festival, Militia} then NoDraw(p); Coins(p, 2)
    else if c == Smithy then DrawN(p, 3)
    else if c == CouncilRoom && role == OnSelf then DrawN(p, 4)
    else if c in {Laboratory, Moat, Witch} then DrawN(p, 2)
    else DrawN(p, 1)
  }

  /** The printed numbers of the events handled here. */
  lemma Printed(c: Card, role: Role)
    requires Simple(c, role)
    ensures c == Smithy ==> PlusCards(c, role) == 3
    ensures c == CouncilRoom && role == OnSelf ==> PlusCards(c, role) == 4
    ensures c in {Laboratory, Moat, Witch} ==> PlusCards(c, role) == 2
    ensures c in {Village, Market, Merchant} || (c == CouncilRoom && role == OnOther) ==> PlusCards(c, role) == 1
    ensures c in {Festival, Militia} ==> PlusCards(c, role) == 0 && PlusCoins(c, role) == 2
    ensures c == Market ==> PlusCoins(c, role) == 1
    ensures c !in {Festival, Militia, Market} ==> PlusCoins(c, role) == 0
  {
  }

  lemma NoDraw(p: Player)
    ensures Draws(p, Coins(p, 2), 0)
  {
    assert p.deck.hand[..|p.deck.hand|] == p.deck.hand;
  }

  /** The coin bonuses never change what the buy phase can afford: only
      `'spent'` enters the treasure count, so a coin-only event leaves it
      exactly as it was. */
  lemma CoinsAreNotTreasure(c: Card, role: Role, p: Player)
    requires Simple(c, role) && PlusCards(c, role) == 0
    ensures Treasure(SimpleForward(c, role, p)) == Treasure(p)
  {
    TreasureModifiers(p, "extra_treasure", 2);
  }
}

=== FILE: effects_trash.dfy ===
/** The trashing actions: Chapel, Moneylender, Remodel and Mine. A trashed
    card leaves the hand and the deck for good. */
module TrashEffects {
  import opened Wrappers
  import opened Cards
  import opened Decks
  import opened Players
  import opened Supplies
  import opened Queue
  import opened Choices
  import opened Turns
  import opened Gains

  /** `d2` is `d` with the cards of `t` gone from the hand, every other pile
      as it was and the counts refreshed. */
  ghost predicate Trashed(d: Deck, t: multiset<Card>, d2: Deck) {
    multiset(d2.hand) + t == multiset(d.hand)
    && |d2.hand| + |t| == |d.hand|
    && d2.draw == d.draw && d2.discard == d.discard && d2.played == d.played
    && AllCards(d2) + t == AllCards(d)
    && Valid(d2)
  }

  /** `player.deck.trash([player.hand[i]])`: the card at hand position `i`
      is trashed, which cannot fail. */
  function TrashAt(p: Player, i: int): (r: Player)
    requires 0 <= i < |Hand(p)|
    ensures r.name == p.name && r.modifiers == p.modifiers
    ensures Trashed(p.deck, multiset{Hand(p)[i]}, r.deck)
    ensures Trash(p.deck, [Hand(p)[i]], Pile(HAND)) == Ok(r.deck)
  {
    assert multiset([Hand(p)[i]]) == multiset{Hand(p)[i]};
    p.(deck := Trash(p.deck, [Hand(p)[i]], Pile(HAND)).value)
  }

  /** What was trashed is what the hand lost. */
  lemma TrashedIsDifference(d: Deck, t: multiset<Card>, d2: Deck)
    requires Trashed(d, t, d2)
    ensures t == multiset(d.hand) - multiset(d2.hand)
  {
    assert forall x :: t[x] == multiset(d.hand)[x] - multiset(d2.hand)[x];
  }

  // ---------------------------------------------------------------------
  // Chapel
  // ---------------------------------------------------------------------

  /** The Chapel loop with `k` rounds to go: each round offers every hand
      position with Skip allowed; Skip ends the loop, a position trashes
      that card. The result lists the trashed cards, at most one a round;
      only the hand changes. */
  function ChapelRounds(p: Player, k: nat, inp: seq<Choice>): (r: Result<(Player, seq<Card>, seq<Choice>)>)
    requires Valid(p.deck)
    ensures r.Err? ==> r.error == NoMoreInput
    ensures r.Ok? ==> r.value.0.name == p.name && r.value.0.modifiers == p.modifiers
    ensures r.Ok? ==> Trashed(p.deck, multiset(r.value.1), r.value.0.deck) && |r.value.1| <= k
    ensures r.Ok? ==> |r.value.2| <= |inp|
    decreases k
  {
    if k == 0 then Ok((p, [], inp))
    else
      var a :- Ask(CardOptions(Hand(p), AnyCard), true, inp);
      match a.choice
      case Skip => Ok((p, [], a.rest))
      case Pick(i) =>
        var q := TrashAt(p, i);
        var r :- ChapelRounds(q, k - 1, a.rest);
        ChapelStep(p.deck, q.deck, r.0.deck, Hand(p)[i], r.1);
        Ok((r.0, [Hand(p)[i]] + r.1, r.2))
  }

  lemma ChapelStep(d: Deck, q: Deck, r: Deck, c: Card, later: seq<Card>)
    requires Trashed(d, multiset{c}, q) && Trashed(q, multiset(later), r)
    ensures Trashed(d, multiset([c] + later), r)
  {
    assert multiset([c] + later) == multiset{c} + multiset(later);
  }

  /** `ChapelEvent.forward`: up to four cards of the player's choice leave
      the hand and the deck; nothing else changes. */
  function Chapel(ctx: Ctx, p: Player, inp: seq<Choice>): (r: Result<Turn>)
    requires Valid(p.deck)
    ensures r.Err? ==> r.error == NoMoreInput
    ensures r.Ok? ==> r.value.ctx == ctx && r.value.player.name == p.name
                      && r.value.player.modifiers == p.modifiers
    ensures r.Ok? ==> Trashed(p.deck, multiset(Hand(p)) - multiset(Hand(r.value.player)), r.value.player.deck)
    ensures r.Ok? ==> |Hand(p)| - |Hand(r.value.player)| <= 4
    ensures r.Ok? ==> Size(r.value.player.deck) >= Size(p.deck) - 4
  {
    var (q, trashed, rest) :- ChapelRounds(p, 4, inp);
    TrashedIsDifference(p.deck, multiset(trashed), q.deck);
    Ok(Turn(ctx, q, rest))
  }

  // ---------------------------------------------------------------------
  // Moneylender
  // ---------------------------------------------------------------------

  /** `MoneylenderEvent.forward`: without a Copper in hand the leading
      Moneylender events are cancelled; otherwise (Skip allowed) one Copper
      is trashed for +3 `'extra_treasure'`. */
  function Moneylender(ctx: Ctx, p: Player, inp: seq<Choice>): (r: Result<Turn>)
    ensures r.Err? ==> r.error == NoMoreInput
    ensures Copper !in Hand(p) ==>
              r == Ok(Turn(ctx.(queue := ClearAhead(ctx.queue, CardEvent(Card.Moneylender, Main))), p, inp))
    ensures Copper in Hand(p) && r.Ok? ==> r.value.ctx == ctx
    ensures r.Ok? && r.value.player != p ==>
              Copper in Hand(p)
              && r.value.player.name == p.name
              && Trashed(p.deck, multiset{Copper}, r.value.player.deck)
              && Modifier(r.value.player, "extra_treasure") == Modifier(p, "extra_treasure") + 3
              && forall k :: k != "extra_treasure" ==> Modifier(r.value.player, k) == Modifier(p, k)
  {
    var opts := CardOptions(Hand(p), Named("Copper"));
    CoppersOffered(Hand(p));
    if opts == map[] then
      Ok(Turn(ctx.(queue := ClearAhead(ctx.queue, CardEvent(Card.Moneylender, Main))), p, inp))
    else
      var a :- Ask(opts, true, inp);
      match a.choice
      case Skip => Ok(Turn(ctx, p, a.rest))
      case Pick(i) => Ok(Turn(ctx, Lend(p, i), a.rest))
  }

  /** Trashing the Copper at hand position `i` for +3. */
  function Lend(p: Player, i: int): (r: Player)
    requires i in CardOptions(Hand(p), Named("Copper"))
    ensures Copper in Hand(p) && r.name == p.name
    ensures Trashed(p.deck, multiset{Copper}, r.deck)
    ensures Modifier(r, "extra_treasure") == Modifier(p, "extra_treasure") + 3
    ensures forall k :: k != "extra_treasure" ==> Modifier(r, k) == Modifier(p, k)
  {
    CopperOptions(Hand(p), i);
    SetModifier(TrashAt(p, i), "extra_treasure", 3)
  }

  lemma CoppersOffered(hand: seq<Card>)
    ensures CardOptions(hand, Named("Copper")) == map[] <==> Copper !in hand
  {
    if Copper in hand {
      var i :| 0 <= i < |hand| && hand[i] == Copper;
      CopperOptions(hand, i);
    } else {
      forall i | i in CardOptions(hand, Named("Copper")) ensures false {
        CopperOptions(hand, i);
      }
    }
  }

  // ---------------------------------------------------------------------
  // Remodel and Mine
  // ---------------------------------------------------------------------

  /** The shape shared by Remodel and Mine: the hand positions `keep`
      offers are shown (Skip allowed); the chosen card is trashed, and then
      a pile the supply offers under `offer(cost)` may be gained free to
      the discard pile. */
  ghost predicate Exchanged(ctx: Ctx, p: Player, bonus: int, treasureOnly: bool, t: Turn) {
    exists c: Card, q: Player :: ExchangedVia(ctx, p, bonus, treasureOnly, c, q, t)
  }

  /** ... by trashing `c`, which left `q`. */
  ghost predicate ExchangedVia(ctx: Ctx, p: Player, bonus: int, treasureOnly: bool, c: Card, q: Player, t: Turn) {
    c in Hand(p) && (treasureOnly ==> Kind(c) == TREASURE)
    && q.name == p.name && q.modifiers == p.modifiers
    && Trashed(p.deck, multiset{c}, q.deck)
    && MayGain(ctx.supply, q, Limit(Cost(c) + bonus, treasureOnly), DISCARD, t.ctx.supply, t.player)
  }

  function Limit(n: int, treasureOnly: bool): Offer {
    if treasureOnly then TreasureUpTo(n) else CostUpTo(n)
  }

  /** After the trash: the gain. */
  function TrashThenGain(ctx: Ctx, p: Player, i: int, bonus: int, treasureOnly: bool, inp: seq<Choice>): (r: Result<Turn>)
    requires 0 <= i < |Hand(p)| && (treasureOnly ==> Kind(Hand(p)[i]) == TREASURE)
    ensures r.Err? ==> r.error == NoMoreInput
    ensures r.Ok? ==> r.value.ctx.order == ctx.order && r.value.ctx.queue == ctx.queue
    ensures r.Ok? ==> Exchanged(ctx, p, bonus, treasureOnly, r.value)
    ensures r.Ok? && Keyed(ctx.supply) && Stocked(ctx.supply) ==> Keyed(r.value.ctx.supply) && Stocked(r.value.ctx.supply)
  {
    var c := Hand(p)[i];
    var q := TrashAt(p, i);
    var r :- OfferGain(ctx, q, Limit(Cost(c) + bonus, treasureOnly), DISCARD, inp);
    assert ExchangedVia(ctx, p, bonus, treasureOnly, c, q, r);
    Ok(r)
  }

  /** `RemodelEvent.forward`: with an empty hand the leading Remodel events
      are cancelled; otherwise (Skip allowed) a hand card is trashed, and a
      card costing up to 2 more, with copies left, may be gained free to
      the discard pile. */
  function Remodel(ctx: Ctx, p: Player, inp: seq<Choice>): (r: Result<Turn>)
    ensures r.Err? ==> r.error == NoMoreInput
    ensures Hand(p) == [] ==>
              r == Ok(Turn(ctx.(queue := ClearAhead(ctx.queue, CardEvent(Card.Remodel, Main))), p, inp))
    ensures r.Ok? && Hand(p) != [] ==> r.value.ctx.order == ctx.order && r.value.ctx.queue == ctx.queue
    ensures r.Ok? && Hand(p) != [] ==>
              (r.value.ctx == ctx && r.value.player == p) || Exchanged(ctx, p, 2, false, r.value)
    ensures r.Ok? && Keyed(ctx.supply) && Stocked(ctx.supply) ==> Keyed(r.value.ctx.supply) && Stocked(r.value.ctx.supply)
  {
    var opts := CardOptions(Hand(p), AnyCard);
    if opts == map[] then
      NoOptions(Hand(p), AnyCard);
      Ok(Turn(ctx.(queue := ClearAhead(ctx.queue, CardEvent(Card.Remodel, Main))), p, inp))
    else
      var a :- Ask(opts, true, inp);
      match a.choice
      case Skip => Ok(Turn(ctx, p, a.rest))
      case Pick(i) => TrashThenGain(ctx, p, i, 2, false, a.rest)
  }

  /** `MineEvent.forward`: with no treasure in hand the leading Mine events
      are cancelled; otherwise (Skip allowed) a treasure is trashed, and a
      treasure costing up to 3 more, with copies left, may be gained free
      to the discard pile. */
  function Mine(ctx: Ctx, p: Player, inp: seq<Choice>): (r: Result<Turn>)
    ensures r.Err? ==> r.error == NoMoreInput
    ensures (forall i :: 0 <= i < |Hand(p)| ==> Kind(Hand(p)[i]) != TREASURE) ==>
              r == Ok(Turn(ctx.(queue := ClearAhead(ctx.queue, CardEvent(Card.Mine, Main))), p, inp))
    ensures r.Ok? && (exists i :: 0 <= i < |Hand(p)| && Kind(Hand(p)[i]) == TREASURE) ==>
              r.value.ctx.order == ctx.order && r.value.ctx.queue == ctx.queue
              && ((r.value.ctx == ctx && r.value.player == p) || Exchanged(ctx, p, 3, true, r.value))
    ensures r.Ok? && Keyed(ctx.supply) && Stocked(ctx.supply) ==> Keyed(r.value.ctx.supply) && Stocked(r.value.ctx.supply)
  {
    var opts := CardOptions(Hand(p), OfKind(TREASURE));
    if opts == map[] then
      Ok(Turn(ctx.(queue := ClearAhead(ctx.queue, CardEvent(Card.Mine, Main))), p, inp))
    else
      NoOptions(Hand(p), OfKind(TREASURE));
      var a :- Ask(opts, true, inp);
      match a.choice
      case Skip => Ok(Turn(ctx, p, a.rest))
      case Pick(i) => TrashThenGain(ctx, p, i, 3, true, a.rest)
  }
}

=== FILE: numerals.dfy ===
/** Decimal numerals: the `%s` formatting of integers used by card
    descriptions, and the `str.isdigit` / `int(...)` pair used by the input
    validator. Only the ASCII digits '0'..'9' are modelled. */
module Numerals {

  predicate IsDigit(ch: char) {
    '0' <= ch <= '9'
  }

  /** `s.isdigit()` for ASCII text: non-empty and made of digits only. */
  predicate AllDigits(s: string) {
    |s| > 0 && forall i :: 0 <= i < |s| ==> IsDigit(s[i])
  }

  function DigitChar(d: nat): (ch: char)
    requires d < 10
    ensures IsDigit(ch)
  {
    "0123456789"[d]
  }

  /** `int(s)` for a string of digits. */
  function DigitsValue(s: string): (n: nat)
    requires forall i :: 0 <= i < |s| ==> IsDigit(s[i])
  {
    if |s| == 0 then 0
    else
      assert IsDigit(s[|s| - 1]);
      10 * DigitsValue(s[..|s| - 1]) + (s[|s| - 1] as int - '0' as int)
  }

  /** `str(n)` for a natural number. */
  function NatToString(n: nat): (s: string)
    ensures AllDigits(s)
  {
    if n < 10 then [DigitChar(n)]
    else NatToString(n / 10) + [DigitChar(n % 10)]
  }

  /** `str(i)` for any integer. */
  function IntToString(i: int): (s: string)
    ensures |s| > 0
    ensures i < 0 <==> s[0] == '-'
  {
    if i < 0 then "-" + NatToString(-i) else NatToString(i)
  }

  lemma DigitCharValue(d: nat)
    requires d < 10
    ensures DigitChar(d) as int - '0' as int == d
  {
  }

  /** Reading back what `str` printed gives the number: `int(str(n)) == n`. */
  lemma {:induction false} ParsePrinted(n: nat)
    ensures DigitsValue(NatToString(n)) == n
  {
    var s := NatToString(n);
    if n < 10 {
      DigitCharValue(n);
    } else {
      ParsePrinted(n / 10);
      DigitCharValue(n % 10);
      assert s[..|s| - 1] == NatToString(n / 10);
    }
  }
}

=== FILE: options.dfy ===
/** The option dictionaries the engine offers a player: a map from a position
    in some list (a hand, a discard pile, the supply) to the label shown for
    it. Every builder in the source is a loop over `enumerate(...)` that keeps
    some positions; they are all instances of `Collect`. */
module Options {

  /** `{idx: labels[idx] for idx in range(n) if keep[idx]}`, built one
      position at a time as the source's loops build it. */
  function Collect(labels: seq<string>, keep: seq<bool>, n: nat): (r: map<int, string>)
    requires |keep| == |labels| && n <= |labels|
    ensures forall i :: i in r <==> 0 <= i < n && keep[i]
    ensures forall i :: i in r ==> r[i] == labels[i]
  {
    if n == 0 then map[]
    else
      var r := Collect(labels, keep, n - 1);
      if keep[n - 1] then r[n - 1 := labels[n - 1]] else r
  }

  /** An option map offers nothing exactly when no position is kept. */
  lemma CollectEmpty(labels: seq<string>, keep: seq<bool>)
    requires |keep| == |labels|
    ensures Collect(labels, keep, |labels|) == map[] <==> forall i :: 0 <= i < |keep| ==> !keep[i]
  {
    var r := Collect(labels, keep, |labels|);
    if forall i :: 0 <= i < |keep| ==> !keep[i] {
      forall k
        ensures k !in r
      {
      }
      assert r.Keys == {};
    }
  }
}

=== FILE: phases.dfy ===
/** The four turn-structure events of dominion/events.py: SetupEvent,
    PlayActionEvent, BuyEvent and CleanupEvent. Each `forward(game_ctx,
    player)` is one step of the event queue for the event's target. */
module Phases {
  import opened Wrappers
  import opened Cards
  import opened Decks
  import opened Seqs
  import opened Players
  import opened Supplies
  import opened Queue
  import opened Choices
  import opened Turns
  import opened Plays
  import opened DiscardEffects

  // ---------------------------------------------------------------------
  // PlayActionEvent
  // ---------------------------------------------------------------------

  /** `get_playable_actions_as_options(hand)`: the positions whose card is
      of kind ACTION exactly, so attacks and reactions are never offered. */
  function PlayableOptions(hand: seq<Card>): (r: map<int, string>)
    ensures forall i :: i in r <==> 0 <= i < |hand| && Kind(hand[i]) == ACTION
    ensures forall i :: i in r ==> r[i] == Name(hand[i])
  {
    CardOptions(hand, OfKind(ACTION))
  }

  /** `t` is the outcome of playing the action card `c` from the hand: its
      events are queued ahead of everything waiting, and one copy of it
      leaves the hand for the top of the discard pile. */
  ghost predicate PlayedFromHand(ctx: Ctx, p: Player, c: Card, t: Turn) {
    c in Hand(p) && Kind(c) == ACTION
    && t.ctx.order == ctx.order && t.ctx.supply == ctx.supply
    && t.ctx.queue == PlayEvents(c, p.name, OtherPlayers(ctx.order, p.name)) + ctx.queue
    && t.player.name == p.name && t.player.modifiers == p.modifiers
    && t.player.deck.discard == [c] + p.deck.discard
    && multiset(Hand(t.player)) + multiset{c} == multiset(Hand(p))
    && |Hand(t.player)| + 1 == |Hand(p)|
    && t.player.deck.draw == p.deck.draw && t.player.deck.played == p.deck.played
    && AllCards(t.player.deck) == AllCards(p.deck)
    && (Valid(p.deck) ==> Valid(t.player.deck))
  }

  /** `PlayActionEvent.forward`: with no ACTION card in hand the waiting
      PlayActionEvents are cleared and nothing else changes; otherwise the
      player must pick one (no Skip), its `play` runs once, and the card
      then moves from the hand to the discard pile. */
  function PlayAction(ctx: Ctx, p: Player, inp: seq<Choice>): (r: Result<Turn>)
    ensures PlayableOptions(Hand(p)) == map[] ==>
              r == Ok(Turn(ctx.(queue := ClearAhead(ctx.queue, PlayActionEvent)), p, inp))
    ensures r.Err? ==> r.error == NoMoreInput && PlayableOptions(Hand(p)) != map[]
    ensures PlayableOptions(Hand(p)) != map[] ==>
              (r.Ok? <==> exists k :: 0 <= k < |inp| && inp[k].Pick? && inp[k].index in PlayableOptions(Hand(p)))
    ensures r.Ok? && PlayableOptions(Hand(p)) != map[] ==>
              exists i :: 0 <= i < |Hand(p)| && PlayedFromHand(ctx, p, Hand(p)[i], r.value)
    ensures |inp| > 0 && inp[0].Pick? && inp[0].index in PlayableOptions(Hand(p)) ==>
              r.Ok? && PlayedFromHand(ctx, p, Hand(p)[inp[0].index], r.value) && r.value.rest == inp[1..]
    ensures r.Ok? ==> IsSuffix(r.value.rest, inp)
  {
    var opts := PlayableOptions(Hand(p));
    if opts == map[] then
      Ok(Turn(ctx.(queue := ClearAhead(ctx.queue, PlayActionEvent)), p, inp))
    else
      assert forall c :: Accepts(opts, false, c) <==> c.Pick? && c.index in opts;
      var a :- Ask(opts, false, inp);
      Ok(PlayFromHand(ctx, p, a.choice.index, a.rest))
  }

  /** `action_card.play(game_ctx, player)`, then
      `move([action_card], from_pile=HAND, to_pile=DISCARD)`. */
  function PlayFromHand(ctx: Ctx, p: Player, i: int, rest: seq<Choice>): (r: Turn)
    requires 0 <= i < |Hand(p)| && Kind(Hand(p)[i]) == ACTION
    ensures PlayedFromHand(ctx, p, Hand(p)[i], r) && r.rest == rest
  {
    var c := Hand(p)[i];
    assert multiset([c]) == multiset{c} && multiset{c} <= multiset(Hand(p));
    assert Reverse([c]) == [c];
    DiscardDeckKeeps(p.deck, [c]);
    Turn(Play(ctx, c, p.name), p.(deck := DiscardDeck(p.deck, [c])), rest)
  }

  /** A hand whose only actions are an attack and a reaction has nothing
      to play: Bureaucrat and Moat are never offered, and the action phase
      is cleared. */
  lemma NothingPlayable(ctx: Ctx, p: Player, inp: seq<Choice>)
    requires Hand(p) == [Bureaucrat, Moat, Copper]
    ensures PlayAction(ctx, p, inp) == Ok(Turn(ctx.(queue := ClearAhead(ctx.queue, PlayActionEvent)), p, inp))
  {
    assert forall i :: 0 <= i < |Hand(p)| ==> Kind(Hand(p)[i]) != ACTION;
    NoOptions(Hand(p), OfKind(ACTION));
  }

  // ---------------------------------------------------------------------
  // BuyEvent
  // ---------------------------------------------------------------------

  /** `t` is the outcome of buying the pile at position `i`: one copy of
      its card lands on the buyer's discard pile and the cost is added to
      `'spent'`. The copy leaves the pile keyed by the card, which, as
      dictionary keys are unique, is that pile and no other. */
  ghost predicate BoughtAt(ctx: Ctx, p: Player, i: int, t: Turn) {
    var s := ctx.supply;
    0 <= i < |s| && Offers(CostUpTo(Treasure(p)), s[i])
    && t.ctx.order == ctx.order && t.ctx.queue == ctx.queue
    && (Keyed(s) ==>
          |t.ctx.supply| == |s| && t.ctx.supply[i] == SupplyPile(s[i].card, s[i].left - 1)
          && forall j :: 0 <= j < |s| && j != i ==> t.ctx.supply[j] == s[j])
    && t.player.name == p.name
    && t.player.deck.discard == p.deck.discard + [s[i].card]
    && t.player.deck.hand == p.deck.hand && t.player.deck.draw == p.deck.draw
    && AllCards(t.player.deck) == AllCards(p.deck) + multiset{s[i].card} && Valid(t.player.deck)
    && Modifier(t.player, "spent") == Modifier(p, "spent") + Cost(s[i].card)
  }

  /** `BuyEvent.forward`: with nothing affordable in stock the waiting
      BuyEvents are cleared; otherwise the player must pick an offered pile
      (no Skip), which `table.buy` takes one copy from. */
  function BuyPhase(ctx: Ctx, p: Player, inp: seq<Choice>): (r: Result<Turn>)
    ensures Purchasable(ctx.supply, p) == map[] ==>
              r == Ok(Turn(ctx.(queue := ClearAhead(ctx.queue, BuyEvent)), p, inp))
    ensures r.Err? ==> r.error == NoMoreInput && Purchasable(ctx.supply, p) != map[]
    ensures Purchasable(ctx.supply, p) != map[] ==>
              (r.Ok? <==> exists k :: 0 <= k < |inp| && inp[k].Pick? && inp[k].index in Purchasable(ctx.supply, p))
    ensures r.Ok? && Purchasable(ctx.supply, p) != map[] ==>
              exists i :: BoughtAt(ctx, p, i, r.value)
    ensures |inp| > 0 && inp[0].Pick? && inp[0].index in Purchasable(ctx.supply, p) ==>
              r.Ok? && BoughtAt(ctx, p, inp[0].index, r.value) && r.value.rest == inp[1..]
    ensures r.Ok? ==> IsSuffix(r.value.rest, inp)
  {
    var opts := Purchasable(ctx.supply, p);
    if opts == map[] then
      Ok(Turn(ctx.(queue := ClearAhead(ctx.queue, BuyEvent)), p, inp))
    else
      var a :- Ask(opts, false, inp);
      Ok(BuyAt(ctx, p, a.choice.index, a.rest))
  }

  /** `game_ctx.table.buy(c, player)` on an offered position. */
  function BuyAt(ctx: Ctx, p: Player, i: int, rest: seq<Choice>): (r: Turn)
    requires i in Purchasable(ctx.supply, p)
    ensures BoughtAt(ctx, p, i, r) && r.rest == rest
  {
    TableBuyOffered(ctx.supply, p, i);
    var b := TableBuy(ctx.supply, i, p).value;
    Turn(ctx.(supply := b.supply), b.buyer, rest)
  }

  /** What `table.buy` does to an offered position. */
  lemma TableBuyOffered(s: Supply, p: Player, i: int)
    requires i in Purchasable(s, p)
    ensures 0 <= i < |s| && Offers(CostUpTo(Treasure(p)), s[i]) && TableBuy(s, i, p).Ok?
    ensures var b := TableBuy(s, i, p).value;
            b.card == s[i].card && (Keyed(s) ==> b.supply == Decrement(s, i))
            && b.buyer.name == p.name
            && b.buyer.deck.discard == p.deck.discard + [s[i].card]
            && b.buyer.deck.hand == p.deck.hand && b.buyer.deck.draw == p.deck.draw
            && AllCards(b.buyer.deck) == AllCards(p.deck) + multiset{s[i].card} && Valid(b.buyer.deck)
            && Modifier(b.buyer, "spent") == Modifier(p, "spent") + Cost(s[i].card)
  {
    assert 0 <= i < |s|;
    TableBuyIsBuy(s, i, p);
    BuySupply(s, AtIndex(i), p, false, DISCARD);
    BuyEffect(s, AtIndex(i), p, false, DISCARD);
    var b := TableBuy(s, i, p).value;
    assert b.buyer.deck.discard == GetPile(b.buyer.deck, DISCARD);
    assert b.buyer.deck.hand == GetPile(b.buyer.deck, HAND) == GetPile(p.deck, HAND);
    assert b.buyer.deck.draw == GetPile(b.buyer.deck, DRAW) == GetPile(p.deck, DRAW);
  }

  /** On a keyed supply an accepted purchase never overdraws: the pile had
      a copy left, and the treasure left after paying is not negative. */
  lemma BuyWithinMeans(ctx: Ctx, p: Player, i: int, t: Turn)
    requires Keyed(ctx.supply) && BoughtAt(ctx, p, i, t)
    ensures ctx.supply[i].left >= 1 && t.ctx.supply[i].left >= 0
    ensures Treasure(t.player) == Treasure(p) - Cost(ctx.supply[i].card) >= 0
    ensures Keyed(t.ctx.supply)
  {
    DecrementLeft(ctx.supply, i);
    assert t.ctx.supply == Decrement(ctx.supply, i);
  }

  // ---------------------------------------------------------------------
  // CleanupEvent and SetupEvent
  // ---------------------------------------------------------------------

  /** The size of a hand dealt with `draw_cards(n=5, replace_hand=True)`. */
  const HandSize := 5

  /** `r` is `d` after the old hand was discarded and a new hand of five
      drawn: five cards when the deck has them, taken from the top of the
      draw pile when it holds five; the played pile is not touched. */
  ghost predicate Dealt(d: Deck, r: Deck) {
    |r.hand| == Min(HandSize, |d.draw| + |d.discard| + |d.hand|)
    && r.played == d.played
    && AllCards(r) == AllCards(d) && (Valid(d) ==> Valid(r) && Size(r) == Size(d))
    && (|d.draw| >= HandSize ==>
          r.hand == d.draw[..HandSize] && r.draw == d.draw[HandSize..] && r.discard == d.discard + d.hand)
  }

  /** `draw_cards(n=5, replace_hand=True)`. */
  function Deal(d: Deck): (r: Deck)
    ensures Dealt(d, r)
  {
    DealFacts(d);
    DrawCards(d, HandSize, true)
  }

  lemma DealFacts(d: Deck)
    ensures Dealt(d, DrawCards(d, HandSize, true))
  {
    if |d.draw| < HandSize {
      DealReshuffled(d);
    } else {
      DealFromDraw(d);
    }
  }

  lemma DealFromDraw(d: Deck)
    requires |d.draw| >= HandSize
    ensures Dealt(d, DrawCards(d, HandSize, true))
  {
    DrawWithoutReshuffle(d, HandSize, true);
  }

  lemma DealReshuffled(d: Deck)
    requires |d.draw| < HandSize
    ensures Dealt(d, DrawCards(d, HandSize, true))
  {
    var r := DrawCards(d, HandSize, true);
    assert r.hand[0..] == r.hand;
    assert |DiscardHand(d, true).discard| == |d.discard| + |d.hand|;
    DrawWithReshuffle(d, HandSize, true);
  }

  /** `CleanupEvent.forward`: the modifiers are reset, then a new hand is
      dealt. The played pile stays where it is. */
  function Cleanup(p: Player): (r: Player)
    ensures r.name == p.name && r.modifiers == map[]
    ensures Dealt(p.deck, r.deck)
    ensures Treasure(r) == HandTreasure(Hand(r))
  {
    var q := ResetModifiers(p);
    q.(deck := Deal(q.deck))
  }

  /** `SetupEvent.forward`: a hand is dealt; modifiers are untouched. */
  function Setup(p: Player): (r: Player)
    ensures r.name == p.name && r.modifiers == p.modifiers
    ensures Dealt(p.deck, r.deck)
  {
    p.(deck := Deal(p.deck))
  }

  /** A fresh player's setup deals the top five of the shuffled starter
      deck, leaving five to draw and ten cards in all. */
  lemma SetupFresh(name: string, rng: seq<nat>)
    ensures var p := NewPlayer(name, rng);
            var r := Setup(p);
            |Hand(r)| == 5 && r.deck.hand + r.deck.draw == p.deck.draw
            && r.deck.discard == [] && Size(r.deck) == 10
            && multiset(r.deck.hand + r.deck.draw) == multiset(STARTER_DECK)
  {
    var p := NewPlayer(name, rng);
    FreshDeal(p.deck);
  }

  /** Dealing from a deck with everything in the draw pile, which holds at
      least five cards, splits that pile into the hand and the rest. */
  lemma FreshDeal(d: Deck)
    requires d.hand == [] && d.discard == [] && |d.draw| >= HandSize
    ensures var r := Deal(d);
            r.hand + r.draw == d.draw && r.discard == [] && |r.hand| == HandSize
  {
    assert d.draw == d.draw[..HandSize] + d.draw[HandSize..];
  }

  /** Cleanup leaves the cards played this turn in the played pile: after
      playing a Village and cleaning up, the Village is still there and not
      among the cards that can be drawn. */
  lemma CleanupKeepsPlayed(p: Player)
    requires p.deck.played == [Village]
    ensures var r := Cleanup(p);
            r.deck.played == [Village]
            && multiset(r.deck.draw + r.deck.discard + r.deck.hand)[Village]
               == multiset(p.deck.draw + p.deck.discard + p.deck.hand)[Village]
  {
    var r := Cleanup(p);
    assert AllCards(r.deck) == AllCards(p.deck);
    Unplayed(r.deck);
    Unplayed(p.deck);
  }

  /** The cards outside the played pile. */
  lemma Unplayed(d: Deck)
    ensures multiset(d.draw + d.discard + d.hand) == AllCards(d) - multiset(d.played)
  {
  }
}

=== FILE: players.dfy ===
/** A player (dominion/players/players.py, repeated in dominion/players.py):
    a name, a deck and a map of named modifiers, with the treasure count the
    buy phase uses and the hand option builders. */
module Players {
  import opened Cards
  import opened Decks
  import opened Options

  datatype Player = Player(name: string, deck: Deck, modifiers: map<string, int>)

  /** `Player(name)`: a fresh deck (shuffled by the tape `rng`) and no
      modifiers. */
  function NewPlayer(name: string, rng: seq<nat>): (p: Player)
    ensures p.name == name && p.modifiers == map[]
    ensures Valid(p.deck) && Size(p.deck) == 10 && |p.deck.draw| == 10
    ensures p.deck.hand == [] && p.deck.discard == [] && p.deck.played == []
    ensures multiset(p.deck.draw) == multiset(STARTER_DECK)
  {
    FreshDeck(rng);
    Player(name, NewDeck(STARTER_DECK, rng), map[])
  }

  /** The `hand` property. */
  function Hand(p: Player): seq<Card> {
    p.deck.hand
  }

  /** What one hand card contributes to the treasure count. */
  function TreasureOf(c: Card): int {
    if Kind(c) == TREASURE then Value(c) else 0
  }

  /** The loop of the `treasure` property: the values of the TREASURE-kind
      cards, summed in hand order. */
  function HandTreasure(hand: seq<Card>): (t: int)
    ensures t == Coppers(hand) + 2 * multiset(hand)[Silver] + 3 * multiset(hand)[Gold]
    ensures 0 <= t <= 3 * |hand|
  {
    if |hand| == 0 then 0
    else
      var rest := HandTreasure(hand[1..]);
      TreasureStep(hand, rest);
      TreasureOf(hand[0]) + rest
  }

  /** The Coppers held. */
  function Coppers(hand: seq<Card>): nat {
    multiset(hand)[Copper]
  }

  /** The coins one card is worth in the count: 1, 2 and 3 for the three
      treasures, nothing for any other card. */
  lemma TreasureOfValue(c: Card)
    ensures TreasureOf(c) == if c == Copper then 1 else if c == Silver then 2 else if c == Gold then 3 else 0
  {
    InfoShape(c);
    KindShape(c);
  }

  /** The first card's share added to the count of the rest. */
  lemma TreasureStep(hand: seq<Card>, rest: int)
    requires |hand| > 0
    requires rest == Coppers(hand[1..]) + 2 * multiset(hand[1..])[Silver] + 3 * multiset(hand[1..])[Gold]
    requires 0 <= rest <= 3 * |hand[1..]|
    ensures TreasureOf(hand[0]) + rest == Coppers(hand) + 2 * multiset(hand)[Silver] + 3 * multiset(hand)[Gold]
    ensures 0 <= TreasureOf(hand[0]) + rest <= 3 * |hand|
  {
    TreasureOfValue(hand[0]);
    assert hand == [hand[0]] + hand[1..];
    assert multiset(hand) == multiset{hand[0]} + multiset(hand[1..]);
  }

  /** A card adds to the count exactly when it is a treasure. */
  lemma TreasureOfShape(c: Card)
    ensures TreasureOf(c) > 0 <==> c in {Copper, Silver, Gold}
    ensures TreasureOf(c) == 0 <==> c !in {Copper, Silver, Gold}
  {
    InfoShape(c);
    KindShape(c);
  }

  /** The count splits over a split hand. */
  lemma {:induction false} HandTreasureAppend(a: seq<Card>, b: seq<Card>)
    ensures HandTreasure(a + b) == HandTreasure(a) + HandTreasure(b)
  {
    if |a| == 0 {
      assert a + b == b;
    } else {
      assert (a + b)[0] == a[0];
      assert (a + b)[1..] == a[1..] + b;
      HandTreasureAppend(a[1..], b);
    }
  }

  /** The count depends only on which cards are held, not on their order. */
  lemma HandTreasureOrderFree(a: seq<Card>, b: seq<Card>)
    requires multiset(a) == multiset(b)
    ensures HandTreasure(a) == HandTreasure(b)
  {
  }

  /** The count is zero exactly when the hand holds no treasure. */
  lemma {:induction false} HandTreasureZero(hand: seq<Card>)
    ensures HandTreasure(hand) == 0 <==> Copper !in hand && Silver !in hand && Gold !in hand
  {
    if |hand| > 0 {
      HandTreasureZero(hand[1..]);
      TreasureOfShape(hand[0]);
      assert hand == [hand[0]] + hand[1..];
    }
  }

  /** A modifier's current value, 0 when unset. */
  function Modifier(p: Player, key: string): int {
    if key in p.modifiers then p.modifiers[key] else 0
  }

  /** The `treasure` property: the hand's treasure minus `modifiers['spent']`
      when that key exists. */
  function Treasure(p: Player): (t: int)
    ensures t == Coppers(Hand(p)) + 2 * multiset(Hand(p))[Silver] + 3 * multiset(Hand(p))[Gold]
                 - Modifier(p, "spent")
    ensures "spent" !in p.modifiers ==> t == HandTreasure(Hand(p)) && t >= 0
  {
    var total := HandTreasure(p.deck.hand);
    if "spent" in p.modifiers then total - p.modifiers["spent"] else total
  }

  /** `reset_modifiers`: the map is emptied; name and deck are untouched. */
  function ResetModifiers(p: Player): (r: Player)
    ensures r.modifiers == map[] && r.name == p.name && r.deck == p.deck
    ensures Treasure(r) == HandTreasure(Hand(p))
  {
    p.(modifiers := map[])
  }

  /** `r` is `p` with `'extra_treasure'` raised by `n` and every other
      modifier as it was. */
  ghost predicate Pays(p: Player, r: Player, n: int) {
    Modifier(r, "extra_treasure") == Modifier(p, "extra_treasure") + n
    && forall k :: k != "extra_treasure" ==> Modifier(r, k) == Modifier(p, k)
  }

  /** Paying only looks at the modifiers. */
  lemma PaysFrom(p: Player, q: Player, r: Player, n: int)
    requires q.modifiers == p.modifiers && Pays(q, r, n)
    ensures Pays(p, r, n)
  {
    assert forall k :: Modifier(q, k) == Modifier(p, k);
  }

  /** `set_modifier(key, lambda v: v + delta)`, which the card effects call
      but the package's `Player` class lacks. Chosen meaning: the key's current value,
      0 when unset, is increased by `delta`; nothing else changes. */
  function SetModifier(p: Player, key: string, delta: int): (r: Player)
    ensures key in r.modifiers && Modifier(r, key) == Modifier(p, key) + delta
    ensures forall k :: k != key ==> (k in r.modifiers <==> k in p.modifiers)
    ensures forall k :: k != key ==> Modifier(r, k) == Modifier(p, k)
    ensures r.name == p.name && r.deck == p.deck
  {
    p.(modifiers := p.modifiers[key := Modifier(p, key) + delta])
  }

  /** Two increments of one key are one increment by their sum. */
  lemma SetModifierTwice(p: Player, key: string, a: int, b: int)
    ensures SetModifier(SetModifier(p, key, a), key, b) == SetModifier(p, key, a + b)
  {
  }

  /** Only `'spent'` lowers the treasure: any other key (such as
      `'extra_treasure'`) leaves it alone, and spending lowers it by exactly
      the amount spent. */
  lemma TreasureModifiers(p: Player, key: string, delta: int)
    ensures key != "spent" ==> Treasure(SetModifier(p, key, delta)) == Treasure(p)
    ensures key == "spent" ==> Treasure(SetModifier(p, key, delta)) == Treasure(p) - delta
  {
  }

  /** Which hand positions an option builder keeps. */
  datatype Filter =
    | AnyCard                   // every position
    | OfKind(kind: CardType)    // `card.kind == kind`
    | ActionLike                // `is_action_card(card)`
    | Named(name: string)       // `card.name == name`
    | Among(cards: seq<Card>)   // `card in [...]`, by instance
    | NotIn(marked: seq<int>)   // `idx not in marked`

  predicate Keeps(f: Filter, i: int, c: Card) {
    match f
    case AnyCard => true
    case OfKind(k) => Kind(c) == k
    case ActionLike => IsActionKind(Kind(c))
    case Named(n) => Name(c) == n
    case Among(cs) => c in cs
    case NotIn(m) => i !in m
  }

  function Labels(cards: seq<Card>): (r: seq<string>)
    ensures |r| == |cards| && forall i :: 0 <= i < |cards| ==> r[i] == Name(cards[i])
  {
    seq(|cards|, i requires 0 <= i < |cards| => Name(cards[i]))
  }

  function Mask(cards: seq<Card>, f: Filter): (r: seq<bool>)
    ensures |r| == |cards| && forall i :: 0 <= i < |cards| ==> r[i] == Keeps(f, i, cards[i])
  {
    seq(|cards|, i requires 0 <= i < |cards| => Keeps(f, i, cards[i]))
  }

  /** The hand option builders (`get_playable_actions_as_options`,
      `get_treasures_as_options`, `get_discard_options`, ...): the offered
      keys are exactly the positions whose card passes the filter, each
      labelled with the card's name. */
  function CardOptions(cards: seq<Card>, f: Filter): (r: map<int, string>)
    ensures forall i :: i in r <==> 0 <= i < |cards| && Keeps(f, i, cards[i])
    ensures forall i :: i in r ==> r[i] == Name(cards[i])
  {
    Collect(Labels(cards), Mask(cards, f), |cards|)
  }

  /** `get_playable_actions_as_options`: only plain ACTION cards are offered,
      so Bureaucrat (an attack) and Moat (a reaction) never are. */
  lemma PlayableActions(hand: seq<Card>, i: int)
    ensures i in CardOptions(hand, OfKind(ACTION)) <==>
              0 <= i < |hand| && IsActionKind(Kind(hand[i])) && hand[i] !in {Bureaucrat, Moat}
  {
  }

  /** Moneylender's builder keeps the positions named "Copper", which are
      exactly the Coppers. */
  lemma CopperOptions(hand: seq<Card>, i: int)
    ensures i in CardOptions(hand, Named("Copper")) <==> 0 <= i < |hand| && hand[i] == Copper
  {
    if 0 <= i < |hand| {
      CopperByName(hand[i]);
    }
  }
}

=== FILE: plays.dfy ===
/** What each base-game action card's `play(game_ctx, player)` does: it puts
    the card's events at the front of the queue. The effects themselves run
    later, when the events are forwarded. */
module Plays {
  import opened Cards
  import opened Queue

  /** The event class a card's own first event belongs to: the Self half
      for the attacks and Council Room, the single event otherwise. */
  function FirstRole(c: Card): Role {
    if Addresses(c) then OnSelf else Main
  }

  /** One Other event of card `c` per name in `others`, in that order. */
  function Targets(c: Card, others: seq<string>): (r: seq<Event>)
    ensures |r| == |others|
    ensures forall k :: 0 <= k < |others| ==> r[k] == Event(CardEvent(c, OnOther), others[k])
  {
    seq(|others|, k requires 0 <= k < |others| => Event(CardEvent(c, OnOther), others[k]))
  }

  /** The cards whose first event is followed by one Other event per
      other player. */
  predicate Addresses(c: Card) {
    c in {CouncilRoom, Militia, Witch, Bandit, Bureaucrat}
  }

  /** The phase events a card's list ends with, all for the player. */
  function Bonus(c: Card, name: string): (r: seq<Event>)
    ensures forall i :: 0 <= i < |r| ==> r[i].target == name && r[i].kind in {PlayActionEvent, BuyEvent}
  {
    var pa := Event(PlayActionEvent, name);
    var buy := Event(BuyEvent, name);
    match c
    case Village => [pa, pa]
    case Laboratory | Merchant | Harbinger | Poacher | Sentry => [pa]
    case Market => [pa, buy]
    case Festival => [pa, pa, buy]
    case CouncilRoom => [buy]
    case _ => []
  }

  /** The list each `play` builds for `player.name`, given the other
      players in the order `get_other_players` returns them. Only action
      cards have a `play`. */
  function PlayEvents(c: Card, name: string, others: seq<string>): (r: seq<Event>)
    requires IsActionKind(Kind(c))
    ensures |r| >= 1 && r[0] == Event(CardEvent(c, FirstRole(c)), name)
    ensures Addresses(c) ==> |r| > |others| && r[1..1 + |others|] == Targets(c, others)
    ensures forall i :: 0 <= i < |r| ==> r[i].kind != SetupEvent && r[i].kind != CleanupEvent
    ensures forall i :: 0 <= i < |r| && r[i].kind.CardEvent? ==> r[i].kind.card == c
    ensures forall i :: 0 <= i < |r| && r[i].kind != CardEvent(c, OnOther) ==> r[i].target == name
  {
    var others := if Addresses(c) then Targets(c, others) else [];
    var r := [Event(CardEvent(c, FirstRole(c)), name)] + others + Bonus(c, name);
    assert r[1..1 + |others|] == others;
    r
  }

  /** `card.play(game_ctx, player)`: the card's events go to the front of
      the queue, addressed to the player and to everyone else in seat order
      from the next seat. */
  function Play(ctx: Ctx, c: Card, name: string): (r: Ctx)
    requires IsActionKind(Kind(c))
    ensures r.order == ctx.order && r.supply == ctx.supply
    ensures r.queue == PlayEvents(c, name, OtherPlayers(ctx.order, name)) + ctx.queue
  {
    AddEvents(ctx, PlayEvents(c, name, OtherPlayers(ctx.order, name)), FRONT)
  }

  /** The +Actions printed on each card. */
  function PlusActions(c: Card): nat {
    match c
    case Village | Festival => 2
    case Laboratory | Market | Merchant | Harbinger | Poacher | Sentry => 1
    case _ => 0
  }

  /** The +Buys printed on each card. */
  function PlusBuys(c: Card): nat {
    match c
    case Market | Festival | CouncilRoom => 1
    case _ => 0
  }

  /** How many events of kind `k` a list holds. */
  function Count(es: seq<Event>, k: EventKind): (n: nat)
    ensures n <= |es|
  {
    if |es| == 0 then 0
    else Count(es[..|es| - 1], k) + (if es[|es| - 1].kind == k then 1 else 0)
  }

  lemma {:induction false} CountAppend(a: seq<Event>, b: seq<Event>, k: EventKind)
    ensures Count(a + b, k) == Count(a, k) + Count(b, k)
    decreases |b|
  {
    if |b| > 0 {
      assert (a + b)[..|a + b| - 1] == a + b[..|b| - 1];
      CountAppend(a, b[..|b| - 1], k);
    } else {
      assert a + b == a;
    }
  }

  lemma {:induction false} CountTargets(c: Card, others: seq<string>, k: EventKind)
    requires !k.CardEvent?
    ensures Count(Targets(c, others), k) == 0
    decreases |others|
  {
    if |others| > 0 {
      var n := |others| - 1;
      assert Targets(c, others)[..n] == Targets(c, others[..n]);
      CountTargets(c, others[..n], k);
    }
  }

  /** A played card grants exactly the extra action and buy phases printed
      on it: one PlayActionEvent per +Action and one BuyEvent per +Buy, for
      the player who played it. */
  lemma PlayGrants(c: Card, name: string, others: seq<string>)
    requires IsActionKind(Kind(c))
    ensures Count(PlayEvents(c, name, others), PlayActionEvent) == PlusActions(c)
    ensures Count(PlayEvents(c, name, others), BuyEvent) == PlusBuys(c)
  {
    var self := Event(CardEvent(c, FirstRole(c)), name);
    var t := if Addresses(c) then Targets(c, others) else [];
    assert PlayEvents(c, name, others) == [self] + t + Bonus(c, name);
    BonusGrants(c, name, PlayActionEvent);
    BonusGrants(c, name, BuyEvent);
    CountThree(self, self, self, PlayActionEvent);
    CountThree(self, self, self, BuyEvent);
    CountTargets(c, others, PlayActionEvent);
    CountTargets(c, others, BuyEvent);
    CountAppend([self], t, PlayActionEvent);
    CountAppend([self] + t, Bonus(c, name), PlayActionEvent);
    CountAppend([self], t, BuyEvent);
    CountAppend([self] + t, Bonus(c, name), BuyEvent);
  }

  lemma BonusGrants(c: Card, name: string, k: EventKind)
    requires k in {PlayActionEvent, BuyEvent}
    ensures Count(Bonus(c, name), k) == if k == PlayActionEvent then PlusActions(c) else PlusBuys(c)
  {
    var pa := Event(PlayActionEvent, name);
    var buy := Event(BuyEvent, name);
    match c
    case Festival => CountThree(pa, pa, buy, k);
    case Village => CountThree(pa, pa, buy, k);
    case Market => CountThree(pa, buy, buy, k);
    case CouncilRoom => CountThree(buy, buy, buy, k);
    case Laboratory | Merchant | Harbinger | Poacher | Sentry => CountThree(pa, pa, pa, k);
    case _ =>
  }

  /** The 0/1 contribution of one event to Count. */
  function Is(e: Event, k: EventKind): nat {
    if e.kind == k then 1 else 0
  }

  lemma CountThree(a: Event, b: Event, c: Event, k: EventKind)
    ensures Count([a], k) == Is(a, k)
    ensures Count([a, b], k) == Is(a, k) + Is(b, k)
    ensures Count([a, b, c], k) == Is(a, k) + Is(b, k) + Is(c, k)
  {
    assert [a, b, c][..2] == [a, b];
    assert [a, b][..1] == [a];
    assert [a][..0] == [];
  }


  /** Every other player receives the attack (or Council Room's draw)
      exactly once, and the player who played it never does. */
  lemma AttackReachesOthers(ctx: Ctx, c: Card, name: string)
    requires Addresses(c)
    requires name in ctx.order
    requires forall i, j :: 0 <= i < j < |ctx.order| ==> ctx.order[i] != ctx.order[j]
    ensures var r := PlayEvents(c, name, OtherPlayers(ctx.order, name));
            |r| >= 1 + |ctx.order| - 1
            && forall k :: 1 <= k < |ctx.order| ==> r[k].kind == CardEvent(c, OnOther) && r[k].target != name
  {
    var others := OtherPlayers(ctx.order, name);
    var r := PlayEvents(c, name, others);
    OthersExcludeSelf(ctx.order, name);
    forall k | 1 <= k < |ctx.order|
      ensures r[k].kind == CardEvent(c, OnOther) && r[k].target != name
    {
      assert r[1..1 + |others|][k - 1] == Targets(c, others)[k - 1];
      assert others[k - 1] in others;
    }
  }

  /** Throne Room plays the chosen card twice: the card's events are queued
      twice, ahead of everything that was waiting. */
  lemma PlayTwice(ctx: Ctx, c: Card, name: string)
    requires IsActionKind(Kind(c))
    ensures var once := PlayEvents(c, name, OtherPlayers(ctx.order, name));
            Play(Play(ctx, c, name), c, name).queue == once + once + ctx.queue
  {
  }
}

=== FILE: queue.dfy ===
/** The game context (dominion/game.py): the seating order, the event queue
    and the table, with the queue helpers of dominion/events.py. */
module Queue {
  import opened Wrappers
  import opened Cards
  import opened Supplies

  /** Where `add_event`/`add_events` put new events. Only BACK and FRONT
      are acted on; the other two leave the queue as it is. */
  datatype QueuePosition = BACK | FRONT | AFTER_NEXT | BEFORE_NEXT_BUY

  /** Which of a card's event classes: the single event of most cards, or
      the Self/Other halves of the attacks and of Council Room. */
  datatype Role = Main | OnSelf | OnOther

  /** The class of an event. Two events have the same class name exactly
      when they have the same kind. */
  datatype EventKind =
    | SetupEvent
    | PlayActionEvent
    | BuyEvent
    | CleanupEvent
    | CardEvent(card: Card, role: Role)

  /** An event and the name of the player it targets. */
  datatype Event = Event(kind: EventKind, target: string)

  /** `GameContext`: `player_order`, `event_queue` and `table`. */
  datatype Ctx = Ctx(order: seq<string>, queue: seq<Event>, supply: Supply)

  /** `add_event(event, where)`. */
  function AddEvent(ctx: Ctx, e: Event, where: QueuePosition): (r: Ctx)
    ensures r.order == ctx.order && r.supply == ctx.supply
    ensures where == BACK ==> r.queue == ctx.queue + [e]
    ensures where == FRONT ==> r.queue == [e] + ctx.queue
    ensures where != BACK && where != FRONT ==> r == ctx
  {
    match where
    case BACK => ctx.(queue := ctx.queue + [e])
    case FRONT => ctx.(queue := [e] + ctx.queue)
    case _ => ctx
  }

  /** `add_events(events, where)`. */
  function AddEvents(ctx: Ctx, es: seq<Event>, where: QueuePosition): (r: Ctx)
    ensures r.order == ctx.order && r.supply == ctx.supply
    ensures where == BACK ==> r.queue == ctx.queue + es
    ensures where == FRONT ==> r.queue == es + ctx.queue
    ensures where != BACK && where != FRONT ==> r == ctx
  {
    match where
    case BACK => ctx.(queue := ctx.queue + es)
    case FRONT => ctx.(queue := es + ctx.queue)
    case _ => ctx
  }

  /** Adding one event is adding the list holding it. */
  lemma AddEventIsAddEvents(ctx: Ctx, e: Event, where: QueuePosition)
    ensures AddEvent(ctx, e, where) == AddEvents(ctx, [e], where)
  {
  }

  /** Adding events one at a time at the back, as `__init__` and
      `get_next_event` do, is one `add_events` of them all. */
  lemma {:induction false} AddEachBack(ctx: Ctx, es: seq<Event>)
    ensures AddBack(ctx, es) == AddEvents(ctx, es, BACK)
    decreases |es|
  {
    if |es| > 0 {
      AddEachBack(AddEvent(ctx, es[0], BACK), es[1..]);
      assert ctx.queue + [es[0]] + es[1..] == ctx.queue + es;
    }
  }

  /** `add_event(e)` for each `e` in turn. */
  function AddBack(ctx: Ctx, es: seq<Event>): Ctx
    decreases |es|
  {
    if |es| == 0 then ctx else AddBack(AddEvent(ctx, es[0], BACK), es[1..])
  }

  /** The setup loop of `__init__`: one SetupEvent per player, in seating
      order, behind whatever is queued. */
  function AddSetups(ctx: Ctx, names: seq<string>): (r: Ctx)
    ensures r.order == ctx.order && r.supply == ctx.supply
    ensures |r.queue| == |ctx.queue| + |names| && r.queue[..|ctx.queue|] == ctx.queue
    ensures forall i :: 0 <= i < |names| ==> r.queue[|ctx.queue| + i] == Event(SetupEvent, names[i])
    decreases |names|
  {
    if |names| == 0 then ctx
    else
      var r := AddSetups(AddEvent(ctx, Event(SetupEvent, names[0]), BACK), names[1..]);
      assert r.queue[..|ctx.queue| + 1][..|ctx.queue|] == r.queue[..|ctx.queue|];
      r
  }

  /** `GameContext(player_names)`: the table is built for that many players
      (its random kingdom picks are the parameter `random`) and the queue
      holds one SetupEvent per player in seating order. */
  function NewContext(names: seq<string>, random: seq<Card>): (r: Ctx)
    ensures r.order == names && r.supply == NewTable(|names|, random)
    ensures |r.queue| == |names|
    ensures forall i :: 0 <= i < |names| ==> r.queue[i] == Event(SetupEvent, names[i])
  {
    AddSetups(Ctx(names, [], NewTable(|names|, random)), names)
  }

  /** The refill loop of `get_next_event`: a PlayActionEvent, a BuyEvent and
      a CleanupEvent per player, in seating order. */
  function AddTurns(ctx: Ctx, names: seq<string>): (r: Ctx)
    ensures r.order == ctx.order && r.supply == ctx.supply
    ensures |r.queue| == |ctx.queue| + 3 * |names| && r.queue[..|ctx.queue|] == ctx.queue
    ensures forall i :: 0 <= i < |names| ==>
              r.queue[|ctx.queue| + 3 * i] == Event(PlayActionEvent, names[i])
              && r.queue[|ctx.queue| + 3 * i + 1] == Event(BuyEvent, names[i])
              && r.queue[|ctx.queue| + 3 * i + 2] == Event(CleanupEvent, names[i])
    decreases |names|
  {
    if |names| == 0 then ctx
    else
      var n := names[0];
      var c1 := AddEvent(AddEvent(AddEvent(ctx, Event(PlayActionEvent, n), BACK), Event(BuyEvent, n), BACK),
                         Event(CleanupEvent, n), BACK);
      var r := AddTurns(c1, names[1..]);
      assert r.queue[..|c1.queue|][..|ctx.queue|] == r.queue[..|ctx.queue|];
      r
  }

  /** What `get_next_event` returns: the event and the context after it. */
  datatype Next = Next(event: Event, ctx: Ctx)

  /** `get_next_event`: an empty queue is first refilled with one turn per
      player; then the front event is popped. With no players the pop of
      an empty list raises IndexError. */
  function GetNextEvent(ctx: Ctx): (r: Result<Next>)
    ensures r.Err? <==> ctx.queue == [] && ctx.order == []
    ensures r.Err? ==> r.error == IndexError
    ensures r.Ok? ==> r.value.ctx.order == ctx.order && r.value.ctx.supply == ctx.supply
    ensures ctx.queue != [] ==> r == Ok(Next(ctx.queue[0], ctx.(queue := ctx.queue[1..])))
    ensures ctx.queue == [] && ctx.order != [] ==>
              r.Ok? && r.value.event == Event(PlayActionEvent, ctx.order[0])
              && |r.value.ctx.queue| == 3 * |ctx.order| - 1
              && r.value.ctx.queue[0] == Event(BuyEvent, ctx.order[0])
              && r.value.ctx.queue[1] == Event(CleanupEvent, ctx.order[0])
  {
    var full := if ctx.queue == [] then AddTurns(ctx, ctx.order) else ctx;
    if full.queue == [] then Err(IndexError)
    else Ok(Next(full.queue[0], full.(queue := full.queue[1..])))
  }

  /** A refill lays out every player's turn: the event `3 * i + j` places
      from the front is phase `j` of player `i`. */
  lemma RefillTurns(ctx: Ctx, i: int)
    requires ctx.queue == [] && 0 <= i < |ctx.order|
    ensures var q := AddTurns(ctx, ctx.order).queue;
            q[3 * i] == Event(PlayActionEvent, ctx.order[i])
            && q[3 * i + 1] == Event(BuyEvent, ctx.order[i])
            && q[3 * i + 2] == Event(CleanupEvent, ctx.order[i])
  {
    var r := AddTurns(ctx, ctx.order);
    assert |ctx.queue| == 0;
    assert r.queue[|ctx.queue| + 3 * i] == Event(PlayActionEvent, ctx.order[i]);
  }

  /** An event added at the front is the next one out, and what remains is
      the queue as it was. */
  lemma FrontIsNext(ctx: Ctx, e: Event)
    ensures GetNextEvent(AddEvent(ctx, e, FRONT)) == Ok(Next(e, ctx))
  {
    assert ([e] + ctx.queue)[1..] == ctx.queue;
  }

  /** Events added at the front come out first, in their order. */
  lemma FrontEventsFirst(ctx: Ctx, es: seq<Event>)
    requires |es| > 0
    ensures GetNextEvent(AddEvents(ctx, es, FRONT)) == Ok(Next(es[0], AddEvents(ctx, es[1..], FRONT)))
  {
    assert (es + ctx.queue)[1..] == es[1..] + ctx.queue;
  }

  /** An event added at the back does not overtake a waiting one. */
  lemma BackWaits(ctx: Ctx, e: Event)
    requires ctx.queue != []
    ensures GetNextEvent(AddEvent(ctx, e, BACK)).Ok?
    ensures GetNextEvent(AddEvent(ctx, e, BACK)).value.event == ctx.queue[0]
    ensures GetNextEvent(AddEvent(ctx, e, BACK)).value.ctx.queue == ctx.queue[1..] + [e]
  {
    assert (ctx.queue + [e])[1..] == ctx.queue[1..] + [e];
  }

  /** `reached_end`: the written game never ends. */
  predicate ReachedEnd(ctx: Ctx) {
    false
  }

  /** `get_num_events(ctx, self)`: one for the event itself plus the events
      of its class waiting at the front of the queue. */
  function NumEvents(queue: seq<Event>, kind: EventKind): (n: nat)
    ensures 1 <= n <= |queue| + 1
    ensures forall i :: 0 <= i < n - 1 ==> queue[i].kind == kind
    ensures n - 1 < |queue| ==> queue[n - 1].kind != kind
  {
    if |queue| == 0 || queue[0].kind != kind then 1
    else 1 + NumEvents(queue[1..], kind)
  }

  /** The run counted by NumEvents is the longest one: any prefix of
      events of the kind is no longer. */
  lemma {:induction false} NumEventsLongest(queue: seq<Event>, kind: EventKind, k: nat)
    requires k <= |queue| && forall i :: 0 <= i < k ==> queue[i].kind == kind
    ensures k <= NumEvents(queue, kind) - 1
  {
    if k > 0 {
      assert queue[0].kind == kind;
      NumEventsLongest(queue[1..], kind, k - 1);
    }
  }

  /** The loop of `clear_events_ahead_of_self`, from position `idx`. */
  function ClearFrom(queue: seq<Event>, kind: EventKind, idx: nat): seq<Event>
    requires idx <= |queue|
    decreases |queue| - idx
  {
    if idx == |queue| then queue
    else if queue[idx].kind != kind then queue[idx..]
    else ClearFrom(queue, kind, idx + 1)
  }

  /** `clear_events_ahead_of_self(ctx, self)`: the waiting events of the
      same class are dropped, but only when an event of another class comes
      after them; a queue holding only that class is left whole. */
  function ClearAhead(queue: seq<Event>, kind: EventKind): (r: seq<Event>)
    ensures (exists i :: 0 <= i < |queue| && queue[i].kind != kind) ==>
              r == queue[NumEvents(queue, kind) - 1..]
    ensures (forall i :: 0 <= i < |queue| ==> queue[i].kind == kind) ==> r == queue
  {
    ClearFromRun(queue, kind, 0);
    ClearFrom(queue, kind, 0)
  }

  lemma {:induction false} ClearFromRun(queue: seq<Event>, kind: EventKind, idx: nat)
    requires idx <= |queue| && forall i :: 0 <= i < idx ==> queue[i].kind == kind
    ensures (exists i :: idx <= i < |queue| && queue[i].kind != kind) ==>
              ClearFrom(queue, kind, idx) == queue[NumEvents(queue, kind) - 1..]
    ensures (forall i :: idx <= i < |queue| ==> queue[i].kind == kind) ==> ClearFrom(queue, kind, idx) == queue
    decreases |queue| - idx
  {
    if idx < |queue| {
      if queue[idx].kind != kind {
        NumEventsLongest(queue, kind, idx);
      } else {
        ClearFromRun(queue, kind, idx + 1);
      }
    }
  }

  /** After clearing, the event at the front (if any) is of another class,
      so a second clear changes nothing and the count is back to one. */
  lemma ClearAheadSettles(queue: seq<Event>, kind: EventKind)
    ensures NumEvents(ClearAhead(queue, kind), kind) == 1 || ClearAhead(queue, kind) == queue
    ensures ClearAhead(ClearAhead(queue, kind), kind) == ClearAhead(queue, kind)
  {
    var r := ClearAhead(queue, kind);
    if exists i :: 0 <= i < |queue| && queue[i].kind != kind {
      var n := NumEvents(queue, kind) - 1;
      assert r[0] == queue[n];
      assert NumEvents(r, kind) == 1;
      var i :| 0 <= i < |r| && r[i].kind != kind;
      assert r[..0] == [];
    }
  }

  /** The first position of `name` in the seating order. */
  function Seat(order: seq<string>, name: string): (r: Option<nat>)
    ensures r.Some? ==> r.value < |order| && order[r.value] == name
                        && forall j :: 0 <= j < r.value ==> order[j] != name
    ensures r.None? <==> name !in order
  {
    if |order| == 0 then None
    else if order[0] == name then Some(0)
    else match Seat(order[1..], name)
      case None => None
      case Some(k) => Some(k + 1)
  }

  /** The players the attacks and Council Room address, for a player
      seated at position `i`: everyone else, starting with the next seat
      and wrapping around. A name not in the order addresses everybody. */
  function OtherPlayers(order: seq<string>, name: string): (r: seq<string>)
    ensures name !in order ==> r == order
    ensures name in order ==>
              |r| == |order| - 1
              && forall k :: 0 <= k < |r| ==> r[k] == order[(Seat(order, name).value + 1 + k) % |order|]
    ensures multiset(r) + (if name in order then multiset{name} else multiset{}) == multiset(order)
  {
    match Seat(order, name)
    case None => order
    case Some(i) =>
      var r := order[i + 1..] + order[..i];
      Rotation(order, i);
      RotationCount(order, i);
      r
  }

  /** Entry `k` of the rotation that starts after seat `i`. */
  lemma Rotation(order: seq<string>, i: nat)
    requires i < |order|
    ensures var r := order[i + 1..] + order[..i];
            forall k :: 0 <= k < |r| ==> r[k] == order[(i + 1 + k) % |order|]
  {
    var r := order[i + 1..] + order[..i];
    var n := |order|;
    forall k | 0 <= k < |r|
      ensures r[k] == order[(i + 1 + k) % n]
    {
      if k < n - i - 1 {
        ModBelow(i + 1 + k, n);
        assert r[k] == order[i + 1..][k];
      } else {
        ModWrap(i + 1 + k, n);
        assert r[k] == order[..i][k - (n - i - 1)];
      }
    }
  }

  lemma ModBelow(a: nat, n: nat)
    requires a < n
    ensures a % n == a
  {
  }

  lemma ModWrap(a: nat, n: nat)
    requires n <= a < 2 * n
    ensures a % n == a - n
  {
  }

  lemma RotationCount(order: seq<string>, i: nat)
    requires i < |order|
    ensures multiset(order[i + 1..] + order[..i]) + multiset{order[i]} == multiset(order)
  {
    assert order == order[..i] + [order[i]] + order[i + 1..];
  }

  /** With distinct names a player is never among their own others. */
  lemma OthersExcludeSelf(order: seq<string>, name: string)
    requires name in order
    requires forall i, j :: 0 <= i < j < |order| ==> order[i] != order[j]
    ensures name !in OtherPlayers(order, name)
  {
    var i := Seat(order, name).value;
    var r := order[i + 1..] + order[..i];
    assert OtherPlayers(order, name) == r;
    forall k | 0 <= k < |r|
      ensures r[k] != name
    {
      if k < |order[i + 1..]| {
        assert r[k] == order[i + 1 + k];
      } else {
        assert r[k] == order[k - |order[i + 1..]|];
      }
    }
  }
}

=== FILE: seqs.dfy ===
/** Sequence surgery shared by the deck and the card effects: Python's
    `list.remove`, reversal of repeated `insert(0, x)`, and the
    "indices marked / not marked" list comprehensions. */
module Seqs {
  import opened Wrappers

  /** `list.remove(x)`: drops the first occurrence of `x`. */
  function RemoveFirst<T(==)>(s: seq<T>, x: T): (r: seq<T>)
    requires x in s
    ensures |r| == |s| - 1
    ensures multiset(r) == multiset(s) - multiset{x}
  {
    assert s == [s[0]] + s[1..];
    if s[0] == x then s[1..] else [s[0]] + RemoveFirst(s[1..], x)
  }

  /** `list.index(x)`: the position of the first occurrence of `x`. */
  function FirstIndex<T(==)>(s: seq<T>, x: T): (i: nat)
    requires x in s
    ensures i < |s| && s[i] == x && x !in s[..i]
  {
    if s[0] == x then 0
    else
      var j := FirstIndex(s[1..], x);
      assert s[..j + 1] == [s[0]] + s[1..][..j];
      j + 1
  }

  /** `list.remove(x)` cuts out exactly the first occurrence of `x` and
      keeps every other element in order. */
  lemma {:induction false} RemoveFirstIsFirst<T>(s: seq<T>, x: T)
    requires x in s
    ensures RemoveFirst(s, x) == s[..FirstIndex(s, x)] + s[FirstIndex(s, x) + 1..]
  {
    if s[0] == x {
      assert s[..0] == [];
    } else {
      var t := s[1..];
      RemoveFirstIsFirst(t, x);
      var j := FirstIndex(t, x);
      CutAfterHead(s, j);
    }
  }

  /** Cutting position `j + 1` out of `s` is keeping its head and cutting
      position `j` out of its tail. */
  lemma CutAfterHead<T>(s: seq<T>, j: nat)
    requires j + 1 < |s|
    ensures [s[0]] + (s[1..][..j] + s[1..][j + 1..]) == s[..j + 1] + s[j + 2..]
  {
    assert [s[0]] + s[1..][..j] == s[..j + 1];
    assert s[1..][j + 1..] == s[j + 2..];
  }

  /** `for x in xs: s.remove(x)`; None when some `remove` would raise. */
  function RemoveEach<T(==)>(s: seq<T>, xs: seq<T>): (r: Option<seq<T>>)
    decreases |xs|
  {
    if |xs| == 0 then Some(s)
    else if xs[0] in s then RemoveEach(RemoveFirst(s, xs[0]), xs[1..])
    else None
  }

  /** Removing one by one succeeds exactly when `xs` is a sub-multiset of `s`,
      and then leaves precisely the multiset difference. */
  lemma {:induction false} RemoveEachSpec<T>(s: seq<T>, xs: seq<T>)
    ensures RemoveEach(s, xs).Some? <==> multiset(xs) <= multiset(s)
    ensures RemoveEach(s, xs).Some? ==>
              multiset(RemoveEach(s, xs).value) == multiset(s) - multiset(xs)
              && |RemoveEach(s, xs).value| == |s| - |xs|
    decreases |xs|
  {
    if |xs| > 0 {
      var x := xs[0];
      assert xs == [x] + xs[1..];
      assert multiset(xs) == multiset{x} + multiset(xs[1..]);
      if x in s {
        var s' := RemoveFirst(s, x);
        RemoveEachSpec(s', xs[1..]);
        SubAfterRemove(multiset(s), x, multiset(xs[1..]));
      } else {
        assert multiset(xs)[x] >= 1;
        assert multiset(s)[x] == 0;
      }
    }
  }

  /** Taking one `x` out of `m` leaves room for `a` exactly when `m` has
      room for `a` and that `x`. */
  lemma SubAfterRemove<T>(m: multiset<T>, x: T, a: multiset<T>)
    requires x in m
    ensures a <= m - multiset{x} <==> multiset{x} + a <= m
    ensures m - multiset{x} - a == m - (multiset{x} + a)
  {
    if a <= m - multiset{x} {
      forall y ensures (multiset{x} + a)[y] <= m[y] {
        assert a[y] <= (m - multiset{x})[y];
      }
    }
    if multiset{x} + a <= m {
      forall y ensures a[y] <= (m - multiset{x})[y] {
        assert (multiset{x} + a)[y] <= m[y];
      }
    }
  }

  lemma AppendAssoc<T>(a: seq<T>, b: seq<T>, c: seq<T>)
    ensures a + (b + c) == (a + b) + c
  {
  }

  function Reverse<T>(s: seq<T>): (r: seq<T>)
    ensures |r| == |s|
    ensures forall i :: 0 <= i < |s| ==> r[i] == s[|s| - 1 - i]
  {
    if |s| == 0 then [] else Reverse(s[1..]) + [s[0]]
  }

  lemma ReverseMultiset<T>(s: seq<T>)
    ensures multiset(Reverse(s)) == multiset(s)
  {
    if |s| > 0 {
      ReverseMultiset(s[1..]);
      assert s == [s[0]] + s[1..];
    }
  }

  /** `[s[c] for c in marked]`. */
  function Picked<T>(s: seq<T>, marked: seq<int>): (r: seq<T>)
    requires InRange(marked, |s|)
    ensures |r| == |marked|
    ensures forall k :: 0 <= k < |marked| ==> r[k] == s[marked[k]]
  {
    seq(|marked|, k requires 0 <= k < |marked| => s[marked[k]])
  }

  /** `[x for idx, x in enumerate(s) if idx not in marked]`. */
  function Unmarked<T>(s: seq<T>, marked: seq<int>): (r: seq<T>)
    ensures |r| <= |s|
    ensures forall x :: x in r ==> x in s
  {
    if |s| == 0 then []
    else Unmarked(s[..|s| - 1], marked) + (if |s| - 1 in marked then [] else [s[|s| - 1]])
  }

  predicate InRange(marked: seq<int>, n: int) {
    forall k :: 0 <= k < |marked| ==> 0 <= marked[k] < n
  }

  predicate Distinct<T(==)>(s: seq<T>) {
    forall i, j :: 0 <= i < j < |s| ==> s[i] != s[j]
  }

  /** The multiset of the entries of `s` at the positions listed in `marked`. */
  ghost function AtMarked<T>(s: seq<T>, marked: seq<int>): multiset<T>
  {
    if |s| == 0 then multiset{}
    else AtMarked(s[..|s| - 1], marked)
         + (if |s| - 1 in marked then multiset{s[|s| - 1]} else multiset{})
  }

  lemma {:induction false} AtMarkedPlusUnmarked<T>(s: seq<T>, marked: seq<int>)
    ensures AtMarked(s, marked) + multiset(Unmarked(s, marked)) == multiset(s)
  {
    if |s| > 0 {
      var n := |s| - 1;
      AtMarkedPlusUnmarked(s[..n], marked);
      assert s == s[..n] + [s[n]];
    }
  }

  /** Only membership of the positions below |s| matters. */
  lemma {:induction false} AtMarkedSameMembers<T>(s: seq<T>, a: seq<int>, b: seq<int>)
    requires forall i :: 0 <= i < |s| ==> (i in a <==> i in b)
    ensures AtMarked(s, a) == AtMarked(s, b)
  {
    if |s| > 0 {
      AtMarkedSameMembers(s[..|s| - 1], a, b);
    }
  }

  lemma {:induction false} AtMarkedCons<T>(s: seq<T>, c: int, rest: seq<int>)
    requires 0 <= c < |s| && c !in rest
    ensures AtMarked(s, [c] + rest) == AtMarked(s, rest) + multiset{s[c]}
  {
    var n := |s| - 1;
    if c == n {
      AtMarkedSameMembers(s[..n], [c] + rest, rest);
    } else {
      AtMarkedCons(s[..n], c, rest);
    }
  }

  lemma {:induction false} PickedIsAtMarked<T>(s: seq<T>, marked: seq<int>)
    requires InRange(marked, |s|) && Distinct(marked)
    ensures multiset(Picked(s, marked)) == AtMarked(s, marked)
    decreases |marked|
  {
    if |marked| == 0 {
      AtMarkedSameMembers(s, marked, []);
      AtMarkedEmpty(s);
    } else {
      var c, rest := marked[0], marked[1..];
      TailMarks(s, marked);
      calc {
        multiset(Picked(s, marked));
      == { PickedCons(s, marked); }
        multiset([s[c]] + Picked(s, rest));
      ==
        multiset{s[c]} + multiset(Picked(s, rest));
      == { PickedIsAtMarked(s, rest); }
        multiset{s[c]} + AtMarked(s, rest);
      == { AtMarkedCons(s, c, rest); assert marked == [c] + rest; }
        AtMarked(s, marked);
      }
    }
  }

  /** The marks after the first are distinct, in range, and miss the first. */
  lemma TailMarks<T>(s: seq<T>, marked: seq<int>)
    requires InRange(marked, |s|) && Distinct(marked) && |marked| > 0
    ensures InRange(marked[1..], |s|) && Distinct(marked[1..]) && marked[0] !in marked[1..]
  {
    var rest := marked[1..];
    forall k | 0 <= k < |rest| ensures 0 <= rest[k] < |s| && rest[k] != marked[0] {
      assert rest[k] == marked[k + 1];
    }
    forall i, j | 0 <= i < j < |rest| ensures rest[i] != rest[j] {
      assert rest[i] == marked[i + 1] && rest[j] == marked[j + 1];
    }
  }

  lemma PickedCons<T>(s: seq<T>, marked: seq<int>)
    requires InRange(marked, |s|) && |marked| > 0 && InRange(marked[1..], |s|)
    ensures Picked(s, marked) == [s[marked[0]]] + Picked(s, marked[1..])
  {
    var a, b := Picked(s, marked), [s[marked[0]]] + Picked(s, marked[1..]);
    forall k | 0 <= k < |a| ensures a[k] == b[k] {
      if k > 0 {
        assert b[k] == Picked(s, marked[1..])[k - 1];
      }
    }
  }

  lemma AtMarkedEmpty<T>(s: seq<T>)
    ensures AtMarked(s, []) == multiset{}
  {
  }

  /** Splitting a list by a set of distinct, in-range marks loses nothing:
      the picked entries and the unmarked entries together are the list. */
  lemma PickedUnmarkedSplit<T>(s: seq<T>, marked: seq<int>)
    requires InRange(marked, |s|) && Distinct(marked)
    ensures multiset(Picked(s, marked)) + multiset(Unmarked(s, marked)) == multiset(s)
    ensures |Unmarked(s, marked)| == |s| - |marked|
  {
    PickedIsAtMarked(s, marked);
    AtMarkedPlusUnmarked(s, marked);
    assert |multiset(Picked(s, marked))| + |multiset(Unmarked(s, marked))| == |multiset(s)|;
  }

  /** `b` ends with `a`: what is left of an input stream after reading a prefix. */
  predicate IsSuffix<T(==)>(a: seq<T>, b: seq<T>) {
    |a| <= |b| && a == b[|b| - |a|..]
  }

  lemma SuffixTrans<T>(a: seq<T>, b: seq<T>, c: seq<T>)
    requires IsSuffix(a, b) && IsSuffix(b, c)
    ensures IsSuffix(a, c)
  {
  }

  /** Nothing marked inside `s` leaves it whole. */
  lemma {:induction false} UnmarkedNone<T>(s: seq<T>, marked: seq<int>)
    requires forall k :: 0 <= k < |s| ==> k !in marked
    ensures Unmarked(s, marked) == s
    decreases |s|
  {
    if |s| > 0 {
      UnmarkedNone(s[..|s| - 1], marked);
    }
  }

  /** Marking one position removes exactly that entry. */
  lemma {:induction false} UnmarkedOne<T>(s: seq<T>, i: int)
    requires 0 <= i < |s|
    ensures Unmarked(s, [i]) == s[..i] + s[i + 1..]
    decreases |s|
  {
    var n := |s| - 1;
    if i == n {
      UnmarkedNone(s[..n], [i]);
    } else {
      UnmarkedOne(s[..n], i);
      assert s[..n][..i] == s[..i];
      assert s[..n][i + 1..] + [s[n]] == s[i + 1..];
    }
  }
}

=== FILE: shuffle.dfy ===
/** `random.shuffle` as a deterministic function of a tape of random picks.
    The tape stands for the interpreter's random state: at every step the
    entry at position `pick mod remaining` is taken next. Every ordering of
    the input can be produced by some tape, so proving a property for every
    tape proves it for every shuffle. */
module Shuffling {

  function Head(picks: seq<nat>): nat {
    if |picks| > 0 then picks[0] else 0
  }

  function Tail(picks: seq<nat>): seq<nat> {
    if |picks| > 0 then picks[1..] else []
  }

  function Without<T>(s: seq<T>, k: nat): seq<T>
    requires k < |s|
  {
    s[..k] + s[k + 1..]
  }

  lemma WithoutMultiset<T>(s: seq<T>, k: nat)
    requires k < |s|
    ensures multiset(Without(s, k)) == multiset(s) - multiset{s[k]}
    ensures multiset(s) == multiset(Without(s, k)) + multiset{s[k]}
  {
    assert s == s[..k] + [s[k]] + s[k + 1..];
  }

  lemma SmallMod(k: nat, n: nat)
    requires k < n
    ensures k % n == k
  {
  }

  /** The shuffled list: a permutation of `s`. */
  function Shuffle<T>(s: seq<T>, picks: seq<nat>): (r: seq<T>)
    ensures |r| == |s|
    ensures multiset(r) == multiset(s)
    decreases |s|
  {
    if |s| == 0 then []
    else
      var k := Head(picks) % |s|;
      WithoutMultiset(s, k);
      [s[k]] + Shuffle(Without(s, k), Tail(picks))
  }

  /** What is left of the tape after shuffling `n` entries. */
  function Consume(picks: seq<nat>, n: nat): (r: seq<nat>)
    ensures |r| <= |picks|
  {
    if n <= |picks| then picks[n..] else []
  }

  function IndexOf<T(==)>(s: seq<T>, x: T): (k: nat)
    requires x in s
    ensures k < |s| && s[k] == x
  {
    if s[0] == x then 0 else 1 + IndexOf(s[1..], x)
  }

  /** Where the first entry of the target ordering `t` sits in `s`, and what
      remains to be ordered after taking it. */
  lemma FirstStep<T>(s: seq<T>, t: seq<T>)
    requires multiset(t) == multiset(s) && |s| > 0
    ensures |t| == |s| && t[0] in s
    ensures multiset(t[1..]) == multiset(Without(s, IndexOf(s, t[0])))
  {
    assert |t| == |s| by { assert |multiset(t)| == |multiset(s)|; }
    assert t[0] in multiset(s) by { assert t[0] in multiset(t); }
    WithoutMultiset(s, IndexOf(s, t[0]));
    assert t == [t[0]] + t[1..];
  }

  /** The tape that makes `Shuffle(s, _)` produce `t`. */
  function PicksFor<T(==)>(s: seq<T>, t: seq<T>): seq<nat>
    requires multiset(t) == multiset(s)
    decreases |s|
  {
    if |s| == 0 then []
    else
      FirstStep(s, t);
      var k := IndexOf(s, t[0]);
      [k] + PicksFor(Without(s, k), t[1..])
  }

  /** Completeness: every permutation of `s` is the shuffle of some tape. */
  lemma {:induction false} ShuffleReachesEveryOrder<T>(s: seq<T>, t: seq<T>)
    requires multiset(t) == multiset(s)
    ensures Shuffle(s, PicksFor(s, t)) == t
    decreases |s|
  {
    assert |t| == |s| by { assert |multiset(t)| == |multiset(s)|; }
    if |s| > 0 {
      FirstStep(s, t);
      var k := IndexOf(s, t[0]);
      var rest := PicksFor(Without(s, k), t[1..]);
      var picks := [k] + rest;
      assert PicksFor(s, t) == picks;
      assert Head(picks) == k;
      assert Tail(picks) == rest;
      SmallMod(k, |s|);
      assert Shuffle(s, picks) == [s[k]] + Shuffle(Without(s, k), rest);
      ShuffleReachesEveryOrder(Without(s, k), t[1..]);
      assert t == [t[0]] + t[1..];
    }
  }
}

=== FILE: supply.dfy ===
/** The supply (dominion/supply.py) and its older twin the table
    (dominion/table.py): an ordered dictionary from card to the number of
    copies left, seeded from the player count and a kingdom, and the `buy`
    that moves one copy into a player's deck. */
module Supplies {
  import opened Wrappers
  import opened Cards
  import opened Decks
  import opened Players
  import opened Options

  /** One entry of the ordered pile dictionary. Counts are plain ints:
      nothing stops a pile from going below zero. */
  datatype SupplyPile = SupplyPile(card: Card, left: int)

  /** The dictionary in insertion order; iteration and integer indexing both
      follow this order. */
  type Supply = seq<SupplyPile>

  /** Dictionary keys are unique. */
  predicate Keyed(s: Supply) {
    forall i, j :: 0 <= i < j < |s| ==> s[i].card != s[j].card
  }

  /** The position of `c`'s pile, if it has one. */
  function Find(s: Supply, c: Card): (r: Option<nat>)
    ensures r.Some? ==> r.value < |s| && s[r.value].card == c
    ensures r.None? ==> forall i :: 0 <= i < |s| ==> s[i].card != c
  {
    if |s| == 0 then None
    else match Find(s[..|s| - 1], c)
      case Some(k) => Some(k)
      case None => if s[|s| - 1].card == c then Some(|s| - 1) else None
  }

  /** `supply[card]`: the copies left, KeyError for a card with no pile. */
  function Left(s: Supply, c: Card): (r: Result<int>)
    ensures r.Ok? <==> exists i :: 0 <= i < |s| && s[i].card == c
    ensures r.Err? ==> r.error == KeyError
    ensures Keyed(s) && r.Ok? ==> forall i :: 0 <= i < |s| && s[i].card == c ==> r.value == s[i].left
  {
    match Find(s, c)
    case None => Err(KeyError)
    case Some(k) => Ok(s[k].left)
  }

  /** Two dictionaries with the same keys at the same positions find every
      card at the same place. */
  lemma {:induction false} FindSameKeys(s: Supply, t: Supply, c: Card)
    requires |s| == |t| && forall i :: 0 <= i < |s| ==> s[i].card == t[i].card
    ensures Find(s, c) == Find(t, c)
  {
    if |s| > 0 {
      var n := |s| - 1;
      assert forall i :: 0 <= i < n ==> s[..n][i].card == t[..n][i].card;
      FindSameKeys(s[..n], t[..n], c);
    }
  }

  /** Appending a pile finds every card already present where it was, and
      the new card at the end. */
  lemma FindAppend(s: Supply, p: SupplyPile, c: Card)
    ensures Find(s, c).Some? ==> Find(s + [p], c) == Find(s, c)
    ensures Find(s, c).None? && p.card == c ==> Find(s + [p], c) == Some(|s|)
    ensures Find(s, c).None? && p.card != c ==> Find(s + [p], c) == None
  {
    assert (s + [p])[..|s|] == s;
  }

  /** `supply[card] = n`: an existing pile is overwritten in place, a new
      card gets a pile at the end. */
  function Put(s: Supply, c: Card, n: int): (r: Supply)
    ensures Left(r, c) == Ok(n)
    ensures forall x :: x != c ==> Left(r, x) == Left(s, x)
    ensures Keyed(s) ==> Keyed(r)
    ensures Find(s, c).Some? ==> |r| == |s| && forall i :: 0 <= i < |s| ==> r[i].card == s[i].card
    ensures Find(s, c).None? ==> r == s + [SupplyPile(c, n)]
  {
    match Find(s, c)
    case Some(k) =>
      var r := s[k := SupplyPile(c, n)];
      forall x ensures Find(r, x) == Find(s, x) {
        FindSameKeys(r, s, x);
      }
      assert Find(r, c) == Some(k);
      r
    case None =>
      var r := s + [SupplyPile(c, n)];
      forall x ensures x != c ==> Find(r, x) == Find(s, x) {
        FindAppend(s, SupplyPile(c, n), x);
      }
      FindAppend(s, SupplyPile(c, n), c);
      r
  }

  /** The seven base piles, in insertion order. Estates, Duchies and
      Provinces number 8 in a two-player game and 12 otherwise. */
  function BasePiles(players: int): (r: Supply)
    ensures |r| == 7 && Keyed(r)
  {
    var victory := if players == 2 then 8 else 12;
    [ SupplyPile(Copper, 60 - players * 7),
      SupplyPile(Silver, 40),
      SupplyPile(Gold, 30),
      SupplyPile(Estate, victory),
      SupplyPile(Duchy, victory),
      SupplyPile(Province, victory),
      SupplyPile(Curse, 10 * (players - 1)) ]
  }

  /** The seeding formulas for the base piles. */
  lemma BaseCounts(players: int)
    ensures Left(BasePiles(players), Copper) == Ok(60 - 7 * players)
    ensures Left(BasePiles(players), Silver) == Ok(40)
    ensures Left(BasePiles(players), Gold) == Ok(30)
    ensures forall c :: c in {Estate, Duchy, Province} ==>
              Left(BasePiles(players), c) == Ok(if players == 2 then 8 else 12)
    ensures Left(BasePiles(players), Curse) == Ok(10 * (players - 1))
    ensures forall c :: c !in {Copper, Silver, Gold, Estate, Duchy, Province, Curse} ==>
              Left(BasePiles(players), c) == Err(KeyError)
  {
    var s := BasePiles(players);
    assert s[0].card == Copper && s[1].card == Silver && s[2].card == Gold;
    assert s[3].card == Estate && s[4].card == Duchy && s[5].card == Province;
    assert s[6].card == Curse;
  }

  /** `for card in kingdom: supply_piles[card] = 10`. */
  function Seed(s: Supply, kingdom: seq<Card>): (r: Supply)
    ensures forall c :: c in kingdom ==> Left(r, c) == Ok(10)
    ensures forall c :: c !in kingdom ==> Left(r, c) == Left(s, c)
    ensures Keyed(s) ==> Keyed(r)
    ensures |s| <= |r| && forall i :: 0 <= i < |s| ==> r[i].card == s[i].card
    decreases |kingdom|
  {
    if |kingdom| == 0 then s
    else Seed(Put(s, kingdom[0], 10), kingdom[1..])
  }

  /** Setting a pile to the count it already holds changes nothing. */
  lemma PutSame(s: Supply, c: Card, n: int)
    requires Keyed(s) && Left(s, c) == Ok(n)
    ensures Put(s, c, n) == s
  {
    var k := Find(s, c).value;
    assert s[k] == SupplyPile(c, n);
    assert s[k := SupplyPile(c, n)] == s;
  }

  /** Seeding a card whose pile already holds 10 changes nothing, however
      often it is repeated. */
  lemma {:induction false} SeedPresent(s: Supply, c: Card, kingdom: seq<Card>)
    requires Keyed(s) && Left(s, c) == Ok(10)
    requires forall i :: 0 <= i < |kingdom| ==> kingdom[i] == c
    ensures Seed(s, kingdom) == s
    decreases |kingdom|
  {
    if |kingdom| > 0 {
      PutSame(s, c, 10);
      assert Seed(s, kingdom) == Seed(s, kingdom[1..]);
      SeedPresent(s, c, kingdom[1..]);
    }
  }

  /** The kingdom `Supply.__init__` settles on: an explicit non-empty `cards`
      wins, then `debug` (all of KINGDOM_CARDS), then the random choice,
      which is a parameter here. */
  function KingdomChoice(debug: bool, cards: seq<Card>, random: seq<Card>): (r: seq<Card>)
    ensures |cards| > 0 ==> r == cards
    ensures |cards| == 0 && debug ==> r == KINGDOM_CARDS
    ensures |cards| == 0 && !debug ==> r == random
  {
    if |cards| > 0 then cards else if debug then KINGDOM_CARDS else random
  }

  /** `Supply(n_players, debug, cards)`. */
  function NewSupply(players: int, debug: bool, cards: seq<Card>, random: seq<Card>): (r: Supply)
    ensures Keyed(r)
    ensures forall c :: c in KingdomChoice(debug, cards, random) ==> Left(r, c) == Ok(10)
    ensures forall c :: c !in KingdomChoice(debug, cards, random) ==>
              Left(r, c) == Left(BasePiles(players), c)
    ensures |r| >= 7 && forall i :: 0 <= i < 7 ==> r[i].card == BasePiles(players)[i].card
  {
    Seed(BasePiles(players), KingdomChoice(debug, cards, random))
  }

  lemma BaseLacksVillage(players: int)
    ensures Find(BasePiles(players), Village) == None
  {
    BaseCounts(players);
    assert Left(BasePiles(players), Village) == Err(KeyError);
  }

  /** Seeding a keyed supply that lacks `c` with copies of `c` alone appends
      a single pile of 10. */
  lemma SeedNewCard(base: Supply, c: Card, kingdom: seq<Card>)
    requires Keyed(base) && Find(base, c) == None
    requires |kingdom| > 0 && forall i :: 0 <= i < |kingdom| ==> kingdom[i] == c
    ensures Seed(base, kingdom) == base + [SupplyPile(c, 10)]
  {
    var s := Put(base, c, 10);
    assert Seed(base, kingdom) == Seed(s, kingdom[1..]);
    SeedPresent(s, c, kingdom[1..]);
  }

  /** A kingdom of Villages alone gives the base piles followed by a single
      Village pile of 10. */
  lemma VillageOnly(players: int, kingdom: seq<Card>)
    requires |kingdom| > 0 && forall i :: 0 <= i < |kingdom| ==> kingdom[i] == Village
    ensures Seed(BasePiles(players), kingdom) == BasePiles(players) + [SupplyPile(Village, 10)]
  {
    BaseLacksVillage(players);
    SeedNewCard(BasePiles(players), Village, kingdom);
  }

  /** Any kingdom taken from KINGDOM_CARDS is Village alone. */
  lemma VillageKingdom(players: int, kingdom: seq<Card>)
    requires |kingdom| > 0 && forall c :: c in kingdom ==> c in KINGDOM_CARDS
    ensures Seed(BasePiles(players), kingdom) == BasePiles(players) + [SupplyPile(Village, 10)]
  {
    KingdomIsAllVillage(kingdom);
    VillageOnly(players, kingdom);
  }

  /** `debug` with no explicit cards: base piles plus one Village pile. */
  lemma DebugSupply(players: int, random: seq<Card>)
    ensures NewSupply(players, true, [], random) == BasePiles(players) + [SupplyPile(Village, 10)]
  {
    VillageKingdom(players, KINGDOM_CARDS);
  }

  /** What `buy` is given: a position in pile order, a card, or anything
      else. */
  datatype Target = AtIndex(index: int) | OfCard(card: Card) | NotATarget

  /** `list(keys())[target]` for an int (Python indexing, negative positions
      counting from the end), the card itself, or TypeError. */
  function Resolve(s: Supply, t: Target): (r: Result<Card>)
    ensures t.AtIndex? ==> (r.Ok? <==> -|s| <= t.index < |s|)
    ensures t.AtIndex? && 0 <= t.index < |s| ==> r == Ok(s[t.index].card)
    ensures t.AtIndex? && -|s| <= t.index < 0 ==> r == Ok(s[|s| + t.index].card)
    ensures t.AtIndex? && r.Err? ==> r.error == IndexError
    ensures t.OfCard? ==> r == Ok(t.card)
    ensures t.NotATarget? ==> r == Err(TypeError)
  {
    match t
    case AtIndex(i) =>
      if 0 <= i < |s| then Ok(s[i].card)
      else if -|s| <= i < 0 then Ok(s[|s| + i].card)
      else Err(IndexError)
    case OfCard(c) => Ok(c)
    case NotATarget => Err(TypeError)
  }

  /** The outcome of a purchase: the new supply, the buyer, and the card. */
  datatype Bought = Bought(supply: Supply, buyer: Player, card: Card)

  /** `supply[card] -= 1` on the pile at position `k`. */
  function Decrement(s: Supply, k: nat): (r: Supply)
    requires k < |s|
    ensures |r| == |s| && r[k] == SupplyPile(s[k].card, s[k].left - 1)
    ensures forall i :: 0 <= i < |s| && i != k ==> r[i] == s[i]
  {
    s[k := SupplyPile(s[k].card, s[k].left - 1)]
  }

  /** `Supply.buy(target, buyer, free, to_pile)`: resolve the card, take one
      copy off its pile (KeyError when it has none), put it on `to_pile` of
      the buyer's deck, and unless the gain is free add its cost to
      `modifiers['spent']`. There is no check that the buyer can afford the
      card or that the pile is non-empty. The deck's `add` is the extended
      one, since gains go to the hand and the draw pile too. */
  function Buy(s: Supply, t: Target, buyer: Player, free: bool, to: DeckPile): (r: Result<Bought>)
    ensures r.Ok? <==> Resolve(s, t).Ok? && Find(s, Resolve(s, t).value).Some?
    ensures r.Err? ==> r.error in {TypeError, IndexError, KeyError}
  {
    var card :- Resolve(s, t);
    match Find(s, card)
    case None => Err(KeyError)
    case Some(k) =>
      var gained := buyer.(deck := AddTo(buyer.deck, [card], to));
      Ok(Bought(Decrement(s, k), if free then gained else SetModifier(gained, "spent", Cost(card)), card))
  }

  /** What a successful purchase does: exactly one copy leaves exactly the
      card's pile, exactly one copy joins the buyer's chosen pile, and only a
      paid purchase touches the modifiers, by raising `'spent'` by the cost. */
  lemma BuyEffect(s: Supply, t: Target, buyer: Player, free: bool, to: DeckPile)
    requires Buy(s, t, buyer, free, to).Ok?
    ensures var b := Buy(s, t, buyer, free, to).value;
            var k := Find(s, b.card).value;
            b.card == Resolve(s, t).value
            && |b.supply| == |s| && b.supply[k] == SupplyPile(b.card, s[k].left - 1)
            && (forall i :: 0 <= i < |s| && i != k ==> b.supply[i] == s[i])
    ensures var b := Buy(s, t, buyer, free, to).value;
            AllCards(b.buyer.deck) == AllCards(buyer.deck) + multiset{b.card}
            && Valid(b.buyer.deck) && Size(b.buyer.deck) == |AllCards(buyer.deck)| + 1
            && (to == DRAW ==> b.buyer.deck.draw == [b.card] + buyer.deck.draw)
            && (to != DRAW ==> GetPile(b.buyer.deck, to) == GetPile(buyer.deck, to) + [b.card])
            && (forall q :: q != to ==> GetPile(b.buyer.deck, q) == GetPile(buyer.deck, q))
    ensures var b := Buy(s, t, buyer, free, to).value;
            b.buyer.name == buyer.name
            && (free ==> b.buyer.modifiers == buyer.modifiers)
            && (!free ==> Modifier(b.buyer, "spent") == Modifier(buyer, "spent") + Cost(b.card))
            && (forall key :: key != "spent" ==> Modifier(b.buyer, key) == Modifier(buyer, key))
  {
    assert multiset([Resolve(s, t).value]) == multiset{Resolve(s, t).value};
  }

  /** Taking a copy off a keyed supply's pile keeps the keys and changes
      only that card's count. */
  lemma DecrementLeft(s: Supply, k: nat)
    requires Keyed(s) && k < |s|
    ensures var r := Decrement(s, k);
            Keyed(r) && Left(r, s[k].card) == Ok(s[k].left - 1)
            && forall c :: c != s[k].card ==> Left(r, c) == Left(s, c)
  {
    var r := Decrement(s, k);
    forall c ensures Find(r, c) == Find(s, c) {
      FindSameKeys(r, s, c);
    }
  }

  /** `r` is `s` with one copy of `card` gone: keys still unique, `card`'s
      count one lower, every other count as it was. */
  ghost predicate OneTaken(s: Supply, r: Supply, card: Card) {
    Keyed(r) && Left(s, card).Ok? && Left(r, card) == Ok(Left(s, card).value - 1)
    && forall c :: c != card ==> Left(r, c) == Left(s, c)
  }

  /** A keyed supply loses exactly one copy of the bought card. */
  lemma BuyLeft(s: Supply, t: Target, buyer: Player, free: bool, to: DeckPile)
    requires Keyed(s) && Buy(s, t, buyer, free, to).Ok?
    ensures var b := Buy(s, t, buyer, free, to).value; OneTaken(s, b.supply, b.card)
  {
    BuySupply(s, t, buyer, free, to);
    var b := Buy(s, t, buyer, free, to).value;
    TakeOne(s, Find(s, b.card).value, b.card, b.supply);
  }

  /** Taking one copy off the pile of `card`, in the counts `Left` reads. */
  lemma TakeOne(s: Supply, k: nat, card: Card, r: Supply)
    requires Keyed(s) && k < |s| && s[k].card == card && r == Decrement(s, k)
    ensures OneTaken(s, r, card)
  {
    assert Left(s, card) == Ok(s[k].left);
    DecrementLeft(s, k);
  }

  lemma BuySupply(s: Supply, t: Target, buyer: Player, free: bool, to: DeckPile)
    requires Buy(s, t, buyer, free, to).Ok?
    ensures var b := Buy(s, t, buyer, free, to).value;
            var k := Find(s, Resolve(s, t).value).value;
            b.card == Resolve(s, t).value && b.supply == Decrement(s, k)
  {
  }

  // ---------------------------------------------------------------------
  // The table, dominion/table.py.
  // ---------------------------------------------------------------------

  /** The module switches of dominion/table.py. */
  const DEBUG: bool := true
  const FIXED: bool := false

  /** The kingdom the FIXED list evidently means. Five of its names
      (Chapel, Bandit, Market, Smithy and Cellar) are not among the names
      the package's base-game module exports, so the written list cannot
      be built. */
  const FIXED_KINGDOM: seq<Card> :=
    [Chapel, Bandit, Witch, Market, Village, Smithy, Mine, Merchant, Workshop, Cellar]

  /** The table's kingdom as written: FIXED is checked last and raises
      NameError on its first unexported name; otherwise DEBUG overrides the
      random choice. */
  function TableKingdom(debug: bool, fixed: bool, random: seq<Card>): (r: Result<seq<Card>>)
    ensures fixed <==> r == Err(NameError)
    ensures !fixed && debug ==> r == Ok(KINGDOM_CARDS)
    ensures !fixed && !debug ==> r == Ok(random)
  {
    if fixed then Err(NameError) else if debug then Ok(KINGDOM_CARDS) else Ok(random)
  }

  /** The kingdom the switches evidently select: FIXED gives the ten fixed
      cards, else DEBUG gives the whole kingdom list, else the random choice. */
  function IntendedKingdom(debug: bool, fixed: bool, random: seq<Card>): (r: seq<Card>)
    ensures fixed ==> r == FIXED_KINGDOM
    ensures !fixed && debug ==> r == KINGDOM_CARDS
    ensures !fixed && !debug ==> r == random
  {
    if fixed then FIXED_KINGDOM else if debug then KINGDOM_CARDS else random
  }

  /** Without FIXED, the written and the intended kingdoms agree. */
  lemma KingdomAgrees(debug: bool, random: seq<Card>)
    ensures TableKingdom(debug, false, random) == Ok(IntendedKingdom(debug, false, random))
  {
  }

  /** With FIXED set, the written table raises where the intended one has
      the ten fixed cards. */
  lemma FixedRaises(debug: bool, random: seq<Card>)
    ensures TableKingdom(debug, true, random) == Err(NameError)
    ensures IntendedKingdom(debug, true, random) == FIXED_KINGDOM
  {
  }

  /** `Table(n_players)`, with the switches as shipped; these never reach
      the raising branch. */
  function NewTable(players: int, random: seq<Card>): (r: Supply)
    ensures Keyed(r)
    ensures TableKingdom(DEBUG, FIXED, random).Ok?
    ensures r == Seed(BasePiles(players), TableKingdom(DEBUG, FIXED, random).value)
  {
    Seed(BasePiles(players), IntendedKingdom(DEBUG, FIXED, random))
  }

  /** The shipped table is the debug supply: base piles with the same
      formulas, then one Village pile of 10. */
  lemma TableIsDebugSupply(players: int, random: seq<Card>)
    ensures NewTable(players, random) == NewSupply(players, true, [], random)
    ensures NewTable(players, random) == BasePiles(players) + [SupplyPile(Village, 10)]
  {
    DebugSupply(players, random);
  }

  /** With FIXED set, the intended table gives each of the ten fixed cards
      a pile of 10 after the base piles. */
  lemma FixedTable(players: int, random: seq<Card>)
    ensures var t := Seed(BasePiles(players), IntendedKingdom(DEBUG, true, random));
            Keyed(t) && forall c :: c in FIXED_KINGDOM ==> Left(t, c) == Ok(10)
  {
  }

  /** `Table.buy(idx, buyer)`: the card at position `idx`, one copy off its
      pile, the written `add` to the discard pile, and always a charge. */
  function TableBuy(s: Supply, idx: int, buyer: Player): (r: Result<Bought>)
    ensures r.Ok? <==> -|s| <= idx < |s|
    ensures r.Err? ==> r.error == IndexError
  {
    var card :- Resolve(s, AtIndex(idx));
    match Find(s, card)
    case None => Err(KeyError)
    case Some(k) =>
      match Add(buyer.deck, [card], Pile(DISCARD))
      case Err(e) => Err(e)
      case Ok(deck) => Ok(Bought(Decrement(s, k), SetModifier(buyer.(deck := deck), "spent", Cost(card)), card))
  }

  /** The table's buy is the supply's buy of a position, paid, into the
      discard pile. */
  lemma TableBuyIsBuy(s: Supply, idx: int, buyer: Player)
    ensures TableBuy(s, idx, buyer) == Buy(s, AtIndex(idx), buyer, false, DISCARD)
  {
    var c := Resolve(s, AtIndex(idx));
    if c.Ok? {
      AddToDiscard(buyer.deck, [c.value]);
    }
  }

  // ---------------------------------------------------------------------
  // Option builders over the supply.
  // ---------------------------------------------------------------------

  /** Which piles a supply option builder offers: non-empty piles costing at
      most `limit`, optionally treasures only. */
  datatype Offer = CostUpTo(limit: int) | TreasureUpTo(limit: int)

  predicate Offers(f: Offer, p: SupplyPile) {
    Cost(p.card) <= f.limit && p.left > 0 && (f.TreasureUpTo? ==> Kind(p.card) == TREASURE)
  }

  function PileLabels(s: Supply): (r: seq<string>)
    ensures |r| == |s| && forall i :: 0 <= i < |s| ==> r[i] == Name(s[i].card)
  {
    seq(|s|, i requires 0 <= i < |s| => Name(s[i].card))
  }

  function PileMask(s: Supply, f: Offer): (r: seq<bool>)
    ensures |r| == |s| && forall i :: 0 <= i < |s| ==> r[i] == Offers(f, s[i])
  {
    seq(|s|, i requires 0 <= i < |s| => Offers(f, s[i]))
  }

  /** `get_purchasable_cards_as_options`, the `get_buy_options` of Workshop,
      Remodel and Artisan, and Mine's `get_eligible_treasures_as_options`:
      position i is offered exactly when its pile passes the filter. */
  function SupplyOptions(s: Supply, f: Offer): (r: map<int, string>)
    ensures forall i :: i in r <==> 0 <= i < |s| && Offers(f, s[i])
    ensures forall i :: i in r ==> r[i] == Name(s[i].card)
  {
    Collect(PileLabels(s), PileMask(s, f), |s|)
  }

  /** What a player may buy with the treasure in hand. */
  function Purchasable(s: Supply, p: Player): map<int, string> {
    SupplyOptions(s, CostUpTo(Treasure(p)))
  }

  /** Buying a position of a keyed supply takes one copy off that pile. */
  lemma TableBuyAt(s: Supply, i: int, p: Player)
    requires Keyed(s) && 0 <= i < |s|
    ensures TableBuy(s, i, p).Ok?
    ensures var b := TableBuy(s, i, p).value;
            b.card == s[i].card && Left(b.supply, b.card) == Ok(s[i].left - 1)
  {
    TableBuyIsBuy(s, i, p);
    BuyLeft(s, AtIndex(i), p, false, DISCARD);
    var b := TableBuy(s, i, p).value;
    assert OneTaken(s, b.supply, b.card);
    assert Left(s, b.card) == Ok(s[i].left);
  }

  /** A purchasable position is bought without error and never takes its
      pile below zero. */
  lemma PurchasableNeverEmpty(s: Supply, p: Player, i: int)
    requires Keyed(s) && i in Purchasable(s, p)
    ensures TableBuy(s, i, p).Ok?
    ensures var b := TableBuy(s, i, p).value;
            b.card == s[i].card && Cost(b.card) <= Treasure(p) && Left(b.supply, b.card) == Ok(s[i].left - 1)
            && s[i].left - 1 >= 0
  {
    assert 0 <= i < |s| && Offers(CostUpTo(Treasure(p)), s[i]);
    TableBuyAt(s, i, p);
  }

  /** Poacher's count of piles with nothing left. */
  function EmptyPiles(s: Supply): (n: nat)
    ensures n <= |s|
  {
    if |s| == 0 then 0
    else EmptyPiles(s[..|s| - 1]) + (if s[|s| - 1].left == 0 then 1 else 0)
  }

  /** No pile is counted exactly when none is at zero. */
  lemma {:induction false} EmptyPilesNone(s: Supply)
    ensures EmptyPiles(s) == 0 <==> forall i :: 0 <= i < |s| ==> s[i].left != 0
  {
    if |s| > 0 {
      EmptyPilesNone(s[..|s| - 1]);
    }
  }

  /** Buying from a pile that had more than one copy empties no pile. */
  lemma {:induction false} EmptyPilesDecrement(s: Supply, k: nat)
    requires k < |s| && s[k].left > 1
    ensures EmptyPiles(Decrement(s, k)) == EmptyPiles(s)
  {
    var r := Decrement(s, k);
    if |s| > 1 {
      var n := |s| - 1;
      if k < n {
        assert r[..n] == Decrement(s[..n], k);
        EmptyPilesDecrement(s[..n], k);
      } else {
        assert r[..n] == s[..n];
      }
    }
  }
}

=== FILE: turn.dfy ===
/** What every event's `forward(game_ctx, player)` works on, and the two
    pieces of dialogue several effects share: revealing a Moat against an
    attack, and marking hand positions one answer at a time. */
module Turns {
  import opened Wrappers
  import opened Cards
  import opened Decks
  import opened Seqs
  import opened Players
  import opened Queue
  import opened Choices

  /** The context and the targeted player after an effect, and the answers
      the player has not given yet. */
  datatype Turn = Turn(ctx: Ctx, player: Player, rest: seq<Choice>)

  /** A draw without replacing the hand keeps the hand and adds as many
      cards as were asked for, or all the deck has outside the hand. */
  lemma DrawAdds(d: Deck, n: nat)
    ensures var r := DrawCards(d, n, false);
            |r.hand| == |d.hand| + Min(n, |d.draw| + |d.discard|)
            && r.hand[..|d.hand|] == d.hand
            && AllCards(r) == AllCards(d)
    ensures |d.draw| >= n ==> DrawCards(d, n, false).hand == d.hand + d.draw[..n]
  {
    DrawWithoutReshuffle(d, n, false);
    var r := DrawCards(d, n, false);
    if |d.draw| < n {
      DrawWithReshuffle(d, n, false);
    } else {
      assert r.hand == r.hand[..|d.hand|] + r.hand[|d.hand|..];
    }
  }

  /** `deck.move(cards, from_pile, to_pile)` between two of the piles it
      knows, when the source holds the cards: it cannot fail, the cards
      land on top of the destination (the last one moved on top), and the
      source loses exactly them. */
  function MoveCards(d: Deck, cards: seq<Card>, from: DeckPile, to: DeckPile): (r: Deck)
    requires from != to && Pile(from) in KnownPiles && Pile(to) in KnownPiles
    requires multiset(cards) <= multiset(GetPile(d, from))
    ensures Move(d, cards, Pile(from), Pile(to), "TOP") == Ok(r)
    ensures GetPile(r, to) == Reverse(cards) + GetPile(d, to)
    ensures multiset(GetPile(r, from)) == multiset(GetPile(d, from)) - multiset(cards)
    ensures |GetPile(r, from)| == |GetPile(d, from)| - |cards|
    ensures forall q :: q != from && q != to ==> GetPile(r, q) == GetPile(d, q)
    ensures AllCards(r) == AllCards(d) && (Valid(d) ==> Valid(r))
  {
    MoveEachSpec(d, cards, from, to);
    Move(d, cards, Pile(from), Pile(to), "TOP").value
  }

  /** `draw_cards(n=1, to_caller=True)`: the top card of the deck, if it has
      any card outside the hand; a card taken leaves draw and discard one
      card shorter. */
  function TopCard(d: Deck): (r: Taken)
    ensures |r.cards| <= 1
    ensures |r.cards| == 0 <==> |d.draw| + |d.discard| == 0
    ensures |d.draw| > 0 ==> r.cards == [d.draw[0]] && r.deck.draw == d.draw[1..]
    ensures AllCards(r.deck) + multiset(r.cards) == AllCards(d) && Valid(r.deck)
    ensures r.deck.hand == d.hand && r.deck.played == d.played
    ensures |r.deck.draw| + |r.deck.discard| + |r.cards| == |d.draw| + |d.discard|
  {
    DrawToCallerCards(d, 1);
    DrawToCaller(d, 1)
  }

  /** `add(cards, to_pile=DISCARD)`, which cannot fail. */
  function Discarded(d: Deck, cards: seq<Card>): (r: Deck)
    ensures r.discard == d.discard + cards && r.draw == d.draw && r.hand == d.hand && r.played == d.played
    ensures AllCards(r) == AllCards(d) + multiset(cards) && Valid(r)
  {
    Add(d, cards, Pile(DISCARD)).value
  }

  /** An option builder offers nothing exactly when no position passes
      its filter. */
  lemma NoOptions(cards: seq<Card>, f: Filter)
    ensures CardOptions(cards, f) == map[] <==> forall i :: 0 <= i < |cards| ==> !Keeps(f, i, cards[i])
  {
    if forall i :: 0 <= i < |cards| ==> !Keeps(f, i, cards[i]) {
      assert forall i :: i !in CardOptions(cards, f);
    }
  }

  /** `p2` is `p` with one copy of `c` taken from the hand and put on top
      of the draw pile, nothing else changed. */
  ghost predicate OnTop(p: Player, c: Card, p2: Player) {
    p2.name == p.name && p2.modifiers == p.modifiers
    && c in Hand(p)
    && p2.deck.draw == [c] + p.deck.draw
    && multiset(Hand(p2)) == multiset(Hand(p)) - multiset{c}
    && |Hand(p2)| == |Hand(p)| - 1
    && p2.deck.discard == p.deck.discard && p2.deck.played == p.deck.played
    && AllCards(p2.deck) == AllCards(p.deck)
    && (Valid(p.deck) ==> Valid(p2.deck))
  }

  /** Putting the card at hand position `i` on top of the draw pile. */
  function PutOnTop(p: Player, i: int): (r: Player)
    requires 0 <= i < |Hand(p)|
    ensures OnTop(p, Hand(p)[i], r)
    ensures Move(p.deck, [Hand(p)[i]], Pile(HAND), Pile(DRAW), "TOP") == Ok(r.deck)
  {
    var c := Hand(p)[i];
    assert multiset([c]) <= multiset(Hand(p));
    assert Reverse([c]) == [c];
    var d := MoveCards(p.deck, [c], HAND, DRAW);
    assert GetPile(d, DISCARD) == GetPile(p.deck, DISCARD);
    assert GetPile(d, PLAYED) == GetPile(p.deck, PLAYED);
    p.(deck := d)
  }

  // ---------------------------------------------------------------------
  // The Moat reaction of the attacks' Other events.
  // ---------------------------------------------------------------------

  /** `get_reaction_options(hand)`: the positions holding a Moat. */
  function ReactionOptions(hand: seq<Card>): (r: map<int, string>)
    ensures forall i :: i in r <==> 0 <= i < |hand| && hand[i] == Moat
  {
    CardOptions(hand, Among([Moat]))
  }

  /** Whether the attack was warded off, and the answers left. */
  datatype Reaction = Reaction(defended: bool, rest: seq<Choice>)

  /** The opening of every attack's Other event: with a Moat in hand the
      player is asked (Skip allowed) and any Moat position wards the attack
      off; without one nothing is asked. */
  function React(hand: seq<Card>, inp: seq<Choice>): (r: Result<Reaction>)
    ensures Moat !in hand ==> r == Ok(Reaction(false, inp))
    ensures r.Ok? && r.value.defended ==> Moat in hand
    ensures Moat in hand && |inp| > 0 && inp[0] == Skip ==> r == Ok(Reaction(false, inp[1..]))
    ensures Moat in hand && |inp| > 0 && inp[0].Pick? && 0 <= inp[0].index < |hand| && hand[inp[0].index] == Moat ==>
              r == Ok(Reaction(true, inp[1..]))
    ensures r.Err? ==> r.error == NoMoreInput
    ensures r.Ok? ==> IsSuffix(r.value.rest, inp)
  {
    if Moat !in hand then Ok(Reaction(false, inp))
    else
      var a :- Ask(ReactionOptions(hand), true, inp);
      Ok(Reaction(a.choice != Skip, a.rest))
  }

  // ---------------------------------------------------------------------
  // Marking positions.
  // ---------------------------------------------------------------------

  /** The positions chosen so far and the answers left. */
  datatype Marked = Marked(marked: seq<int>, rest: seq<Choice>)

  /** The marking loops of Cellar, Militia, Poacher and Sentry: while fewer
      than `goal` positions are marked, the unmarked positions are offered;
      Skip (when allowed) ends the loop, any other answer marks a position. */
  function Mark(cards: seq<Card>, marked: seq<int>, goal: nat, allowSkip: bool, inp: seq<Choice>): (r: Result<Marked>)
    requires InRange(marked, |cards|) && Distinct(marked) && |marked| <= goal
    ensures r.Ok? ==> InRange(r.value.marked, |cards|) && Distinct(r.value.marked)
    ensures r.Ok? ==> |marked| <= |r.value.marked| <= goal && r.value.marked[..|marked|] == marked
    ensures r.Ok? && !allowSkip ==> |r.value.marked| == goal
    ensures r.Ok? ==> IsSuffix(r.value.rest, inp)
    ensures r.Err? ==> r.error == NoMoreInput
    decreases |inp|
  {
    if |marked| == goal then Ok(Marked(marked, inp))
    else
      var a :- Ask(CardOptions(cards, NotIn(marked)), allowSkip, inp);
      match a.choice
      case Skip => Ok(Marked(marked, a.rest))
      case Pick(i) =>
        MarkOne(cards, marked, i);
        var r := Mark(cards, marked + [i], goal, allowSkip, a.rest);
        if r.Ok? then
          PrefixOfPrefix(r.value.marked, marked, i);
          SuffixTrans(r.value.rest, a.rest, inp);
          r
        else r
  }

  /** An offered position as the next answer is marked, and marking goes on
      from there. */
  lemma MarkStep(cards: seq<Card>, marked: seq<int>, goal: nat, allowSkip: bool, inp: seq<Choice>, i: int)
    requires InRange(marked, |cards|) && Distinct(marked) && |marked| < goal
    requires |inp| > 0 && inp[0] == Pick(i) && i in CardOptions(cards, NotIn(marked))
    ensures InRange(marked + [i], |cards|) && Distinct(marked + [i])
    ensures Mark(cards, marked, goal, allowSkip, inp) == Mark(cards, marked + [i], goal, allowSkip, inp[1..])
  {
    MarkOne(cards, marked, i);
    AskTakesFirst(CardOptions(cards, NotIn(marked)), allowSkip, inp, 0);
  }

  /** Marking an offered position keeps the marks distinct and in range. */
  lemma MarkOne(cards: seq<Card>, marked: seq<int>, i: int)
    requires InRange(marked, |cards|) && Distinct(marked)
    requires i in CardOptions(cards, NotIn(marked))
    ensures InRange(marked + [i], |cards|) && Distinct(marked + [i])
  {
    assert i !in marked;
  }

  lemma PrefixOfPrefix(s: seq<int>, marked: seq<int>, i: int)
    requires |marked| + 1 <= |s| && s[..|marked| + 1] == marked + [i]
    ensures s[..|marked|] == marked
  {
    assert s[..|marked| + 1][..|marked|] == s[..|marked|];
  }

  /** Skip-free marking can only finish when there are enough positions:
      asked for more marks than cards, the player can never be done. */
  lemma {:induction false} MarkStuck(cards: seq<Card>, marked: seq<int>, goal: nat, inp: seq<Choice>)
    requires InRange(marked, |cards|) && Distinct(marked) && |marked| <= goal
    requires goal > |cards|
    ensures Mark(cards, marked, goal, false, inp).Err?
    decreases |inp|
  {
    DistinctWithin(marked, |cards|);
    var opts := CardOptions(cards, NotIn(marked));
    var a := Ask(opts, false, inp);
    if a.Ok? {
      var i := a.value.choice.index;
      MarkOne(cards, marked, i);
      DistinctWithin(marked + [i], |cards|);
      MarkStuck(cards, marked + [i], goal, a.value.rest);
      assert Mark(cards, marked, goal, false, inp) == Mark(cards, marked + [i], goal, false, a.value.rest);
    }
  }

  /** Distinct positions below `n` number at most `n`. */
  lemma DistinctWithin(marked: seq<int>, n: nat)
    requires InRange(marked, n) && Distinct(marked)
    ensures |marked| <= n
  {
    var s := set k | 0 <= k < |marked| :: marked[k];
    assert |s| == |marked| by {
      DistinctSetSize(marked);
    }
    assert s <= RangeSet(n);
    RangeSetSize(n);
    SubsetSize(s, RangeSet(n));
  }

  function RangeSet(n: nat): (r: set<int>)
    ensures forall k :: k in r <==> 0 <= k < n
  {
    if n == 0 then {} else RangeSet(n - 1) + {n - 1}
  }

  lemma {:induction false} RangeSetSize(n: nat)
    ensures |RangeSet(n)| == n
  {
    if n > 0 {
      RangeSetSize(n - 1);
    }
  }

  lemma {:induction false} DistinctSetSize(s: seq<int>)
    requires Distinct(s)
    ensures |set k | 0 <= k < |s| :: s[k]| == |s|
    decreases |s|
  {
    if |s| > 0 {
      var t := s[..|s| - 1];
      DistinctSetSize(t);
      var a := set k | 0 <= k < |t| :: t[k];
      var b := set k | 0 <= k < |s| :: s[k];
      assert b == a + {s[|s| - 1]};
      assert s[|s| - 1] !in a;
    }
  }

  lemma SubsetSize(a: set<int>, b: set<int>)
    requires a <= b
    ensures |a| <= |b|
  {
    assert b == a + (b - a);
  }
}

=== FILE: wrappers.dfy ===
/** Option and Result values, and the exceptions the modelled Python code raises. */
module Wrappers {

  datatype Option<+T> = None | Some(value: T) {
    function ValueOr(default: T): T {
      match this
      case Some(v) => v
      case None => default
    }
  }

  /** The Python exception classes the engine can raise, plus the way an
      input source can fail to give an acceptable answer. */
  datatype Exception =
    | ValueError
    | NotImplementedError
    | RuntimeError
    | KeyError
    | TypeError
    | IndexError
    | NameError
    | NoMoreInput     // the input source has no answer left

  /** A computation that either returns a value or raises. Usable with `:-`. */
  datatype Result<+T> = Ok(value: T) | Err(error: Exception) {
    predicate IsFailure() {
      Err?
    }

    function PropagateFailure<U>(): Result<U>
      requires Err?
    {
      Err(error)
    }

    function Extract(): T
      requires Ok?
    {
      value
    }
  }
}
